=== FILE: README.md ===
# Grid path-finding search strategies in Dafny

This project models the search core of a robot-navigation program. A map has
`rows` × `cols` cells, a start cell, a set of goal cells and rectangular walls.
The program answers "find a path from the start to some goal" with six search
strategies and a multi-goal tour:

- depth-first search (DFS);
- breadth-first search (BFS);
- greedy best-first search (GBFS);
- A*;
- iterative-deepening search (IDS) with its inner depth-limited search;
- iterative-deepening A* (IDA*);
- a multi-goal A* that visits every goal.

Every search returns `(actions, nodes, goal)`, or `(None, nodes, None)` on
failure. The model writes this as `SearchResult = Found(actions, nodes, goal) |
NotFound(nodes)`.

Each strategy is modelled branch by branch, with its own data structures:

- DFS pushes onto a stack and overwrites a parent link on every push.
- BFS marks a state explored when it is queued. The start is never marked, so
  its own parent link can be overwritten.
- GBFS and A* keep a `(priority, insertion#, state)` priority queue with a
  set of waiting states. A* relinks a state whenever it finds a cheaper cost.
- IDS explores bounded stacks and reports the number of explored states.
- IDA* runs threshold rounds. On success it reports the node count of the
  last round; on failure, the sum over all rounds.

The main contract of each search:

- A found goal really is a goal.
- The returned actions are a walk through open cells from the start to that
  goal.
- Those actions are what rebuilding the path from the search's own parent
  links gives.
- A failure happens only when no goal is reachable.

Modules:

- `Grid` (`grid.dfy`): the environment record and its queries. These are
  bounds, walls, goal test, successor generation in the order UP, LEFT, DOWN,
  RIGHT, Manhattan distance, the min-of-Manhattan heuristic (infinite without
  goals) and the expansion of wall rectangles.
- `Paths` (`paths.dfy`): replaying actions, `print_path`, parent maps and
  `_reconstruct_path`. Also the `Ranked` invariant: every non-start link
  points at a state of smaller rank. Searches keep this invariant, so
  rebuilding a path always terminates.
  `ReachSet` is the set of states reachable from a start. Every node count
  is bounded by its size, and a failed search records exactly these states.
- `Frontier` (`frontier.dfy`): the `heapq` priority queue, seen as a
  collection from which the least `(priority, insertion#)` entry is popped.
  Also the potential that bounds how often a cost can be lowered.
- `DepthFirst`, `BreadthFirst`, `GreedyBestFirst`, `AStar`,
  `IterativeDeepening`, `IdaStar`, `MultiGoal`: one module per strategy.

Python's `float('inf')` is `ExtNat.Inf`. The comparisons and `min` involving
it are `Below` and `MinExt`. Integers are unbounded in both languages, so
there is no wrap-around to model.

## Model

| member | source | states |
|---|---|---|
| Grid.MinExt | mapAlgorithms.py:366 | `min` of two possibly infinite costs is one of them, and neither lies strictly below it |
| Grid.InBoundsIffCell | environment.py:69-71 | a position is within bounds exactly when it is one of the rows × cols cells |
| Grid.Successors | environment.py:76-96 | at most four successors; each is a unit move into an in-bounds non-wall cell, paired with its action; they come in strictly increasing UP, LEFT, DOWN, RIGHT order |
| Grid.SuccessorsComplete | environment.py:83-94 | a move is listed exactly when the cell it enters is within bounds and not a wall |
| Grid.SuccessorsDistinct | environment.py:90-96 | no two successors lead to the same cell |
| Grid.KeepOpenSpec | environment.py:90-94 | the filter over a move list keeps exactly the moves into open cells, each paired with the cell it reaches |
| Grid.KeepOpenOrdered | environment.py:90-94 | filtering keeps the order of the move list |
| Grid.MoveOrderComplete | environment.py:83-88 | the move list holds all four actions |
| Grid.ManhattanMetric | environment.py:98-99 | the distance is symmetric, zero exactly between equal cells, and a unit move changes it by exactly one |
| Grid.HeuristicIsMinimum | environment.py:101-109 | the heuristic is infinite exactly when there are no goals; otherwise it equals the distance to some goal and is at most the distance to every goal |
| Grid.HeuristicZeroIffGoal | environment.py:101-112 | the heuristic is zero exactly on goal cells |
| Grid.HeuristicConsistent | environment.py:98-109 | a unit move changes the heuristic by at most one, and never turns it from finite to infinite |
| Grid.RetargetGoals | mapAlgorithms.py:178-180 | with a replaced goal set, the goal test and heuristic follow the new goals while bounds and walls are unchanged |
| Grid.RectMembers | environment.py:57-60 | a cell belongs to a wall rectangle exactly when its column and row fall inside the rectangle's ranges |
| Grid.AddWallRow | environment.py:59-60 | after the inner loop, a cell is a wall exactly when it was one before or lies on that row within the width |
| Grid.AddWallRect | environment.py:57-60 | adding a rectangle adds exactly its cells to the walls |
| Grid.BuildWalls | environment.py:53-60 | a cell is a wall exactly when it lies in some listed rectangle |
| Paths.Replay | mapAlgorithms.py:481-490 | the state list starts at the start, has one more entry than there are actions, and each entry is the previous one moved by the matching action |
| Paths.ReplayCharacterized | mapAlgorithms.py:481-490 | any state list that starts at the start and follows the actions one move at a time is the replay |
| Paths.ReplayConcat | mapAlgorithms.py:434 | replaying joined action lists replays the first, then the second from where the first ended |
| Paths.ReachesConcat | mapAlgorithms.py:434 | a path to `t` followed by a path from `t` to `u` is a path to `u` that passes every state of both |
| Paths.PrintPath | mapAlgorithms.py:476-491 | no actions or no start give no states; otherwise the result is the replay of the actions from the start |
| Paths.ReconstructPathSpec | mapAlgorithms.py:457-474 | goal equal to start gives the empty path; a goal that differs and is unrecorded gives None; any path returned labels a chain of parent links from the start to the goal |
| Paths.WalkFollowsLinks | mapAlgorithms.py:463-474 | a successful backward walk yields actions whose forward chain of parent links ends at the state it began from |
| Paths.WalkReaches | mapAlgorithms.py:463-474 | in a ranked parent map the backward walk from a recorded state succeeds and yields a path to it |
| Paths.ReconstructReaches | mapAlgorithms.py:457-474 | in a ranked parent map, rebuilding the path to any recorded state succeeds and gives a path from the start to it |
| Paths.ReconstructRoundTrip | mapAlgorithms.py:457-474 | each step of a rebuilt path is one of the successors generated at the previous state, so rebuilding inverts the recorded links |
| Paths.RelinkRanked | mapAlgorithms.py:46 | overwriting a state's link with a link from a recorded state keeps the map ranked, provided the state is nobody's predecessor |
| Paths.RelinkStartRanked | mapAlgorithms.py:86-90 | overwriting the start's own link keeps the map ranked, since rebuilding stops at the start |
| Paths.SuccessorsListed | environment.py:76-96 | every generated successor is a unit move into an open cell, and no cell is listed twice |
| Paths.TargetsSplit | environment.py:90-96 | cutting a successor list at one index splits its set of target states into the part before, that state and the part after |
| Paths.NotEarlier | environment.py:90-96 | in a successor list without repeated states, each target occurs neither among the earlier nor among the later targets |
| Paths.ClosedTrapsPaths | mapAlgorithms.py:53 | a path that starts inside a set closed under moves into open cells never leaves it |
| Paths.ClosedGoalFree | mapAlgorithms.py:53 | from inside a closed set with no goal, no goal is reachable |
| Paths.ReachSetMembers | mapAlgorithms.py:53 | a state belongs to the reachable set exactly when some path of moves through open cells leads to it |
| Paths.RecordsWithinReach | mapAlgorithms.py:46 | a parent map ranked from the start records only states reachable from the start, so it holds at most as many states as are reachable |
| Paths.ClosedHoldsReach | mapAlgorithms.py:53 | a set closed under moves into open cells holds every state reachable from any of its members |
| Paths.RecordsReach | mapAlgorithms.py:53 | a ranked parent map that contains a closed set holding the start records exactly the reachable states, so `len(parent)` is their number |
| Paths.ReachSetIgnoresTargets | mapAlgorithms.py:176-180 | changing the start and the goal set does not change which states are reachable from a given state |
| Frontier.MinIndex | mapAlgorithms.py:128 | the chosen entry exists and no entry sorts before it by (priority, insertion#) |
| Frontier.LeastEntryUnique | mapAlgorithms.py:149-151 | with distinct insertion numbers there is exactly one least entry, so the pop order does not depend on the heap layout |
| Frontier.PopMin | mapAlgorithms.py:128 | `heappop` returns a least entry and leaves exactly the other entries |
| Frontier.PotentialDrops | mapAlgorithms.py:217-221 | lowering a recorded cost, or recording a new state below the cap, never raises the potential, and strictly lowers it for a listed cell |
| DepthFirst.PushSuccessors | mapAlgorithms.py:42-48 | the stack grows by exactly the unexplored successors in reverse order; the recorded states grow by exactly the unexplored successors; each of them is linked from the expanded state, overwriting any older link; every other link is kept; the map stays ranked |
| DepthFirst.KeptStep | mapAlgorithms.py:43-45 | writing the link of one unexplored successor changes no link except that successor's, and an explored successor changes none |
| DepthFirst.PushTaken | mapAlgorithms.py:43-45 | pushing and linking one unexplored successor extends the loop's facts (stack, recorded states, links, ranking) by that successor |
| DepthFirst.PushSkipped | mapAlgorithms.py:43 | passing over an explored successor extends the loop's facts with nothing pushed or linked |
| DepthFirst.PushOne | mapAlgorithms.py:42-45 | one iteration over the reversed successors: the unexplored one at the current index is pushed and linked, an explored one is passed over, and the loop's facts move one index down |
| DepthFirst.Step | mapAlgorithms.py:27-48 | one pop of the stack top: an explored top is skipped with everything unchanged; a goal top is reported as the last expanded state after no other goal, with links intact; otherwise the top is explored and expanded, and the stack becomes the rest plus its unexplored successors in reverse order |
| DepthFirst.ExhaustedUnreachable | mapAlgorithms.py:53 | an empty stack after exploring only non-goals means no goal is reachable; then the explored states, the recorded states and the reachable states coincide |
| DepthFirst.StopFacts | mapAlgorithms.py:44-53 | every expanded state is recorded, every non-start link points back at an expanded state, and only reachable states are recorded |
| DepthFirst.Explore | mapAlgorithms.py:27-48 | the loop extends the expansion log, expands no state twice, and stops at the first goal expanded or with an empty stack |
| DepthFirst.Drain | mapAlgorithms.py:27-53 | the loop reports a goal reached by its rebuilt path, the first goal expanded; it fails only when no goal is reachable, with exactly the reachable states recorded and expanded; no state is expanded twice; the expansion log only grows; every link points back at an expanded state |
| DepthFirst.Search | mapAlgorithms.py:6-53 | a start goal gives `([], 1, start)`; the node count is the number of recorded states, all reachable; on failure it is the number of reachable states, each expanded once; a found goal is reached by the returned actions, which equal the rebuilt path, and is the first goal expanded |
| BreadthFirst.AppendSuccessors | mapAlgorithms.py:85-92 | the queue grows by exactly the unexplored successors in order, they become explored, and the append log grows by exactly their appends |
| BreadthFirst.AppendedPush | mapAlgorithms.py:88-90 | the logged appended states after one more append are the earlier ones and the appended state |
| BreadthFirst.AppendOne | mapAlgorithms.py:87-90 | one successor is appended, marked explored and linked exactly when it was unexplored |
| BreadthFirst.Step | mapAlgorithms.py:76-95 | one dequeue of the queue front: it is reported exactly when it is a goal, with everything unchanged; otherwise it is expanded, the queue becomes the rest plus the unexplored successors in order, which become explored and are logged as appends |
| BreadthFirst.ExhaustedUnreachable | mapAlgorithms.py:97 | an empty queue means no goal is reachable, and the recorded states are exactly the reachable ones |
| BreadthFirst.Explore | mapAlgorithms.py:76-95 | the loop extends the append log and stops at a goal or with an empty queue, keeping the link facts |
| BreadthFirst.Drain | mapAlgorithms.py:76-97 | the loop's result is a reachable goal with its rebuilt path, or failure only when no goal is reachable; the append log only grows, and the recorded states are the start and the logged appends, all reachable; on failure exactly the reachable states |
| BreadthFirst.Search | mapAlgorithms.py:55-97 | the same result contract as DFS; no state is appended twice; every appended state other than the start keeps the link of its one append; the recorded states are the start and the appended ones; the node count is at most, and on failure exactly, the number of reachable states |
| GreedyBestFirst.PushSuccessors | mapAlgorithms.py:146-154 | the queue grows by exactly the reference pushes: each successor neither explored nor waiting, in successor order, keyed by its heuristic and numbered `ins + 1`, `ins + 2`, ...; the counter grows by their number; exactly the unexplored successors become waiting; every new successor is linked from the expanded state, and a link once written is never changed |
| GreedyBestFirst.GreedyPushesShape | mapAlgorithms.py:146-151 | the reference pushes carry insertion numbers `ins + 1`, `ins + 2`, ... in order and their heuristics as keys, name only unblocked successors, and include every unblocked successor |
| GreedyBestFirst.QueuedStep | mapAlgorithms.py:147-151 | handling one more successor extends the queue by its entry under the next number exactly when it is neither explored nor waiting |
| GreedyBestFirst.PushTaken | mapAlgorithms.py:147-153 | pushing a successor that is neither explored nor waiting extends the loop's progress by its entry, its waiting mark and its link |
| GreedyBestFirst.PushSkipped | mapAlgorithms.py:147 | passing over an explored or waiting successor extends the loop's progress with nothing changed |
| GreedyBestFirst.PushOne | mapAlgorithms.py:147-153 | one iteration of the inner loop keeps the link invariant and moves the progress against the reference pushes one index on |
| GreedyBestFirst.PushFrom | mapAlgorithms.py:146-153 | handling the successors from any index on keeps the link invariant and completes the progress against the reference pushes |
| GreedyBestFirst.Step | mapAlgorithms.py:127-155 | the expanded state is the least `(h, insertion#)` entry, so no waiting entry has a smaller heuristic; it is newly explored; it is reported exactly when it is a goal, with links intact and the queue reduced by that entry; otherwise the queue becomes the rest plus the reference pushes of its successors, which become waiting |
| GreedyBestFirst.ExhaustedUnreachable | mapAlgorithms.py:160 | an empty queue means no goal is reachable, and the recorded states are exactly the reachable ones |
| GreedyBestFirst.Drain | mapAlgorithms.py:127-160 | the loop's result is a reachable goal with its rebuilt path, or failure only when no goal is reachable; existing links are kept; only reachable states are recorded, and all of them on failure |
| GreedyBestFirst.Search | mapAlgorithms.py:99-160 | the same result contract as DFS, with the start's link never overwritten; the node count is at most, and on failure exactly, the number of reachable states |
| AStar.RelaxKeepsCosts | mapAlgorithms.py:215-222 | recording a strictly cheaper cost and the matching link keeps the costs consistent with the parent links; a new state adds one node |
| AStar.BetterStep | mapAlgorithms.py:217-221 | recording a strictly cheaper cost counts as progress over the costs before the relaxation |
| AStar.RelaxOne | mapAlgorithms.py:214-229 | a successor that is unrecorded or strictly cheaper is recorded at the new cost, relinked to the expanded state and pushed with priority `g + h` and the next insertion number; otherwise nothing changes; the node count grows exactly when it was unrecorded |
| AStar.Relax | mapAlgorithms.py:212-229 | the queue grows by exactly the reference pushes, one per successor that is unrecorded or strictly cheaper through the expanded state, in successor order, keyed by `g + h` and numbered on from the counter; exactly those successors become waiting, cost `g(current) + 1` and are relinked to the expanded state; every other cost and link is unchanged; no cost rises and any change is progress |
| AStar.RelaxedMaps | mapAlgorithms.py:217-222 | after the reference relaxation an improved successor costs `c + 1` and is linked from the expanded state, and every other state keeps its cost and link |
| AStar.AStarPushesShape | mapAlgorithms.py:217-228 | the reference pushes are numbered `ins`, `ins + 1`, ... in order, keyed by `c + 1 + h`, name only improved successors, and include every improved successor |
| AStar.FoldedStep | mapAlgorithms.py:214-229 | handling one more successor as the loop does extends the queue, counter, waiting set, costs and links by exactly its reference effect |
| AStar.Handle | mapAlgorithms.py:214-229 | one iteration of the inner loop keeps the relaxation invariant and moves the progress against the reference relaxation one index on |
| AStar.ExhaustedUnreachable | mapAlgorithms.py:236 | an empty queue means no goal is reachable, and the recorded states are exactly the reachable ones |
| AStar.Step | mapAlgorithms.py:199-231 | the popped entry is the least one; an entry whose state is no longer waiting is skipped with only the queue shortened; a waiting goal is reported exactly then, with the costs and links unchanged; otherwise the queue becomes the rest plus the reference pushes and the costs and links become the reference relaxation; the invariant holds and the queue shrinks or a cost drops |
| AStar.MeasureDrops | mapAlgorithms.py:199-231 | each round lowers the termination measure: unrecorded states, then the cost potential, then the queue length |
| AStar.Drain | mapAlgorithms.py:199-236 | the loop's result is a reachable goal with its rebuilt path, or failure only when no goal is reachable; only reachable states are recorded, and all of them on failure |
| AStar.Run | mapAlgorithms.py:182-236 | a start goal gives `([], 1, start)`; the node count is the number of recorded states, between one and the number of reachable states, and equal to it on failure; the rest is the same result contract as DFS |
| AStar.Search | mapAlgorithms.py:162-236 | the same contract, from the override start when one is given, with the node count bounded by the states reachable from that start |
| IterativeDeepening.PushOne | mapAlgorithms.py:297-301 | a push adds `(next, depth + 1)`; a state not yet recorded is linked to the expanded state by its action, and a recorded one keeps its link; the stack stays ordered by depth |
| IterativeDeepening.ShallowPush | mapAlgorithms.py:297-301 | pushing an unexplored state one level below the popped one keeps the stack ordered by depth and keeps every recorded state's link chain no longer than its entry's depth |
| IterativeDeepening.ShallowPop | mapAlgorithms.py:267-268 | the popped top's link chain is no longer than its depth, and the rest of the stack stays ordered, none deeper than the top |
| IterativeDeepening.PushSuccessors | mapAlgorithms.py:282-303 | the stack grows by exactly the unexplored successors in reverse order, one level deeper; every entry carries a route of its depth; exactly the unexplored successors become recorded, each new one linked to the expanded state by its action, and existing links are kept |
| IterativeDeepening.NewLinksStep | mapAlgorithms.py:297-301 | handling one more successor, linking it only when it is unexplored and unrecorded, extends the facts about the recorded states and the new links by that successor |
| IterativeDeepening.NewLinksEnds | mapAlgorithms.py:297-301 | before the loop no link is new, and after it the link facts cover the whole successor list |
| IterativeDeepening.HandleNext | mapAlgorithms.py:297-303 | one iteration keeps the push loop's facts and extends the link facts by one successor |
| IterativeDeepening.Step | mapAlgorithms.py:267-306 | one pop of the stack top: an explored top is skipped; a goal top is reported, with a link chain and a route of at most `depth` moves; otherwise the top is explored and, below the limit, the stack becomes the rest plus its unexplored successors in reverse order, each newly recorded one linked to the top by its action; at the limit, or when skipped, the links are unchanged |
| IterativeDeepening.Expand | mapAlgorithms.py:282-303 | expanding the popped top below the limit pushes exactly its unexplored successors in reverse order, records exactly those, links each new one to the top by its action, and keeps the loop facts |
| IterativeDeepening.ExhaustedUnreachable | mapAlgorithms.py:309 | with a limit of at least the number of recordable states, an empty stack means no goal is reachable, and the explored, recorded and reachable states coincide |
| IterativeDeepening.Explore | mapAlgorithms.py:267-306 | the loop keeps every link and stops at a goal recorded within the limit or with an empty stack |
| IterativeDeepening.Drain | mapAlgorithms.py:267-309 | a found goal is explored and reached by its rebuilt path of at most `depth` moves; the node count is the size of the returned explored set, which extends the incoming one and is recorded, so at most the number of reachable states; with a large enough limit, failure means unreachable and the explored set is exactly the reachable states |
| IterativeDeepening.DepthLimited | mapAlgorithms.py:250-309 | a start goal gives `([], 0, start)` with nothing explored; the node count is the size of the explored set, all recorded and reachable; a found goal is explored and reached by its rebuilt path of at most `depth` moves; with a large enough limit, failure means unreachable and the explored set is exactly the reachable states |
| IterativeDeepening.Search | mapAlgorithms.py:311-320 | a success is a reachable goal with its rebuilt path, found under a limit of at most `maxDepth` with at most that many moves; its node count is at most the number of reachable states; a start goal gives `([], 0, start)` under limit 0; `None` means every limit up to `maxDepth` was tried; when no goal is reachable, no limit ever succeeds; once the limits reach \|Universe\|, the search fails exactly when no goal is reachable |
| IterativeDeepening.SealedNeverAnswers | mapAlgorithms.py:314-320 | in a one-cell map whose goal lies outside it, no goal is reachable, so the unbounded loop never returns |
| IterativeDeepening.SearchComplete | mapAlgorithms.py:238-249 | the documented behaviour: a failure is returned exactly when no goal is reachable, after limit \|Universe\|, counting every reachable state; otherwise a reachable goal and its rebuilt path of at most the last limit's moves; the node count never exceeds the number of reachable states |
| IdaStar.PruneBound | mapAlgorithms.py:362-366 | every f-cost a round prunes is finite and below a fixed ceiling, so the threshold can rise only finitely often |
| IdaStar.PushKeeps | mapAlgorithms.py:369-376 | a pushed entry carries a cost that its state is recorded at; costs stay below the number of recorded states |
| IdaStar.PruneRound | mapAlgorithms.py:365-367 | pruning a successor lowers the next threshold to `min(next, f)` and changes nothing else |
| IdaStar.SkipRound | mapAlgorithms.py:369 | a recorded successor that is not improved leaves the round unchanged |
| IdaStar.PushShape | mapAlgorithms.py:369-376 | an improved successor is relinked, recorded and pushed; the node count grows only when it was unrecorded |
| IdaStar.LeastIsMin | mapAlgorithms.py:366 | the least of a list of costs is one of them, and none lies below it |
| IdaStar.LeastConcat | mapAlgorithms.py:366 | folding `min` over two lists in turn gives the least over both |
| IdaStar.FoldStep | mapAlgorithms.py:361-376 | handling one more successor extends the pushed entries by its reference push and folds its pruned cost into the pending minimum |
| IdaStar.RelaxOne | mapAlgorithms.py:361-376 | one successor: when its f-cost exceeds the threshold only the pending minimum drops to `min(minNext, f)`; when it is unrecorded or strictly cheaper it is recorded, relinked and pushed, counted when new; otherwise nothing changes |
| IdaStar.Relax | mapAlgorithms.py:361-379 | expanding a state pushes exactly the successors within the threshold that are unrecorded or cheaper, in reverse successor order; exactly those are recorded at the new cost and linked to the expanded state, every other cost and link is unchanged, and the node count is the number of recorded states; the pending minimum drops to the least of itself and every pruned f-cost |
| IdaStar.RelaxMaps | mapAlgorithms.py:369-374 | in the reference maps of one expansion, an admitted successor costs `g + 1` and is linked to the expanded state by its action, and every other state keeps its cost and link |
| IdaStar.RemapStep | mapAlgorithms.py:361-374 | handling one more successor as the loop does extends the reference cost and parent maps by that successor |
| IdaStar.ExpandKeepsInv | mapAlgorithms.py:349-382 | after expansion the round invariant holds with the state counted as expanded |
| IdaStar.Step | mapAlgorithms.py:349-382 | the popped top is reported exactly when it is a goal, with everything unchanged; otherwise the stack becomes the rest plus the reference pushes, the costs and links become the reference maps, the node count is the number of recorded states, and the pending minimum folds in the pruned f-costs |
| IdaStar.ExhaustedUnreachable | mapAlgorithms.py:384-387 | a round that empties its stack without pruning anything proves that no goal is reachable and has recorded exactly the reachable states |
| IdaStar.RoundPrunedStep | mapAlgorithms.py:349-382 | expanding one more entry folds its pruned f-costs into the least f-cost pruned over the round |
| IdaStar.Round | mapAlgorithms.py:339-384 | a round reports a recorded goal, or ends with the next threshold equal to the least f-cost pruned over its expansions, each above the threshold; its node count is the size of its parent map, at most the number of reachable states; no pruning and no goal means unreachable, with every reachable state counted |
| IdaStar.ScheduleGrow | mapAlgorithms.py:384-389 | a further round under a higher threshold extends the round schedule and adds its count to the total |
| IdaStar.Deepen | mapAlgorithms.py:338-389 | rounds run under strictly rising thresholds until one reports a goal, recorded in its ranked parent map, or prunes nothing, which proves no goal reachable with every reachable state counted; the total is the sum of the rounds' counts |
| IdaStar.Search | mapAlgorithms.py:322-389 | a start goal gives `([], 1, start)`; a found goal is reached by its rebuilt path and reports its own round's count, the size of its parent map; the thresholds rise strictly from the start's heuristic; each round counts between one and all reachable states; failure happens exactly when no goal is reachable and reports the sum of the rounds' counts, the last of which is every reachable state |
| MultiGoal.AppendLeg | mapAlgorithms.py:426-434 | appending a leg appends its actions to the tour and adds its node count |
| MultiGoal.AppendLegGoal | mapAlgorithms.py:442-443 | a found leg adds exactly its goal to the visited goals |
| MultiGoal.ChainPush | mapAlgorithms.py:419-444 | a found leg from the last stop to a goal not reached before, reached by its actions and counting between one and all states reachable from its stop, extends the chain of legs |
| MultiGoal.RetargetReaches | mapAlgorithms.py:420-425 | a path found with a temporarily changed start and goal set is a path in the original map |
| MultiGoal.LegKeepsTour | mapAlgorithms.py:434-444 | appending a leg that reaches an unvisited goal keeps the tour a path from the start that passes every visited goal |
| MultiGoal.FoundLeg | mapAlgorithms.py:425-444 | a found leg keeps all loop facts, with its goal visited and its actions and nodes added |
| MultiGoal.NextLeg | mapAlgorithms.py:419-444 | one leg: on success one goal fewer is unvisited and the leg's count is within the states reachable from its stop; on failure no unvisited goal is reachable from the current point and the leg counts every reachable state |
| MultiGoal.FinishTour | mapAlgorithms.py:446-451 | once every goal is visited, the tour is the joined chain of legs, passes every goal, and counts their nodes |
| MultiGoal.Visit | mapAlgorithms.py:419-453 | the loop ends in a complete tour or a failure at a point from which no remaining goal is reachable |
| MultiGoal.Tour | mapAlgorithms.py:391-453 | no goals give `([], 1, None)`; the start as the only goal gives `([], 1, start)`; a completed tour is a path from the start through every goal that ends at the last goal; it joins legs that each start where the previous one ended, reach a new goal and count between one and all states reachable from their stop; the node count is the sum of the legs' counts; a failure names a reached point from which no remaining goal is reachable, whose leg counts every reachable state |

## Left out

- Visualisation callbacks, debug prints and the GUI are left out: they only
  observe the search.
- File reading and the parsing of the dimension, start and goal lines are
  left out. The model takes the environment as a value; of the parser, only
  the wall-rectangle loop is modelled.
- Exceptions are left out: the parser only re-raises them.
- Paths.Walk: on a parent cycle the source's rebuild loop would never end; the model
  stops at a revisited state and returns `None`. The searches keep their parent
  maps ranked, so this never happens for them.
- IterativeDeepening.Search: the unbounded `while True` is cut at a caller-given
  `maxDepth`, because a Dafny method must terminate. `None` means no limit up
  to `maxDepth` succeeded.
- IterativeDeepening.Search: the contract names the limit that succeeded but
  does not restate that every smaller limit failed, since each round's outcome
  is a method result and not a function that a contract could quote.
- AStar.Search: the `override_goal` parameter is never read by the source and
  is not modelled. An override start is used only when given; a state is a
  2-tuple, never falsy, so "given" is the only condition.
- MultiGoal.Tour: the source restores the environment's start and goals on
  every return. Here the environment is an immutable value and each leg runs
  on an updated copy, so the restore is implicit.
- MultiGoal.Tour: two source branches cannot be reached and are not modelled
  as results:
  - the `([], 0, None)` return for a missing start, because the start is
    always a pair;
  - the failure when A* reports a goal outside the unvisited set, because A*
    only reports goals of the set it searched. It is a proved-dead branch in
    `NextLeg`.
- Paths.PrintPath: the source's `else: return path_states` for an
  unrecognised action string cannot occur, because actions are a datatype.
- IdaStar.Search: the per-round thresholds and counts are ghost outputs. The
  contract ties them to the result through the sum, the bounds and the rising
  order, and `Round` ties each count to its round, but `Search` itself does
  not restate each round's run.
- IdaStar.Round: the expansion log `popped` is tied to the run through `Step`,
  which names each popped entry and its pruned f-costs. `Round`'s own contract
  says the next threshold is the least f-cost pruned over the logged entries,
  not that the log lists every expansion of the round.
- IterativeDeepening.DepthLimited: below a limit of \|Universe\| the node
  count is the size of the explored set, all of it recorded and reachable.
  Which states the stack's order explores within `depth` moves is stated one
  step at a time by `Step`, not characterised as a set.
- BreadthFirst.Search: shortest-path optimality is not proved. Neither is
  A*'s or IDA*'s optimality with the admissible heuristic. Only soundness and
  completeness of the reported path are.
- Priority queues are modelled as sequences with a least-entry pop, not as
  binary heaps. Unique insertion numbers make the pop order independent of
  the heap layout.

## Findings

| source | as written | input that shows it | evidently intended | confidence | as-written member | corrected member |
|---|---|---|---|---|---|---|
| mapAlgorithms.py:314-320 | the outer loop retries with ever larger limits and exits only on success | a 1×1 map with start (0,0) and the only goal at (1,0): every depth-limited search fails, so the loop never ends | as documented at lines 246-248, return `(None, nodes, None)` when no goal is reachable; every reachable state lies within \|Universe\| moves, so stopping after that limit loses nothing | high (not executed) | IterativeDeepening.SealedNeverAnswers | IterativeDeepening.SearchComplete |

=== FILE: astar.dfy ===
/**
 `a_star_search`: a priority queue ordered by `g + h` (ties broken by
 insertion number), a set of waiting states, and a best-known cost per
 recorded state. There is no closed set: a successor is (re)linked and pushed
 whenever the path through the expanded state is strictly cheaper than its
 recorded cost, so a state can be expanded again after an improvement, and a
 popped entry whose state is no longer waiting is skipped as stale. A goal is
 recognised when it is popped.
 */
module AStar {
  import opened Grid
  import opened Paths
  import opened Frontier

  /**
   Cost facts: the parent map and the cost map record the same states, links
   lead to strictly cheaper states, the start keeps its root link at cost 0,
   and `nodes` counts the recorded states.
   */
  ghost predicate CostInv(env: Env, parent: ParentMap, g: map<Pos, nat>, nodes: nat) {
    && Ranked(env, parent, env.start, g)
    && parent.Keys == g.Keys
    && env.start in g && g[env.start] == 0 && parent[env.start] == Root
    && nodes == |g.Keys|
    && (forall x :: x in g ==> Recordable(env, x))
  }

  /** Queue facts: every waiting state is recorded and has an entry; insertion numbers are distinct and below the counter. */
  ghost predicate QueueInv(pq: seq<Entry>, waiting: set<Pos>, ins: nat, g: map<Pos, nat>) {
    && waiting <= States(pq)
    && waiting <= g.Keys
    && (forall i :: 0 <= i < |pq| ==> pq[i].ins < ins)
    && (forall i, j :: 0 <= i < j < |pq| ==> pq[i].ins != pq[j].ins)
  }

  /**
   The outer-loop facts: every recorded state is waiting or has been
   expanded, every open neighbour of an expanded state is recorded, and no
   expanded state is a goal.
   */
  ghost predicate SearchInv(env: Env, parent: ParentMap, g: map<Pos, nat>, nodes: nat, pq: seq<Entry>,
                            waiting: set<Pos>, ins: nat, expanded: set<Pos>) {
    && CostInv(env, parent, g, nodes)
    && QueueInv(pq, waiting, ins, g)
    && expanded <= g.Keys
    && (forall x :: x in g ==> x in waiting || x in expanded)
    && (forall x, a :: x in expanded && Open(env, Move(x, a)) ==> Move(x, a) in g)
    && (forall x :: x in expanded ==> !IsGoal(env, x))
  }

  /** `cells` lists every state a search may record. */
  ghost predicate Lists(env: Env, cells: seq<Pos>) {
    forall x :: x in cells <==> x in Universe(env)
  }

  /**
   Progress of the cost map: a new state was recorded, or the same states
   are recorded and the summed cost dropped.
   */
  ghost predicate Better(cells: seq<Pos>, g: map<Pos, nat>, g': map<Pos, nat>) {
    || g.Keys < g'.Keys
    || (g.Keys == g'.Keys && Potential(cells, g', 0) < Potential(cells, g, 0))
  }

  /** Relinking a state to a strictly cheaper path through a recorded state keeps the cost facts. */
  lemma RelaxKeepsCosts(env: Env, parent: ParentMap, g: map<Pos, nat>, nodes: nat, current: Pos, action: Action,
                        next: Pos, v: nat)
    requires CostInv(env, parent, g, nodes)
    requires current in g && next == Move(current, action) && Open(env, next)
    requires g[current] < v && (next in g ==> v < g[next])
    ensures CostInv(env, parent[next := Via(current, action)], g[next := v], if next !in g then nodes + 1 else nodes)
    ensures current in g[next := v] && g[next := v][current] == g[current]
  {
    var parent' := parent[next := Via(current, action)];
    var g' := g[next := v];
    assert next != env.start;
    MoveChanges(current, action);
    forall x | x in parent' && x != env.start
      ensures parent'[x].Via? && parent'[x].prev in parent' && g'[parent'[x].prev] < g'[x]
      ensures Move(parent'[x].prev, parent'[x].action) == x && Open(env, x)
    {
      if x != next {
        assert parent'[x] == parent[x];
      }
    }
    assert g'.Keys == g.Keys + {next};
    if next !in g {
      assert |g'.Keys| == |g.Keys| + 1;
    }
  }

  /** The states with an entry after a push are the earlier ones and the pushed state. */
  lemma PushedStates(pq: seq<Entry>, e: Entry)
    ensures States(pq + [e]) == States(pq) + {e.state}
  {
    assert forall x :: x in pq + [e] <==> x in pq || x == e;
  }

  /** Pushing a recorded state under the current insertion number keeps the queue facts. */
  lemma PushKeepsQueue(pq: seq<Entry>, waiting: set<Pos>, ins: nat, g: map<Pos, nat>, g': map<Pos, nat>, e: Entry)
    requires QueueInv(pq, waiting, ins, g) && g.Keys <= g'.Keys && e.state in g' && e.ins == ins
    ensures QueueInv(pq + [e], waiting + {e.state}, ins + 1, g')
  {
    PushedStates(pq, e);
    var pq' := pq + [e];
    assert forall i :: 0 <= i < |pq| ==> pq'[i] == pq[i];
  }

  /** Popping an entry keeps every other waiting state's entry. */
  lemma PopKeepsQueue(pq: seq<Entry>, waiting: set<Pos>, ins: nat, g: map<Pos, nat>)
    requires pq != [] && QueueInv(pq, waiting, ins, g)
    ensures QueueInv(PopMin(pq).1, waiting - {PopMin(pq).0.state}, ins, g)
  {
    var k :| 0 <= k < |pq| && PopMin(pq).0 == pq[k] && PopMin(pq).1 == pq[..k] + pq[k + 1..];
    var rest := pq[..k] + pq[k + 1..];
    forall i, j | 0 <= i < j < |rest| ensures rest[i].ins != rest[j].ins {
      var i' := if i < k then i else i + 1;
      var j' := if j < k then j else j + 1;
      assert rest[i] == pq[i'] && rest[j] == pq[j'] && i' < j';
    }
  }

  /** Lowering a recorded cost, or recording a new state, is progress after any earlier progress. */
  lemma BetterStep(env: Env, cells: seq<Pos>, g: map<Pos, nat>, g': map<Pos, nat>, x: Pos, v: nat)
    requires Lists(env, cells) && Recordable(env, x)
    requires g.Keys <= g'.Keys && (g' == g || Better(cells, g, g'))
    requires x in g' ==> v < g'[x]
    ensures Better(cells, g, g'[x := v])
  {
    UniverseMembers(env);
    if x in g' {
      PotentialDrops(cells, g', 0, x, v);
      assert g'[x := v].Keys == g'.Keys;
    } else {
      assert x in g'[x := v].Keys - g.Keys;
    }
  }

  /** The facts the relaxation loop keeps about the states it has handled so far. */
  ghost predicate Relaxed(env: Env, cells: seq<Pos>, current: Pos, succs: seq<(Pos, Action)>, i: nat,
                          g: map<Pos, nat>, g': map<Pos, nat>, pq: seq<Entry>, pq': seq<Entry>,
                          waiting: set<Pos>, waiting': set<Pos>)
    requires current in g
  {
    && (forall k :: 0 <= k < i && k < |succs| ==> succs[k].0 in g' && g'[succs[k].0] <= g[current] + 1)
    && (forall x :: x in g ==> x in g' && g'[x] <= g[x])
    && waiting <= waiting'
    && (forall x :: x in g' && x !in g ==> x in waiting')
    && (g' == g ==> pq' == pq && waiting' == waiting)
    && (g' == g || Better(cells, g, g'))
  }

  /** Relinking the `i`th successor keeps the loop facts. */
  lemma RelaxStep(env: Env, cells: seq<Pos>, current: Pos, succs: seq<(Pos, Action)>, i: nat,
                  g: map<Pos, nat>, g': map<Pos, nat>, pq: seq<Entry>, pq': seq<Entry>,
                  waiting: set<Pos>, waiting': set<Pos>, e: Entry, next: Pos, v: nat)
    requires Lists(env, cells) && current in g && i < |succs| && next == succs[i].0 && Recordable(env, next)
    requires Relaxed(env, cells, current, succs, i, g, g', pq, pq', waiting, waiting')
    requires v == g[current] + 1 && (next in g' ==> v < g'[next])
    ensures Relaxed(env, cells, current, succs, i + 1, g, g'[next := v], pq, pq' + [e], waiting, waiting' + {next})
  {
    var g'' := g'[next := v];
    BetterStep(env, cells, g, g', next, v);
    assert g'' != g by {
      if next in g {
        assert g''[next] < g[next];
      } else {
        assert next in g'';
      }
    }
  }

  /** Leaving the `i`th successor alone keeps the loop facts when its recorded cost is no worse. */
  lemma RelaxSkip(env: Env, cells: seq<Pos>, current: Pos, succs: seq<(Pos, Action)>, i: nat,
                  g: map<Pos, nat>, g': map<Pos, nat>, pq: seq<Entry>, pq': seq<Entry>,
                  waiting: set<Pos>, waiting': set<Pos>)
    requires current in g && i < |succs|
    requires Relaxed(env, cells, current, succs, i, g, g', pq, pq', waiting, waiting')
    requires succs[i].0 in g' && g'[succs[i].0] <= g[current] + 1
    ensures Relaxed(env, cells, current, succs, i + 1, g, g', pq, pq', waiting, waiting')
  {
  }

  /** Everything the relaxation loop keeps, for the first `i` successors handled. */
  ghost predicate RelaxInv(env: Env, cells: seq<Pos>, current: Pos, succs: seq<(Pos, Action)>, i: nat,
                           g: map<Pos, nat>, pq: seq<Entry>, waiting: set<Pos>, currentCost: nat,
                           parent': ParentMap, g': map<Pos, nat>, nodes': nat, pq': seq<Entry>, waiting': set<Pos>, ins': nat)
  {
    && current in g && g[current] == currentCost
    && CostInv(env, parent', g', nodes') && QueueInv(pq', waiting', ins', g')
    && current in g' && g'[current] == currentCost
    && Relaxed(env, cells, current, succs, i, g, g', pq, pq', waiting, waiting')
  }

  /** Relinking and pushing the `i`th successor, when it is cheaper through `current`, keeps the loop facts. */
  lemma RelaxRound(env: Env, cells: seq<Pos>, current: Pos, succs: seq<(Pos, Action)>, i: nat,
                   g: map<Pos, nat>, pq: seq<Entry>, waiting: set<Pos>, currentCost: nat,
                   parent': ParentMap, g': map<Pos, nat>, nodes': nat, pq': seq<Entry>, waiting': set<Pos>, ins': nat,
                   next: Pos, action: Action, temp: nat)
    requires Lists(env, cells) && SuccessorList(env, current, succs) && i < |succs| && succs[i] == (next, action)
    requires RelaxInv(env, cells, current, succs, i, g, pq, waiting, currentCost, parent', g', nodes', pq', waiting', ins')
    requires temp == currentCost + 1 && (next !in g' || temp < g'[next])
    ensures RelaxInv(env, cells, current, succs, i + 1, g, pq, waiting, currentCost,
                     parent'[next := Via(current, action)], g'[next := temp],
                     if next !in g' then nodes' + 1 else nodes',
                     pq' + [Entry(Plus(temp, Heuristic(env, next)), ins', next)],
                     waiting' + {next}, ins' + 1)
  {
    var e := Entry(Plus(temp, Heuristic(env, next)), ins', next);
    assert next == Move(current, action) && Open(env, next);
    RelaxKeepsCosts(env, parent', g', nodes', current, action, next, temp);
    PushKeepsQueue(pq', waiting', ins', g', g'[next := temp], e);
    RelaxStep(env, cells, current, succs, i, g, g', pq, pq', waiting, waiting', e, next, temp);
  }

  /** Leaving the `i`th successor alone, when it is no cheaper through `current`, keeps the loop facts. */
  lemma SkipRound(env: Env, cells: seq<Pos>, current: Pos, succs: seq<(Pos, Action)>, i: nat,
                  g: map<Pos, nat>, pq: seq<Entry>, waiting: set<Pos>, currentCost: nat,
                  parent': ParentMap, g': map<Pos, nat>, nodes': nat, pq': seq<Entry>, waiting': set<Pos>, ins': nat)
    requires i < |succs|
    requires RelaxInv(env, cells, current, succs, i, g, pq, waiting, currentCost, parent', g', nodes', pq', waiting', ins')
    requires succs[i].0 in g' && currentCost + 1 >= g'[succs[i].0]
    ensures RelaxInv(env, cells, current, succs, i + 1, g, pq, waiting, currentCost, parent', g', nodes', pq', waiting', ins')
  {
    RelaxSkip(env, cells, current, succs, i, g, g', pq, pq', waiting, waiting');
  }

  /**
   One round of the relaxation loop: the successor `succs[i]` gets cost
   `g(current) + 1`, a link to `current` and a new entry keyed by `g + h`
   exactly when that is strictly cheaper than its recorded cost (or it has
   none); `nodes` grows only for a newly recorded state.
   */
  method RelaxOne(env: Env, ghost cells: seq<Pos>, current: Pos, succs: seq<(Pos, Action)>, i: nat,
                  ghost g: map<Pos, nat>, ghost pq: seq<Entry>, ghost waiting: set<Pos>, currentCost: nat,
                  parent: ParentMap, costs: map<Pos, nat>, nodes: nat, queue: seq<Entry>, waits: set<Pos>, ins: nat)
    returns (parent': ParentMap, g': map<Pos, nat>, nodes': nat, pq': seq<Entry>, waiting': set<Pos>, ins': nat)
    requires Lists(env, cells) && SuccessorList(env, current, succs) && i < |succs|
    requires RelaxInv(env, cells, current, succs, i, g, pq, waiting, currentCost, parent, costs, nodes, queue, waits, ins)
    ensures RelaxInv(env, cells, current, succs, i + 1, g, pq, waiting, currentCost, parent', g', nodes', pq', waiting', ins')
    ensures var next := succs[i].0;
      (next !in costs || currentCost + 1 < costs[next]) <==> next in g' && (next !in costs || g'[next] != costs[next])
    ensures nodes' == if succs[i].0 in costs then nodes else nodes + 1
    ensures var (next, action) := succs[i];
      if next !in costs || currentCost + 1 < costs[next] then
        && parent' == parent[next := Via(current, action)] && g' == costs[next := currentCost + 1]
        && pq' == queue + [Entry(Plus(currentCost + 1, Heuristic(env, next)), ins, next)]
        && waiting' == waits + {next} && ins' == ins + 1
      else
        parent' == parent && g' == costs && pq' == queue && waiting' == waits && ins' == ins
  {
    parent', g', nodes', pq', waiting', ins' := parent, costs, nodes, queue, waits, ins;
    var (next, action) := succs[i];
    var temp := currentCost + 1;
    if next !in g' || temp < g'[next] {
      RelaxRound(env, cells, current, succs, i, g, pq, waiting, currentCost, parent', g', nodes', pq', waiting', ins',
                 next, action, temp);
      if next !in g' {
        nodes' := nodes' + 1;
      }
      g' := g'[next := temp];
      parent' := parent'[next := Via(current, action)];
      pq' := pq' + [Entry(Plus(temp, Heuristic(env, next)), ins', next)];
      ins' := ins' + 1;
      waiting' := waiting' + {next};
    } else {
      SkipRound(env, cells, current, succs, i, g, pq, waiting, currentCost, parent', g', nodes', pq', waiting', ins');
    }
  }

  /** The path through a state of cost `c` improves on the recorded cost of `next`, or `next` has none. */
  predicate Improves(g: map<Pos, nat>, c: nat, next: Pos) {
    next !in g || c + 1 < g[next]
  }

  /**
   The entries pushed while relaxing `succs` from a state of cost `c`: each
   successor the path through it improves, keyed by `g + h` and numbered on
   from `ins` in successor order.
   */
  function AStarPushes(env: Env, c: nat, succs: seq<(Pos, Action)>, g: map<Pos, nat>, ins: nat): seq<Entry>
    decreases |succs|
  {
    if succs == [] then []
    else
      var before := AStarPushes(env, c, succs[..|succs| - 1], g, ins);
      var next := succs[|succs| - 1].0;
      before + (if Improves(g, c, next) then [Entry(Plus(c + 1, Heuristic(env, next)), ins + |before|, next)] else [])
  }

  /** The cost map after relaxing `succs` from a state of cost `c`: every improved successor costs `c + 1`. */
  function Recosted(g: map<Pos, nat>, c: nat, succs: seq<(Pos, Action)>): map<Pos, nat>
    decreases |succs|
  {
    if succs == [] then g
    else
      var m := Recosted(g, c, succs[..|succs| - 1]);
      var next := succs[|succs| - 1].0;
      if Improves(g, c, next) then m[next := c + 1] else m
  }

  /** The parent map after relaxing `succs` from `current`, of cost `c`: every improved successor is linked to `current`. */
  function Relinked(parent: ParentMap, g: map<Pos, nat>, c: nat, current: Pos, succs: seq<(Pos, Action)>): ParentMap
    decreases |succs|
  {
    if succs == [] then parent
    else
      var m := Relinked(parent, g, c, current, succs[..|succs| - 1]);
      var (next, action) := succs[|succs| - 1];
      if Improves(g, c, next) then m[next := Via(current, action)] else m
  }

  /**
   The relaxation's effect, state by state: an improved successor costs
   `c + 1` and is linked to `current`; every other state keeps its cost and
   link.
   */
  lemma {:induction false} RelaxedMaps(parent: ParentMap, g: map<Pos, nat>, c: nat, current: Pos, succs: seq<(Pos, Action)>)
    requires forall a, b :: 0 <= a < b < |succs| ==> succs[a].0 != succs[b].0
    ensures forall k :: 0 <= k < |succs| && Improves(g, c, succs[k].0) ==>
      && succs[k].0 in Recosted(g, c, succs) && Recosted(g, c, succs)[succs[k].0] == c + 1
      && succs[k].0 in Relinked(parent, g, c, current, succs)
      && Relinked(parent, g, c, current, succs)[succs[k].0] == Via(current, succs[k].1)
    ensures forall x :: x !in Targets(succs) || !Improves(g, c, x) ==>
      && (x in Recosted(g, c, succs) <==> x in g) && (x in g ==> Recosted(g, c, succs)[x] == g[x])
      && (x in Relinked(parent, g, c, current, succs) <==> x in parent)
      && (x in parent ==> Relinked(parent, g, c, current, succs)[x] == parent[x])
    decreases |succs|
  {
    if succs != [] {
      var n := |succs| - 1;
      var init := succs[..n];
      RelaxedMaps(parent, g, c, current, init);
      assert succs[..n + 1] == succs;
      TargetsSplit(succs, n);
      forall k | 0 <= k < n ensures succs[k] == init[k] && succs[k].0 != succs[n].0 {
      }
    }
  }

  /** The pushed entries are numbered `ins`, `ins + 1`, ... in order, keyed by `c + 1 + h`, one per improved successor. */
  lemma {:induction false} AStarPushesShape(env: Env, c: nat, succs: seq<(Pos, Action)>, g: map<Pos, nat>, ins: nat)
    ensures var es := AStarPushes(env, c, succs, g, ins);
      && (forall j :: 0 <= j < |es| ==> PushedEntry(env, es[j], ins + j, c, g, Targets(succs)))
      && (forall x :: x in Targets(succs) && Improves(g, c, x) ==> x in States(es))
    decreases |succs|
  {
    if succs != [] {
      var n := |succs| - 1;
      var init := succs[..n];
      AStarPushesShape(env, c, init, g, ins);
      assert succs[..n + 1] == succs;
      TargetsSplit(succs, n);
      var before := AStarPushes(env, c, init, g, ins);
      var es := AStarPushes(env, c, succs, g, ins);
      forall j | 0 <= j < |before| ensures es[j] == before[j] {
      }
      forall x | x in Targets(succs) && Improves(g, c, x) ensures x in States(es) {
        if x in Targets(init) {
          var e :| e in before && e.state == x;
          var j :| 0 <= j < |before| && before[j] == e;
          assert es[j] == e;
        } else {
          assert es[|es| - 1].state == x;
        }
      }
    }
  }

  /** An entry pushed under number `k` for an improved successor among `targets`, keyed by its new cost plus its heuristic. */
  ghost predicate PushedEntry(env: Env, e: Entry, k: nat, c: nat, g: map<Pos, nat>, targets: set<Pos>) {
    e.ins == k && e.prio == Plus(c + 1, Heuristic(env, e.state)) && e.state in targets && Improves(g, c, e.state)
  }

  /**
   The relaxation loop's progress once the first `i` successors are
   handled: exactly the improved ones are pushed, recosted, relinked and made
   waiting, in order.
   */
  ghost predicate Folded(env: Env, current: Pos, c: nat, succs: seq<(Pos, Action)>, i: nat, parent: ParentMap,
                         g: map<Pos, nat>, pq: seq<Entry>, waiting: set<Pos>, ins: nat, parent': ParentMap,
                         g': map<Pos, nat>, pq': seq<Entry>, waiting': set<Pos>, ins': nat)
    requires i <= |succs|
  {
    var pushed := AStarPushes(env, c, succs[..i], g, ins);
    && pq' == pq + pushed && ins' == ins + |pushed| && waiting' == waiting + States(pushed)
    && g' == Recosted(g, c, succs[..i]) && parent' == Relinked(parent, g, c, current, succs[..i])
  }

  /** Handling successor `i` as `RelaxOne` does extends the relaxation's progress by one index. */
  lemma FoldedStep(env: Env, current: Pos, c: nat, succs: seq<(Pos, Action)>, i: nat, parent: ParentMap,
                   g: map<Pos, nat>, pq: seq<Entry>, waiting: set<Pos>, ins: nat,
                   p: ParentMap, costs: map<Pos, nat>, q: seq<Entry>, w: set<Pos>, n: nat,
                   p': ParentMap, costs': map<Pos, nat>, q': seq<Entry>, w': set<Pos>, n': nat)
    requires i < |succs| && forall a, b :: 0 <= a < b < |succs| ==> succs[a].0 != succs[b].0
    requires Folded(env, current, c, succs, i, parent, g, pq, waiting, ins, p, costs, q, w, n)
    requires var (next, action) := succs[i];
      if Improves(costs, c, next) then
        && p' == p[next := Via(current, action)] && costs' == costs[next := c + 1]
        && q' == q + [Entry(Plus(c + 1, Heuristic(env, next)), n, next)] && w' == w + {next} && n' == n + 1
      else
        p' == p && costs' == costs && q' == q && w' == w && n' == n
    ensures Folded(env, current, c, succs, i + 1, parent, g, pq, waiting, ins, p', costs', q', w', n')
  {
    var next := succs[i].0;
    var pre := succs[..i];
    assert succs[..i + 1][..i] == pre;
    NotEarlier(succs, i);
    RelaxedMaps(parent, g, c, current, pre) by {
      forall a, b | 0 <= a < b < |pre| ensures pre[a].0 != pre[b].0 {
        assert pre[a] == succs[a] && pre[b] == succs[b];
      }
    }
    assert Improves(costs, c, next) == Improves(g, c, next);
    var before := AStarPushes(env, c, pre, g, ins);
    if Improves(g, c, next) {
      PushedStates(q, Entry(Plus(c + 1, Heuristic(env, next)), n, next));
      PushedStates(before, Entry(Plus(c + 1, Heuristic(env, next)), n, next));
    }
  }

  /** One iteration of the relaxation loop, keeping both its invariant and its progress against the reference fold. */
  method Handle(env: Env, ghost cells: seq<Pos>, current: Pos, succs: seq<(Pos, Action)>, i: nat, ghost parent: ParentMap,
                ghost g: map<Pos, nat>, ghost pq: seq<Entry>, ghost waiting: set<Pos>, ghost ins: nat, currentCost: nat,
                p: ParentMap, costs: map<Pos, nat>, nodes: nat, q: seq<Entry>, w: set<Pos>, n: nat)
    returns (p': ParentMap, costs': map<Pos, nat>, nodes': nat, q': seq<Entry>, w': set<Pos>, n': nat)
    requires Lists(env, cells) && SuccessorList(env, current, succs) && i < |succs|
    requires RelaxInv(env, cells, current, succs, i, g, pq, waiting, currentCost, p, costs, nodes, q, w, n)
    requires Folded(env, current, currentCost, succs, i, parent, g, pq, waiting, ins, p, costs, q, w, n)
    ensures RelaxInv(env, cells, current, succs, i + 1, g, pq, waiting, currentCost, p', costs', nodes', q', w', n')
    ensures Folded(env, current, currentCost, succs, i + 1, parent, g, pq, waiting, ins, p', costs', q', w', n')
  {
    p', costs', nodes', q', w', n' := RelaxOne(env, cells, current, succs, i, g, pq, waiting, currentCost, p, costs, nodes, q, w, n);
    FoldedStep(env, current, currentCost, succs, i, parent, g, pq, waiting, ins, p, costs, q, w, n, p', costs', q', w', n');
  }

  /**
   The inner loop over `get_valid_successors(current)`. Afterwards every
   successor costs at most `g(current) + 1`, no recorded cost has grown, every
   newly recorded state is waiting, and the cost map has made progress unless
   nothing was pushed.
   */
  method Relax(env: Env, ghost cells: seq<Pos>, current: Pos, succs: seq<(Pos, Action)>, pq: seq<Entry>,
               waiting: set<Pos>, parent: ParentMap, g: map<Pos, nat>, nodes: nat, ins: nat)
    returns (pq': seq<Entry>, waiting': set<Pos>, parent': ParentMap, g': map<Pos, nat>, nodes': nat, ins': nat)
    requires Lists(env, cells) && current in g
    requires SuccessorList(env, current, succs)
    requires CostInv(env, parent, g, nodes) && QueueInv(pq, waiting, ins, g)
    ensures CostInv(env, parent', g', nodes') && QueueInv(pq', waiting', ins', g')
    ensures forall k :: 0 <= k < |succs| ==> succs[k].0 in g' && g'[succs[k].0] <= g[current] + 1
    ensures forall x :: x in g ==> x in g' && g'[x] <= g[x]
    ensures waiting <= waiting' && forall x :: x in g' && x !in g ==> x in waiting'
    ensures g' == g ==> pq' == pq && waiting' == waiting
    ensures g' == g || Better(cells, g, g')
    ensures var pushed := AStarPushes(env, g[current], succs, g, ins);
      pq' == pq + pushed && ins' == ins + |pushed| && waiting' == waiting + States(pushed)
    ensures g' == Recosted(g, g[current], succs) && parent' == Relinked(parent, g, g[current], current, succs)
  {
    pq', waiting', parent', g', nodes', ins' := pq, waiting, parent, g, nodes, ins;
    var currentCost := g[current];
    var i := 0;
    assert succs[..0] == [] && States([]) == {};
    while i < |succs|
      invariant 0 <= i <= |succs|
      invariant RelaxInv(env, cells, current, succs, i, g, pq, waiting, currentCost, parent', g', nodes', pq', waiting', ins')
      invariant Folded(env, current, currentCost, succs, i, parent, g, pq, waiting, ins, parent', g', pq', waiting', ins')
    {
      parent', g', nodes', pq', waiting', ins' :=
        Handle(env, cells, current, succs, i, parent, g, pq, waiting, ins, currentCost, parent', g', nodes', pq', waiting', ins');
      i := i + 1;
    }
    assert succs[..i] == succs;
  }

  /** Expanding a popped non-goal state after relaxing all its successors keeps the outer-loop facts. */
  lemma ExpandKeepsInv(env: Env, current: Pos, succs: seq<(Pos, Action)>, g: map<Pos, nat>,
                       waiting: set<Pos>, expanded: set<Pos>, parent': ParentMap, g': map<Pos, nat>, nodes': nat,
                       pq': seq<Entry>, waiting': set<Pos>, ins': nat)
    requires succs == Successors(env, current) && !IsGoal(env, current) && current in g
    requires expanded <= g.Keys
    requires forall x :: x in g ==> x in waiting || x in expanded || x == current
    requires forall x, a :: x in expanded && Open(env, Move(x, a)) ==> Move(x, a) in g
    requires forall x :: x in expanded ==> !IsGoal(env, x)
    requires CostInv(env, parent', g', nodes') && QueueInv(pq', waiting', ins', g')
    requires forall k :: 0 <= k < |succs| ==> succs[k].0 in g'
    requires forall x :: x in g ==> x in g'
    requires waiting <= waiting'
    requires forall x :: x in g' && x !in g ==> x in waiting'
    ensures SearchInv(env, parent', g', nodes', pq', waiting', ins', expanded + {current})
  {
    SuccessorsComplete(env, current);
    forall x, a | x in expanded + {current} && Open(env, Move(x, a)) ensures Move(x, a) in g' {
      if x == current {
        var k :| 0 <= k < |succs| && succs[k] == (Move(x, a), a);
      }
    }
  }

  /**
   One round of the outer loop: pop the least entry; skip it when its state
   is no longer waiting; otherwise stop waiting on it, and report it when it
   is a goal or relax its successors. Unless a goal is reported, the cost map
   makes progress or the queue shrinks.
   */
  method Step(env: Env, ghost cells: seq<Pos>, pq: seq<Entry>, waiting: set<Pos>, parent: ParentMap, g: map<Pos, nat>,
              nodes: nat, ins: nat, ghost expanded: set<Pos>)
    returns (found: Option<Pos>, popped: Entry, pq': seq<Entry>, waiting': set<Pos>, parent': ParentMap,
             g': map<Pos, nat>, nodes': nat, ins': nat, ghost expanded': set<Pos>)
    requires pq != [] && Lists(env, cells)
    requires SearchInv(env, parent, g, nodes, pq, waiting, ins, expanded)
    ensures popped == PopMin(pq).0 && popped in pq && forall e :: e in pq ==> !Before(e, popped)
    ensures found.Some? <==> popped.state in waiting && IsGoal(env, popped.state)
    ensures popped.state !in waiting ==>
      && pq' == PopMin(pq).1 && waiting' == waiting && parent' == parent && g' == g && nodes' == nodes
      && ins' == ins && expanded' == expanded
    ensures found.Some? ==> pq' == PopMin(pq).1 && waiting' == waiting - {popped.state} && ins' == ins
    ensures found.None? && popped.state in waiting ==>
      var (current, c) := (popped.state, g[popped.state]);
      var pushed := AStarPushes(env, c, Successors(env, current), g, ins);
      && pq' == PopMin(pq).1 + pushed && ins' == ins + |pushed| && waiting' == (waiting - {current}) + States(pushed)
      && g' == Recosted(g, c, Successors(env, current)) && parent' == Relinked(parent, g, c, current, Successors(env, current))
      && expanded' == expanded + {current}
    ensures found.None? ==> SearchInv(env, parent', g', nodes', pq', waiting', ins', expanded')
    ensures found.None? ==> (g' == g && |pq'| < |pq|) || Better(cells, g, g')
    ensures found.None? ==> g.Keys <= g'.Keys
    ensures found.Some? ==>
      && found.value == popped.state && IsGoal(env, popped.state) && popped.state in parent
      && parent' == parent && g' == g && nodes' == nodes && CostInv(env, parent, g, nodes)
  {
    var rest;
    popped, rest := PopMin(pq).0, PopMin(pq).1;
    var current := popped.state;
    PopKeepsQueue(pq, waiting, ins, g);
    found, pq', waiting', parent', g', nodes', ins', expanded' := None, rest, waiting, parent, g, nodes, ins, expanded;
    if current in waiting {
      waiting' := waiting - {current};
      if IsGoal(env, current) {
        found := Some(current);
      } else {
        var succs := Successors(env, current);
        SuccessorsListed(env, current);
        pq', waiting', parent', g', nodes', ins' := Relax(env, cells, current, succs, rest, waiting', parent, g, nodes, ins);
        ExpandKeepsInv(env, current, succs, g, waiting - {current}, expanded, parent', g', nodes', pq', waiting', ins');
        expanded' := expanded + {current};
      }
    } else {
      assert States(pq) <= States(rest) + {current};
    }
  }

  /** The three-part measure of a search loop drops: fewer unrecorded states, or a lower summed cost, or a shorter queue or stack. */
  lemma MeasureDrops(env: Env, cells: seq<Pos>, g: map<Pos, nat>, g': map<Pos, nat>, len: nat, len': nat)
    requires (g' == g && len' < len) || Better(cells, g, g')
    requires forall x :: x in g' ==> x in Universe(env)
    ensures || Universe(env) - g'.Keys < Universe(env) - g.Keys
            || (&& Universe(env) - g'.Keys == Universe(env) - g.Keys
                && (|| Potential(cells, g', 0) < Potential(cells, g, 0)
                    || (Potential(cells, g', 0) == Potential(cells, g, 0) && len' < len)))
  {
    if g.Keys < g'.Keys {
      assert !(g'.Keys <= g.Keys);
      var x :| x in g'.Keys && x !in g.Keys;
      assert x in (Universe(env) - g.Keys) - (Universe(env) - g'.Keys);
    }
  }

  /** An exhausted queue leaves the expanded states closed under moves, goal-free and holding the start. */
  lemma ExhaustedUnreachable(env: Env, parent: ParentMap, g: map<Pos, nat>, nodes: nat, waiting: set<Pos>, ins: nat,
                             expanded: set<Pos>)
    requires SearchInv(env, parent, g, nodes, [], waiting, ins, expanded)
    ensures GoalUnreachable(env, env.start)
    ensures parent.Keys == ReachSet(env, env.start)
  {
    assert waiting == {};
    ClosedGoalFree(env, expanded, env.start);
    RecordsReach(env, parent, env.start, g, expanded);
  }

  /** The outer loop, from any state satisfying its invariant until a goal is popped or the queue runs empty. */
  method Drain(env: Env, ghost cells: seq<Pos>, pq: seq<Entry>, waiting: set<Pos>, p: ParentMap, g: map<Pos, nat>,
               nodes: nat, ins: nat, ghost expanded: set<Pos>)
    returns (r: SearchResult, ghost parent: ParentMap)
    requires Lists(env, cells)
    requires SearchInv(env, p, g, nodes, pq, waiting, ins, expanded)
    ensures r.nodes == |parent| && env.start in parent && parent[env.start] == Root
    ensures forall x :: x in parent ==> Recordable(env, x)
    ensures r.Found? ==> IsGoal(env, r.goal) && Reaches(env, env.start, r.actions, r.goal)
    ensures r.Found? ==> ReconstructPath(parent, r.goal, env.start) == Some(r.actions)
    ensures r.NotFound? ==> GoalUnreachable(env, env.start) && parent.Keys == ReachSet(env, env.start)
    ensures parent.Keys <= ReachSet(env, env.start) && r.nodes <= |ReachSet(env, env.start)|
  {
    var pq, waiting, q, g, nodes, ins, expanded := pq, waiting, p, g, nodes, ins, expanded;
    UniverseMembers(env);
    while pq != []
      invariant SearchInv(env, q, g, nodes, pq, waiting, ins, expanded)
      decreases Universe(env) - g.Keys, Potential(cells, g, 0), |pq|
    {
      ghost var (g0, pq0) := (g, pq);
      var found, popped;
      found, popped, pq, waiting, q, g, nodes, ins, expanded := Step(env, cells, pq, waiting, q, g, nodes, ins, expanded);
      if found.Some? {
        ReconstructReaches(env, q, env.start, g, popped.state);
        var actions := ReconstructPath(q, popped.state, env.start).value;
        assert |q| == |g.Keys| by { assert q.Keys == g.Keys; }
        RecordsWithinReach(env, q, env.start, g);
        r, parent := Found(actions, nodes, popped.state), q;
        return;
      }
      MeasureDrops(env, cells, g0, g, |pq0|, |pq|);
    }
    ExhaustedUnreachable(env, q, g, nodes, waiting, ins, expanded);
    RecordsWithinReach(env, q, env.start, g);
    r, parent := NotFound(|q|), q;
  }

  /**
   A* from the environment's start. The node count is the number of
   recorded states on every return; a found path leads from the start to the
   first goal popped; an exhausted queue means no goal is reachable.
   */
  method Run(env: Env) returns (r: SearchResult, ghost parent: ParentMap)
    ensures IsGoal(env, env.start) ==> r == Found([], 1, env.start)
    ensures r.nodes == |parent| && env.start in parent && parent[env.start] == Root
    ensures forall x :: x in parent ==> Recordable(env, x)
    ensures r.Found? ==> IsGoal(env, r.goal) && Reaches(env, env.start, r.actions, r.goal)
    ensures r.Found? ==> ReconstructPath(parent, r.goal, env.start) == Some(r.actions)
    ensures r.NotFound? ==> GoalUnreachable(env, env.start)
    ensures parent.Keys <= ReachSet(env, env.start) && 1 <= r.nodes <= |ReachSet(env, env.start)|
    ensures r.NotFound? ==> parent.Keys == ReachSet(env, env.start) && r.nodes == |ReachSet(env, env.start)|
  {
    var start := env.start;
    var p: ParentMap := map[start := Root];
    var insertions := 0;
    var gcosts: map<Pos, nat> := map[start := 0];
    var pq := [Entry(Plus(gcosts[start], Heuristic(env, start)), insertions, start)];
    insertions := insertions + 1;
    var waiting := {start};
    var nodes := 1;
    parent := p;
    ghost var cells := Enumerate(Universe(env));
    if IsGoal(env, start) {
      RecordsWithinReach(env, p, start, gcosts);
      r := Found([], nodes, start);
    } else {
      assert States(pq) == {start} by { assert pq[0] in pq; }
      r, parent := Drain(env, cells, pq, waiting, p, gcosts, nodes, insertions, {});
      assert start in parent.Keys;
    }
  }

  /** The start A* searches from: the override when one is given, else the environment's. */
  function ActualStart(env: Env, overrideStart: Option<Pos>): Pos {
    if overrideStart.Some? then overrideStart.value else env.start
  }

  /**
   `a_star_search`: the optional override replaces the environment's start
   (the goal override is accepted by the source and never read, so it is not
   a parameter here).
   */
  method Search(env: Env, overrideStart: Option<Pos>) returns (r: SearchResult, ghost parent: ParentMap)
    ensures IsGoal(env, ActualStart(env, overrideStart)) ==> r == Found([], 1, ActualStart(env, overrideStart))
    ensures r.Found? ==> IsGoal(env, r.goal) && Reaches(env, ActualStart(env, overrideStart), r.actions, r.goal)
    ensures r.NotFound? ==> GoalUnreachable(env, ActualStart(env, overrideStart))
    ensures var s := ActualStart(env, overrideStart);
      && r.nodes == |parent| && s in parent && parent[s] == Root
      && (r.Found? ==> ReconstructPath(parent, r.goal, s) == Some(r.actions))
    ensures parent.Keys <= ReachSet(env, ActualStart(env, overrideStart))
    ensures 1 <= r.nodes <= |ReachSet(env, ActualStart(env, overrideStart))|
    ensures r.NotFound? ==> r.nodes == |ReachSet(env, ActualStart(env, overrideStart))|
  {
    var s := ActualStart(env, overrideStart);
    r, parent := Run(env.(start := s));
    ReachSetIgnoresTargets(env, s, env.goal, s);
  }
}

=== FILE: bfs.dfy ===
/**
 `breadth_first_search`: a FIFO queue of bare states. A state is marked
 explored when it is appended to the queue, not when it is expanded, and the
 start is never marked, so the start can be appended a second time and its
 own parent entry overwritten. A goal is recognised when it is dequeued.
 */
module BreadthFirst {
  import opened Grid
  import opened Paths

  /** One append to the queue: the new state, the state it was reached from, and the action. */
  datatype Push = Push(next: Pos, from: Pos, action: Action)

  /** The states appended for one expansion: the unexplored successors in `get_valid_successors` order. */
  function Unseen(succs: seq<(Pos, Action)>, explored: set<Pos>): seq<Pos>
    decreases |succs|
  {
    if succs == [] then []
    else
      var last := succs[|succs| - 1];
      Unseen(succs[..|succs| - 1], explored) + (if last.0 !in explored then [last.0] else [])
  }

  /** The appends made for one expansion of `current`: its unexplored successors, with their actions, in order. */
  function Appends(current: Pos, succs: seq<(Pos, Action)>, explored: set<Pos>): seq<Push>
    decreases |succs|
  {
    if succs == [] then []
    else
      var last := succs[|succs| - 1];
      Appends(current, succs[..|succs| - 1], explored) + (if last.0 !in explored then [Push(last.0, current, last.1)] else [])
  }

  /** The states appended so far. */
  function Appended(pushes: seq<Push>): set<Pos> {
    set i | 0 <= i < |pushes| :: pushes[i].next
  }

  lemma AppendedPush(pushes: seq<Push>, e: Push)
    ensures Appended(pushes + [e]) == Appended(pushes) + {e.next}
  {
    var ps := pushes + [e];
    assert ps[|pushes|] == e;
    forall x | x in Appended(pushes) ensures x in Appended(ps) {
      var i :| 0 <= i < |pushes| && pushes[i].next == x;
      assert ps[i] == pushes[i];
    }
  }

  /**
   Every append is a unit move into an open cell, no state is appended twice,
   and each appended state other than the start still carries the link of its
   only append.
   */
  ghost predicate PushLog(env: Env, parent: ParentMap, pushes: seq<Push>) {
    && (forall i :: 0 <= i < |pushes| ==> pushes[i].next == Move(pushes[i].from, pushes[i].action) && Open(env, pushes[i].next))
    && (forall i, j :: 0 <= i < j < |pushes| ==> pushes[i].next != pushes[j].next)
    && (forall i :: 0 <= i < |pushes| && pushes[i].next != env.start ==>
          pushes[i].next in parent && parent[pushes[i].next] == Via(pushes[i].from, pushes[i].action))
  }

  /** The parent-map facts: ranked links, and exactly the explored states and the start recorded. */
  ghost predicate LinkInv(env: Env, parent: ParentMap, rank: map<Pos, nat>, explored: set<Pos>, pushes: seq<Push>) {
    && Ranked(env, parent, env.start, rank)
    && parent.Keys == explored + {env.start}
    && (forall x :: x in parent ==> Recordable(env, x))
    && explored == Appended(pushes)
    && PushLog(env, parent, pushes)
  }

  /** Logging the append of a state never appended before, together with its new link, keeps the log faithful. */
  lemma PushLogExtend(env: Env, parent: ParentMap, pushes: seq<Push>, explored: set<Pos>, current: Pos, action: Action)
    requires PushLog(env, parent, pushes)
    requires explored == Appended(pushes)
    requires Open(env, Move(current, action)) && Move(current, action) !in explored
    ensures var next := Move(current, action);
      var pushes' := pushes + [Push(next, current, action)];
      && PushLog(env, parent[next := Via(current, action)], pushes')
      && Appended(pushes') == explored + {next}
  {
    AppendedPush(pushes, Push(Move(current, action), current, action));
    var next := Move(current, action);
    var pushes' := pushes + [Push(next, current, action)];
    var parent' := parent[next := Via(current, action)];
    forall i | 0 <= i < |pushes'| && pushes'[i].next != env.start
      ensures pushes'[i].next in parent' && parent'[pushes'[i].next] == Via(pushes'[i].from, pushes'[i].action)
    {
      if i < |pushes| {
        assert pushes'[i] == pushes[i];
      }
    }
    forall i, j | 0 <= i < j < |pushes'| ensures pushes'[i].next != pushes'[j].next {
      if j == |pushes| {
        assert pushes'[i].next in Appended(pushes);
      }
    }
  }

  /** Appending one unexplored open neighbour of a recorded state keeps the parent-map facts. */
  lemma AppendKeepsLinks(env: Env, parent: ParentMap, rank: map<Pos, nat>, explored: set<Pos>, pushes: seq<Push>,
                         current: Pos, action: Action)
    requires LinkInv(env, parent, rank, explored, pushes)
    requires current in parent && Open(env, Move(current, action)) && Move(current, action) !in explored
    ensures var next := Move(current, action);
      LinkInv(env, parent[next := Via(current, action)],
              if next == env.start then rank else rank[next := rank[current] + 1],
              explored + {next}, pushes + [Push(next, current, action)])
  {
    if Move(current, action) == env.start {
      RelinkStartRanked(env, parent, env.start, rank, current, action);
    } else {
      RelinkRanked(env, parent, env.start, rank, current, action);
    }
    PushLogExtend(env, parent, pushes, explored, current, action);
  }

  /** Extending the processed prefix by one successor appends it to the queue exactly when it was unexplored. */
  lemma AppendStep(current: Pos, queue: seq<Pos>, q: seq<Pos>, pushes: seq<Push>, ps: seq<Push>, succs: seq<(Pos, Action)>,
                    explored: set<Pos>, ex: set<Pos>, i: nat)
    requires i < |succs| && q == queue + Unseen(succs[..i], explored) && ex == explored + Targets(succs[..i])
    requires ps == pushes + Appends(current, succs[..i], explored)
    requires forall a, b :: 0 <= a < b < |succs| ==> succs[a].0 != succs[b].0
    ensures succs[i].0 !in ex ==>
      && q + [succs[i].0] == queue + Unseen(succs[..i + 1], explored)
      && ex + {succs[i].0} == explored + Targets(succs[..i + 1])
      && ps + [Push(succs[i].0, current, succs[i].1)] == pushes + Appends(current, succs[..i + 1], explored)
    ensures succs[i].0 in ex ==>
      && q == queue + Unseen(succs[..i + 1], explored) && ex == explored + Targets(succs[..i + 1])
      && ps == pushes + Appends(current, succs[..i + 1], explored)
  {
    assert succs[..i + 1][..i] == succs[..i];
    assert forall e :: e in succs[..i + 1] <==> e in succs[..i] || e == succs[i];
    NotEarlier(succs, i);
  }

  /** The appends, marks and links made for the first `i` successors of `current`. */
  ghost predicate AppendedUpTo(env: Env, current: Pos, succs: seq<(Pos, Action)>, i: nat, queue: seq<Pos>,
                               explored: set<Pos>, pushes: seq<Push>, queue': seq<Pos>, explored': set<Pos>,
                               parent': ParentMap, rank': map<Pos, nat>, pushes': seq<Push>)
  {
    && i <= |succs|
    && LinkInv(env, parent', rank', explored', pushes')
    && current in parent'
    && queue' == queue + Unseen(succs[..i], explored)
    && explored' == explored + Targets(succs[..i])
    && pushes' == pushes + Appends(current, succs[..i], explored)
  }

  /** One iteration of the inner loop: append successor `i` when it is unexplored. */
  method AppendOne(env: Env, current: Pos, succs: seq<(Pos, Action)>, i: nat, ghost queue: seq<Pos>,
                   ghost explored: set<Pos>, ghost pushes: seq<Push>, q: seq<Pos>, ex: set<Pos>, parent: ParentMap,
                   ghost rank: map<Pos, nat>, ghost ps: seq<Push>)
    returns (q': seq<Pos>, ex': set<Pos>, parent': ParentMap, ghost rank': map<Pos, nat>, ghost ps': seq<Push>)
    requires i < |succs| && SuccessorList(env, current, succs)
    requires AppendedUpTo(env, current, succs, i, queue, explored, pushes, q, ex, parent, rank, ps)
    ensures AppendedUpTo(env, current, succs, i + 1, queue, explored, pushes, q', ex', parent', rank', ps')
  {
    var next, action := succs[i].0, succs[i].1;
    AppendStep(current, queue, q, pushes, ps, succs, explored, ex, i);
    q', ex', parent', rank', ps' := q, ex, parent, rank, ps;
    if next !in ex {
      AppendKeepsLinks(env, parent, rank, ex, ps, current, action);
      ex' := ex + {next};
      q' := q + [next];
      parent' := parent[next := Via(current, action)];
      rank' := if next == env.start then rank else rank[next := rank[current] + 1];
      ps' := ps + [Push(next, current, action)];
    }
  }

  /** The inner loop over `successors`: append each unexplored successor, mark it explored and link it to `current`. */
  method AppendSuccessors(env: Env, current: Pos, succs: seq<(Pos, Action)>, queue: seq<Pos>, explored: set<Pos>,
                          parent: ParentMap, ghost rank: map<Pos, nat>, ghost pushes: seq<Push>)
    returns (queue': seq<Pos>, explored': set<Pos>, parent': ParentMap, ghost rank': map<Pos, nat>, ghost pushes': seq<Push>)
    requires current in parent
    requires SuccessorList(env, current, succs)
    requires LinkInv(env, parent, rank, explored, pushes)
    ensures LinkInv(env, parent', rank', explored', pushes')
    ensures queue' == queue + Unseen(succs, explored)
    ensures explored' == explored + Targets(succs)
    ensures pushes' == pushes + Appends(current, succs, explored)
  {
    queue', explored', parent', rank', pushes' := queue, explored, parent, rank, pushes;
    var i := 0;
    while i < |succs|
      invariant AppendedUpTo(env, current, succs, i, queue, explored, pushes, queue', explored', parent', rank', pushes')
    {
      queue', explored', parent', rank', pushes' :=
        AppendOne(env, current, succs, i, queue, explored, pushes, queue', explored', parent', rank', pushes');
      i := i + 1;
    }
    assert succs[..i] == succs;
  }

  /** When every listed successor is already explored, nothing is appended. */
  lemma {:induction false} NothingUnseen(succs: seq<(Pos, Action)>, explored: set<Pos>)
    requires Targets(succs) <= explored
    ensures Unseen(succs, explored) == []
    decreases |succs|
  {
    if succs != [] {
      var init := succs[..|succs| - 1];
      assert Targets(init) <= Targets(succs) by {
        forall e | e in init ensures e in succs { var k :| 0 <= k < |init| && init[k] == e; assert succs[k] == e; }
      }
      assert succs[|succs| - 1] in succs;
      NothingUnseen(init, explored);
    }
  }

  /** Every listed successor that was unexplored is appended. */
  lemma {:induction false} UnseenHas(succs: seq<(Pos, Action)>, explored: set<Pos>, x: Pos)
    requires x in Targets(succs) && x !in explored
    ensures x in Unseen(succs, explored)
    decreases |succs|
  {
    var init := succs[..|succs| - 1];
    var e :| e in succs && e.0 == x;
    if e != succs[|succs| - 1] {
      var k :| 0 <= k < |succs| && succs[k] == e;
      assert init[k] == e;
      UnseenHas(init, explored, x);
    }
  }

  /** Only listed, unexplored successors are appended. */
  lemma {:induction false} UnseenTargets(succs: seq<(Pos, Action)>, explored: set<Pos>)
    ensures forall x :: x in Unseen(succs, explored) ==> x in Targets(succs) && x !in explored
    decreases |succs|
  {
    if succs != [] {
      var init := succs[..|succs| - 1];
      UnseenTargets(init, explored);
      forall e | e in init ensures e in succs {
        var k :| 0 <= k < |init| && init[k] == e;
        assert succs[k] == e;
      }
      assert succs[|succs| - 1] in succs;
    }
  }

  /** The facts the outer loop keeps: linked queue entries, and every expanded state's open neighbours explored. */
  ghost predicate QueueInv(env: Env, parent: ParentMap, rank: map<Pos, nat>, queue: seq<Pos>, explored: set<Pos>,
                           expanded: set<Pos>, pushes: seq<Push>) {
    && LinkInv(env, parent, rank, explored, pushes)
    && (forall i :: 0 <= i < |queue| ==> queue[i] in parent)
    && expanded <= parent.Keys
    && (env.start in expanded || env.start in queue)
    && (forall x, a :: x in expanded && Open(env, Move(x, a)) ==> Move(x, a) in explored)
    && (forall x :: x in explored ==> x in expanded || x in queue)
    && (forall x :: x in expanded ==> !IsGoal(env, x))
  }

  /** What was explored or waiting stays expanded or waiting after the front state is expanded and its successors appended. */
  lemma StillWaiting(queue: seq<Pos>, succs: seq<(Pos, Action)>, explored: set<Pos>, expanded: set<Pos>, queue': seq<Pos>)
    requires queue != [] && queue' == queue[1..] + Unseen(succs, explored)
    ensures forall x :: x in expanded || x in queue || (x in Targets(succs) && x !in explored) ==>
      x in expanded + {queue[0]} || x in queue'
  {
    forall x | x in expanded || x in queue || (x in Targets(succs) && x !in explored)
      ensures x in expanded + {queue[0]} || x in queue'
    {
      if x !in expanded && x in queue && x != queue[0] {
        var k :| 0 <= k < |queue| && queue[k] == x;
        assert queue'[k - 1] == x;
      } else if x !in expanded && x !in queue {
        UnseenHas(succs, explored, x);
        assert queue'[|queue| - 1..] == Unseen(succs, explored);
      }
    }
  }

  /** Every queue entry stays recorded when the appended states are recorded. */
  lemma QueueRecorded(queue: seq<Pos>, succs: seq<(Pos, Action)>, explored: set<Pos>, keys: set<Pos>, queue': seq<Pos>)
    requires queue != [] && queue' == queue[1..] + Unseen(succs, explored)
    requires forall i :: 0 <= i < |queue| ==> queue[i] in keys
    requires Targets(succs) <= keys
    ensures forall i :: 0 <= i < |queue'| ==> queue'[i] in keys
  {
    UnseenTargets(succs, explored);
    forall i | 0 <= i < |queue'| ensures queue'[i] in keys {
      if i < |queue| - 1 {
        assert queue'[i] == queue[i + 1];
      } else {
        assert queue'[i] in Unseen(succs, explored);
      }
    }
  }

  /** Dequeuing a non-goal state and appending its unexplored successors keeps the outer-loop facts. */
  lemma ExpandKeepsInv(env: Env, queue: seq<Pos>, current: Pos, succs: seq<(Pos, Action)>, explored: set<Pos>,
                       parent: ParentMap, rank: map<Pos, nat>, expanded: set<Pos>, pushes: seq<Push>,
                       queue': seq<Pos>, explored': set<Pos>, parent': ParentMap, rank': map<Pos, nat>, pushes': seq<Push>)
    requires queue != [] && current == queue[0] && !IsGoal(env, current)
    requires QueueInv(env, parent, rank, queue, explored, expanded, pushes)
    requires LinkInv(env, parent', rank', explored', pushes')
    requires queue' == queue[1..] + Unseen(succs, explored)
    requires explored' == explored + Targets(succs)
    requires forall a :: Open(env, Move(current, a)) ==> Move(current, a) in Targets(succs)
    ensures QueueInv(env, parent', rank', queue', explored', expanded + {current}, pushes')
    ensures explored' == explored ==> |queue'| < |queue|
  {
    StillWaiting(queue, succs, explored, expanded, queue');
    QueueRecorded(queue, succs, explored, parent'.Keys, queue');
    if explored' == explored {
      NothingUnseen(succs, explored);
    }
  }

  /**
   Expanding the front state: it leaves the queue, and its unexplored
   successors are appended, marked explored and logged, in successor order.
   */
  ghost predicate Dequeued(env: Env, queue: seq<Pos>, explored: set<Pos>, pushes: seq<Push>,
                           queue': seq<Pos>, explored': set<Pos>, pushes': seq<Push>)
    requires queue != []
  {
    var succs := Successors(env, queue[0]);
    && queue' == queue[1..] + Unseen(succs, explored)
    && explored' == explored + Targets(succs)
    && pushes' == pushes + Appends(queue[0], succs, explored)
  }

  /**
   One round of the outer loop: dequeue the front state; report it when it is
   a goal, otherwise append its unexplored successors.
   */
  method Step(env: Env, queue: seq<Pos>, explored: set<Pos>, parent: ParentMap, ghost rank: map<Pos, nat>,
              ghost expanded: set<Pos>, ghost pushes: seq<Push>)
    returns (found: Option<Pos>, queue': seq<Pos>, explored': set<Pos>, parent': ParentMap, ghost rank': map<Pos, nat>,
             ghost expanded': set<Pos>, ghost pushes': seq<Push>)
    requires queue != []
    requires QueueInv(env, parent, rank, queue, explored, expanded, pushes)
    ensures found.None? ==> QueueInv(env, parent', rank', queue', explored', expanded', pushes')
    ensures found.None? ==> explored <= explored' && forall x :: x in explored' ==> Recordable(env, x)
    ensures found.None? && explored' == explored ==> |queue'| < |queue|
    ensures found.None? ==> explored' <= Universe(env)
    ensures pushes <= pushes'
    ensures found.Some? ==> LinkInv(env, parent', rank', explored', pushes') && found.value in parent'
    ensures found.Some? ==>
      && found.value == queue[0] && IsGoal(env, found.value)
      && parent' == parent && rank' == rank && explored' == explored && expanded' == expanded && pushes' == pushes
    ensures found.Some? <==> IsGoal(env, queue[0])
    ensures found.None? ==> Dequeued(env, queue, explored, pushes, queue', explored', pushes')
    ensures found.None? ==> expanded' == expanded + {queue[0]}
  {
    var current := queue[0];
    queue' := queue[1..];
    found, explored', parent', rank', expanded', pushes' := None, explored, parent, rank, expanded, pushes;
    if IsGoal(env, current) {
      found := Some(current);
      return;
    }
    var succs := Successors(env, current);
    SuccessorsListed(env, current);
    queue', explored', parent', rank', pushes' := AppendSuccessors(env, current, succs, queue', explored, parent, rank, pushes);
    expanded' := expanded + {current};
    SuccessorsComplete(env, current);
    forall a | Open(env, Move(current, a)) ensures Move(current, a) in Targets(succs) {
      assert (Move(current, a), a) in succs;
    }
    ExpandKeepsInv(env, queue, current, succs, explored, parent, rank, expanded, pushes, queue', explored', parent', rank', pushes');
  }

  /** An exhausted queue leaves the expanded states closed under moves, goal-free and holding the start. */
  lemma ExhaustedUnreachable(env: Env, parent: ParentMap, rank: map<Pos, nat>, explored: set<Pos>, expanded: set<Pos>,
                             pushes: seq<Push>)
    requires QueueInv(env, parent, rank, [], explored, expanded, pushes)
    ensures GoalUnreachable(env, env.start)
    ensures parent.Keys == ReachSet(env, env.start)
  {
    ClosedGoalFree(env, expanded, env.start);
    RecordsReach(env, parent, env.start, rank, expanded);
  }

  /** The outer loop, one round per call, from any state satisfying its invariant until a goal is dequeued or the queue runs empty. */
  method Explore(env: Env, queue: seq<Pos>, explored: set<Pos>, p: ParentMap, ghost rank: map<Pos, nat>,
                 ghost expanded: set<Pos>, ghost pushes: seq<Push>)
    returns (found: Option<Pos>, queue': seq<Pos>, explored': set<Pos>, p': ParentMap, ghost rank': map<Pos, nat>,
             ghost expanded': set<Pos>, ghost pushes': seq<Push>)
    requires QueueInv(env, p, rank, queue, explored, expanded, pushes)
    ensures LinkInv(env, p', rank', explored', pushes') && pushes <= pushes'
    ensures found.Some? ==> IsGoal(env, found.value) && found.value in p'
    ensures found.None? ==> QueueInv(env, p', rank', [], explored', expanded', pushes')
    decreases Universe(env) - explored, |queue|
  {
    if queue == [] {
      found, queue', explored', p', rank', expanded', pushes' := None, queue, explored, p, rank, expanded, pushes;
      return;
    }
    found, queue', explored', p', rank', expanded', pushes' := Step(env, queue, explored, p, rank, expanded, pushes);
    if found.None? {
      found, queue', explored', p', rank', expanded', pushes' := Explore(env, queue', explored', p', rank', expanded', pushes');
    }
  }

  /** The search from any state satisfying the loop invariant, with the result it reports. */
  method Drain(env: Env, queue: seq<Pos>, explored: set<Pos>, p: ParentMap, ghost rank: map<Pos, nat>,
               ghost expanded: set<Pos>, ghost pushes: seq<Push>)
    returns (r: SearchResult, ghost parent: ParentMap, ghost pushes': seq<Push>)
    requires QueueInv(env, p, rank, queue, explored, expanded, pushes)
    ensures r.nodes == |parent| && env.start in parent && forall x :: x in parent ==> Recordable(env, x)
    ensures r.Found? ==> IsGoal(env, r.goal) && Reaches(env, env.start, r.actions, r.goal)
    ensures r.Found? ==> ReconstructPath(parent, r.goal, env.start) == Some(r.actions)
    ensures r.NotFound? ==> GoalUnreachable(env, env.start) && parent.Keys == ReachSet(env, env.start)
    ensures PushLog(env, parent, pushes') && pushes <= pushes'
    ensures parent.Keys == Appended(pushes') + {env.start}
    ensures parent.Keys <= ReachSet(env, env.start) && r.nodes <= |ReachSet(env, env.start)|
  {
    var found, queue', explored', p';
    ghost var rank', expanded';
    found, queue', explored', p', rank', expanded', pushes' := Explore(env, queue, explored, p, rank, expanded, pushes);
    RecordsWithinReach(env, p', env.start, rank');
    parent := p';
    if found.Some? {
      ReconstructReaches(env, p', env.start, rank', found.value);
      r := Found(ReconstructPath(p', found.value, env.start).value, |p'|, found.value);
    } else {
      ExhaustedUnreachable(env, p', rank', explored', expanded', pushes');
      r := NotFound(|p'|);
    }
  }

  /**
   `breadth_first_search`. The node count is `len(parent)` on every return; a
   found path leads from the start to the first goal dequeued; no state is
   appended twice and no appended state other than the start loses its link;
   an exhausted queue means no goal is reachable.
   */
  method Search(env: Env) returns (r: SearchResult, ghost parent: ParentMap, ghost pushes: seq<Push>)
    ensures IsGoal(env, env.start) ==> r == Found([], 1, env.start)
    ensures r.nodes == |parent| && env.start in parent && forall x :: x in parent ==> Recordable(env, x)
    ensures r.Found? ==> IsGoal(env, r.goal) && Reaches(env, env.start, r.actions, r.goal)
    ensures r.Found? ==> ReconstructPath(parent, r.goal, env.start) == Some(r.actions)
    ensures r.NotFound? ==> GoalUnreachable(env, env.start)
    ensures forall i, j :: 0 <= i < j < |pushes| ==> pushes[i].next != pushes[j].next
    ensures forall i :: 0 <= i < |pushes| && pushes[i].next != env.start ==>
      pushes[i].next in parent && parent[pushes[i].next] == Via(pushes[i].from, pushes[i].action)
    ensures parent.Keys == Appended(pushes) + {env.start}
    ensures parent.Keys <= ReachSet(env, env.start) && r.nodes <= |ReachSet(env, env.start)|
    ensures r.NotFound? ==> parent.Keys == ReachSet(env, env.start) && r.nodes == |ReachSet(env, env.start)|
  {
    var start := env.start;
    var p: ParentMap := map[start := Root];
    var queue := [start];
    var explored: set<Pos> := {};
    ghost var rank: map<Pos, nat> := map[start := 0];
    ghost var expanded: set<Pos> := {};
    parent, pushes := p, [];

    if IsGoal(env, start) {
      RecordsWithinReach(env, p, start, rank);
      r := Found([], |p|, start);
    } else {
      r, parent, pushes := Drain(env, queue, explored, p, rank, expanded, pushes);
    }
  }
}

=== FILE: dfs.dfy ===
/**
 `depth_first_search`: a stack of bare states and an explored set. A popped
 state already explored is skipped; otherwise it is explored, checked for
 being a goal, and its unexplored successors are pushed in reverse
 UP, LEFT, DOWN, RIGHT order (so UP is popped first), each push overwriting
 that state's parent link.
 */
module DepthFirst {
  import opened Grid
  import opened Paths

  /** The states pushed for one expansion: `reversed(successors)` filtered to the unexplored ones. */
  function PushOrder(succs: seq<(Pos, Action)>, explored: set<Pos>): seq<Pos> {
    if succs == [] then []
    else PushOrder(succs[1..], explored) + (if succs[0].0 !in explored then [succs[0].0] else [])
  }

  /** Only explored states are predecessors in the parent map. */
  ghost predicate ParentsExplored(parent: ParentMap, start: Pos, explored: set<Pos>) {
    forall x {:trigger parent[x]} | x in parent && x != start :: parent[x].Via? && parent[x].prev in explored
  }

  /** Every open neighbour of an explored state is explored or waiting on the stack. */
  ghost predicate Covered(env: Env, explored: set<Pos>, frontier: seq<Pos>) {
    forall x, a :: x in explored && Open(env, Move(x, a)) ==> Move(x, a) in explored || Move(x, a) in frontier
  }

  /** Popping `current`, exploring it and pushing its unexplored neighbours keeps every explored state covered. */
  lemma PopKeepsCovered(env: Env, explored: set<Pos>, before: seq<Pos>, current: Pos, popped: seq<Pos>, after: seq<Pos>)
    requires before == popped + [current]
    requires Covered(env, explored, before)
    requires forall y :: y in popped ==> y in after
    requires forall a :: Open(env, Move(current, a)) ==> Move(current, a) in explored + {current} || Move(current, a) in after
    ensures Covered(env, explored + {current}, after)
  {
    forall x, a | x in explored + {current} && Open(env, Move(x, a))
      ensures Move(x, a) in explored + {current} || Move(x, a) in after
    {
      if x != current && Move(x, a) !in explored {
        assert Move(x, a) in before;
      }
    }
  }

  /** The parent-map and stack facts kept by the search loop. */
  ghost predicate StackInv(env: Env, parent: ParentMap, rank: map<Pos, nat>, frontier: seq<Pos>, explored: set<Pos>) {
    && Ranked(env, parent, env.start, rank)
    && (forall x :: x in parent ==> Recordable(env, x))
    && (forall i :: 0 <= i < |frontier| ==> frontier[i] in parent)
    && explored <= parent.Keys
    && ParentsExplored(parent, env.start, explored)
    && (forall x :: x in parent ==> x in explored || x in frontier)
  }

  /** Pushing an unexplored open neighbour of an explored state and linking it keeps the loop facts. */
  lemma PushKeepsInv(env: Env, parent: ParentMap, rank: map<Pos, nat>, frontier: seq<Pos>, explored: set<Pos>,
                     current: Pos, action: Action)
    requires StackInv(env, parent, rank, frontier, explored)
    requires current in explored && Move(current, action) !in explored && Open(env, Move(current, action))
    ensures var next := Move(current, action);
      StackInv(env, parent[next := Via(current, action)], rank[next := rank[current] + 1], frontier + [next], explored)
  {
    RelinkRanked(env, parent, env.start, rank, current, action);
  }

  /**
   The inner loop's facts once the successors from index `i` on are handled:
   exactly the unexplored ones are pushed and linked to `current`, and every
   other link is kept.
   */
  ghost predicate PushedFrom(env: Env, current: Pos, succs: seq<(Pos, Action)>, i: nat, explored: set<Pos>,
                             frontier: seq<Pos>, parent: ParentMap, frontier': seq<Pos>, parent': ParentMap,
                             rank': map<Pos, nat>)
    requires i <= |succs|
  {
    && StackInv(env, parent', rank', frontier', explored)
    && frontier' == frontier + PushOrder(succs[i..], explored)
    && (forall k :: i <= k < |succs| ==> succs[k].0 in explored || succs[k].0 in frontier')
    && LinkedFrom(parent', current, succs, explored, i)
    && KeptFrom(succs, i, explored, parent, parent')
  }

  /** Only the unexplored successors from index `i` on are added to the parent map; every other link is kept. */
  ghost predicate KeptFrom(succs: seq<(Pos, Action)>, i: nat, explored: set<Pos>, parent: ParentMap, parent': ParentMap)
    requires i <= |succs|
  {
    && parent'.Keys == parent.Keys + (Targets(succs[i..]) - explored)
    && (forall x :: x in parent && (x in explored || x !in Targets(succs[i..])) ==> parent'[x] == parent[x])
  }

  /** Linking successor `i - 1` when it is unexplored keeps every other link. */
  lemma KeptStep(succs: seq<(Pos, Action)>, i: nat, explored: set<Pos>, parent: ParentMap, p: ParentMap, link: Link)
    requires 0 < i <= |succs| && KeptFrom(succs, i, explored, parent, p)
    ensures succs[i - 1].0 !in explored ==> KeptFrom(succs, i - 1, explored, parent, p[succs[i - 1].0 := link])
    ensures succs[i - 1].0 in explored ==> KeptFrom(succs, i - 1, explored, parent, p)
  {
    TargetsSplit(succs, i - 1);
  }

  /** Pushing and linking an unexplored successor `i - 1` extends the inner loop's facts by one index. */
  lemma PushTaken(env: Env, current: Pos, succs: seq<(Pos, Action)>, i: nat, explored: set<Pos>, frontier: seq<Pos>,
                  parent: ParentMap, f: seq<Pos>, p: ParentMap, rank: map<Pos, nat>)
    requires 0 < i <= |succs| && current in explored && SuccessorList(env, current, succs)
    requires PushedFrom(env, current, succs, i, explored, frontier, parent, f, p, rank)
    requires succs[i - 1].0 !in explored
    ensures var (next, action) := succs[i - 1];
      PushedFrom(env, current, succs, i - 1, explored, frontier, parent, f + [next], p[next := Via(current, action)],
                 rank[next := rank[current] + 1])
  {
    TargetsSplit(succs, i - 1);
    var (next, action) := succs[i - 1];
    KeptStep(succs, i, explored, parent, p, Via(current, action));
    PushKeepsInv(env, p, rank, f, explored, current, action);
  }

  /** Passing over an explored successor `i - 1` extends the inner loop's facts by one index. */
  lemma PushSkipped(env: Env, current: Pos, succs: seq<(Pos, Action)>, i: nat, explored: set<Pos>, frontier: seq<Pos>,
                    parent: ParentMap, f: seq<Pos>, p: ParentMap, rank: map<Pos, nat>)
    requires 0 < i <= |succs| && current in explored && SuccessorList(env, current, succs)
    requires PushedFrom(env, current, succs, i, explored, frontier, parent, f, p, rank)
    requires succs[i - 1].0 in explored
    ensures PushedFrom(env, current, succs, i - 1, explored, frontier, parent, f, p, rank)
  {
    TargetsSplit(succs, i - 1);
    KeptStep(succs, i, explored, parent, p, Root);
  }

  /** One iteration of the inner loop: push and link successor `i - 1` when it is unexplored. */
  method PushOne(env: Env, current: Pos, succs: seq<(Pos, Action)>, i: nat, explored: set<Pos>, ghost frontier: seq<Pos>,
                 ghost parent: ParentMap, f: seq<Pos>, p: ParentMap, ghost rank: map<Pos, nat>)
    returns (f': seq<Pos>, p': ParentMap, ghost rank': map<Pos, nat>)
    requires 0 < i <= |succs| && current in explored && SuccessorList(env, current, succs)
    requires PushedFrom(env, current, succs, i, explored, frontier, parent, f, p, rank)
    ensures PushedFrom(env, current, succs, i - 1, explored, frontier, parent, f', p', rank')
  {
    var (next, action) := succs[i - 1];
    f', p', rank' := f, p, rank;
    if next !in explored {
      PushTaken(env, current, succs, i, explored, frontier, parent, f, p, rank);
      f' := f + [next];
      p' := p[next := Via(current, action)];
      rank' := rank[next := rank[current] + 1];
    } else {
      PushSkipped(env, current, succs, i, explored, frontier, parent, f, p, rank);
    }
  }

  /** The inner loop over `reversed(successors)`: push each unexplored successor and link it to `current`. */
  method PushSuccessors(env: Env, current: Pos, succs: seq<(Pos, Action)>, explored: set<Pos>, frontier: seq<Pos>,
                        parent: ParentMap, ghost rank: map<Pos, nat>)
    returns (frontier': seq<Pos>, parent': ParentMap, ghost rank': map<Pos, nat>)
    requires current in explored
    requires SuccessorList(env, current, succs)
    requires StackInv(env, parent, rank, frontier, explored)
    ensures StackInv(env, parent', rank', frontier', explored)
    ensures frontier' == frontier + PushOrder(succs, explored)
    ensures forall y :: y in frontier ==> y in frontier'
    ensures forall k :: 0 <= k < |succs| ==> succs[k].0 in explored || succs[k].0 in frontier'
    ensures LinkedFrom(parent', current, succs, explored, 0)
    ensures parent'.Keys == parent.Keys + (Targets(succs) - explored)
    ensures forall x :: x in parent && (x in explored || x !in Targets(succs)) ==> parent'[x] == parent[x]
  {
    frontier', parent', rank' := frontier, parent, rank;
    var i := |succs|;
    assert Targets(succs[i..]) == {};
    while i > 0
      invariant 0 <= i <= |succs|
      invariant PushedFrom(env, current, succs, i, explored, frontier, parent, frontier', parent', rank')
    {
      frontier', parent', rank' := PushOne(env, current, succs, i, explored, frontier, parent, frontier', parent', rank');
      i := i - 1;
    }
    assert succs[i..] == succs;
  }

  /** The facts the outer loop keeps about the stack, the explored set and the expansion order. */
  ghost predicate SearchInv(env: Env, parent: ParentMap, rank: map<Pos, nat>, frontier: seq<Pos>, explored: set<Pos>,
                            expanded: seq<Pos>) {
    && StackInv(env, parent, rank, frontier, explored)
    && (env.start in explored || env.start in frontier)
    && Covered(env, explored, frontier)
    && (forall x :: x in explored <==> x in expanded)
    && (forall i :: 0 <= i < |expanded| ==> !IsGoal(env, expanded[i]))
    && (forall i, j :: 0 <= i < j < |expanded| ==> expanded[i] != expanded[j])
  }

  /** Popping the top of the stack: the popped state is linked, and the loop facts hold for the rest. */
  lemma PopKeepsInv(env: Env, parent: ParentMap, rank: map<Pos, nat>, before: seq<Pos>, frontier: seq<Pos>, current: Pos,
                    explored: set<Pos>, expanded: seq<Pos>)
    requires before == frontier + [current]
    requires SearchInv(env, parent, rank, before, explored, expanded)
    ensures current in parent && Recordable(env, current)
    ensures current in explored ==> SearchInv(env, parent, rank, frontier, explored, expanded)
    ensures Ranked(env, parent, env.start, rank)
    ensures forall i :: 0 <= i < |expanded| ==> !IsGoal(env, expanded[i])
    ensures current !in explored ==>
      && StackInv(env, parent, rank, frontier, explored + {current})
      && (env.start in explored + {current} || env.start in frontier)
      && (forall i, j :: 0 <= i < j < |expanded + [current]| ==> (expanded + [current])[i] != (expanded + [current])[j])
  {
    assert before[|frontier|] == current;
    assert forall i :: 0 <= i < |frontier| ==> frontier[i] == before[i];
    if current in explored {
      PopKeepsCovered(env, explored, before, current, frontier, frontier);
    }
  }

  /** Exploring a popped, unexplored, non-goal state and pushing its successors keeps the loop facts. */
  method Expand(env: Env, current: Pos, ghost before: seq<Pos>, frontier: seq<Pos>, explored: set<Pos>, parent: ParentMap,
                ghost rank: map<Pos, nat>, ghost expanded: seq<Pos>)
    returns (frontier': seq<Pos>, explored': set<Pos>, parent': ParentMap, ghost rank': map<Pos, nat>, ghost expanded': seq<Pos>)
    requires before == frontier + [current] && current !in explored && !IsGoal(env, current)
    requires SearchInv(env, parent, rank, before, explored, expanded)
    ensures SearchInv(env, parent', rank', frontier', explored', expanded')
    ensures explored' == explored + {current} && expanded' == expanded + [current]
    ensures frontier' == frontier + PushOrder(Successors(env, current), explored')
  {
    PopKeepsInv(env, parent, rank, before, frontier, current, explored, expanded);
    explored' := explored + {current};
    expanded' := expanded + [current];
    var succs := Successors(env, current);
    SuccessorsListed(env, current);
    frontier', parent', rank' := PushSuccessors(env, current, succs, explored', frontier, parent, rank);
    SuccessorsComplete(env, current);
    PopKeepsCovered(env, explored, before, current, frontier, frontier');
  }

  /**
   One round of the outer loop: pop the top state; skip it when explored;
   otherwise explore it and either report it as a goal or push its successors.
   */
  method Step(env: Env, frontier: seq<Pos>, explored: set<Pos>, parent: ParentMap, ghost rank: map<Pos, nat>,
              ghost expanded: seq<Pos>)
    returns (found: Option<Pos>, frontier': seq<Pos>, explored': set<Pos>, parent': ParentMap, ghost rank': map<Pos, nat>,
             ghost expanded': seq<Pos>)
    requires frontier != []
    requires SearchInv(env, parent, rank, frontier, explored, expanded)
    ensures found.None? ==> SearchInv(env, parent', rank', frontier', explored', expanded')
    ensures found.None? ==> explored <= explored' && forall x :: x in explored' ==> Recordable(env, x)
    ensures found.None? && explored' == explored ==> |frontier'| < |frontier|
    ensures var top := frontier[|frontier| - 1];
      && (found.Some? ==> found.value == top && explored' == explored + {top})
      && (top in explored ==> found.None? && frontier' == frontier[..|frontier| - 1] && explored' == explored
                              && parent' == parent && expanded' == expanded)
      && (found.None? && top !in explored ==>
            && frontier' == frontier[..|frontier| - 1] + PushOrder(Successors(env, top), explored + {top})
            && explored' == explored + {top} && expanded' == expanded + [top])
    ensures found.Some? ==>
      && StackInv(env, parent', rank', frontier', explored') && (forall x :: x in explored' <==> x in expanded')
    ensures found.Some? ==>
      && parent' == parent && rank' == rank && Ranked(env, parent, env.start, rank) && found.value in parent
      && IsGoal(env, found.value)
      && expanded' == expanded + [found.value]
      && (forall i :: 0 <= i < |expanded'| - 1 ==> !IsGoal(env, expanded'[i]))
      && (forall i, j :: 0 <= i < j < |expanded'| ==> expanded'[i] != expanded'[j])
  {
    var current := frontier[|frontier| - 1];
    frontier' := frontier[..|frontier| - 1];
    assert frontier == frontier' + [current];
    PopKeepsInv(env, parent, rank, frontier, frontier', current, explored, expanded);
    found, parent', rank', explored', expanded' := None, parent, rank, explored, expanded;
    if current in explored {
    } else if IsGoal(env, current) {
      found, explored', expanded' := Some(current), explored + {current}, expanded + [current];
    } else {
      frontier', explored', parent', rank', expanded' := Expand(env, current, frontier, frontier', explored, parent, rank, expanded);
    }
  }

  /** The facts about the parent map and the expansion order that hold whenever the loop stops. */
  lemma StopFacts(env: Env, parent: ParentMap, rank: map<Pos, nat>, frontier: seq<Pos>, explored: set<Pos>,
                  expanded: seq<Pos>)
    requires StackInv(env, parent, rank, frontier, explored)
    requires forall x :: x in explored <==> x in expanded
    ensures forall x :: x in expanded ==> x in parent
    ensures forall x {:trigger parent[x]} | x in parent && x != env.start :: parent[x].Via? && parent[x].prev in expanded
    ensures parent.Keys <= ReachSet(env, env.start) && |parent| <= |ReachSet(env, env.start)|
  {
    RecordsWithinReach(env, parent, env.start, rank);
  }

  /** An exhausted stack leaves the explored states closed under moves, goal-free and holding the start. */
  lemma ExhaustedUnreachable(env: Env, parent: ParentMap, rank: map<Pos, nat>, explored: set<Pos>, expanded: seq<Pos>)
    requires SearchInv(env, parent, rank, [], explored, expanded)
    ensures GoalUnreachable(env, env.start)
    ensures parent.Keys == explored == ReachSet(env, env.start)
  {
    ClosedGoalFree(env, explored, env.start);
    RecordsReach(env, parent, env.start, rank, explored);
  }

  /** The outer loop, from any state satisfying its invariant until a goal is explored or the stack runs empty. */
  method Explore(env: Env, frontier: seq<Pos>, explored: set<Pos>, p: ParentMap, ghost rank: map<Pos, nat>,
                 ghost expanded: seq<Pos>)
    returns (found: Option<Pos>, frontier': seq<Pos>, explored': set<Pos>, p': ParentMap, ghost rank': map<Pos, nat>,
             ghost expanded': seq<Pos>)
    requires SearchInv(env, p, rank, frontier, explored, expanded)
    ensures StackInv(env, p', rank', frontier', explored') && forall x :: x in explored' <==> x in expanded'
    ensures expanded <= expanded'
    ensures forall i, j :: 0 <= i < j < |expanded'| ==> expanded'[i] != expanded'[j]
    ensures found.Some? ==>
      && IsGoal(env, found.value) && found.value in p'
      && |expanded'| > 0 && expanded'[|expanded'| - 1] == found.value
      && forall i :: 0 <= i < |expanded'| - 1 ==> !IsGoal(env, expanded'[i])
    ensures found.None? ==> SearchInv(env, p', rank', [], explored', expanded')
  {
    frontier', explored', p', rank', expanded' := frontier, explored, p, rank, expanded;
    UniverseMembers(env);
    while frontier' != []
      invariant SearchInv(env, p', rank', frontier', explored', expanded')
      invariant expanded <= expanded'
      decreases Universe(env) - explored', |frontier'|
    {
      found, frontier', explored', p', rank', expanded' := Step(env, frontier', explored', p', rank', expanded');
      if found.Some? {
        return;
      }
    }
    found := None;
  }

  /** The search from any state satisfying the loop invariant, with the result it reports. */
  method Drain(env: Env, frontier: seq<Pos>, explored: set<Pos>, p: ParentMap, ghost rank: map<Pos, nat>,
               ghost expanded: seq<Pos>)
    returns (r: SearchResult, ghost parent: ParentMap, ghost expanded': seq<Pos>)
    requires SearchInv(env, p, rank, frontier, explored, expanded)
    ensures r.nodes == |parent| && env.start in parent && forall x :: x in parent ==> Recordable(env, x)
    ensures r.Found? ==> IsGoal(env, r.goal) && Reaches(env, env.start, r.actions, r.goal)
    ensures r.Found? ==> ReconstructPath(parent, r.goal, env.start) == Some(r.actions)
    ensures r.Found? ==> |expanded'| > 0 && expanded'[|expanded'| - 1] == r.goal
    ensures r.Found? ==> forall i :: 0 <= i < |expanded'| - 1 ==> !IsGoal(env, expanded'[i])
    ensures r.NotFound? ==> GoalUnreachable(env, env.start)
    ensures forall i, j :: 0 <= i < j < |expanded'| ==> expanded'[i] != expanded'[j]
    ensures expanded <= expanded'
    ensures forall x :: x in expanded' ==> x in parent
    ensures forall x {:trigger parent[x]} | x in parent && x != env.start :: parent[x].Via? && parent[x].prev in expanded'
    ensures parent.Keys <= ReachSet(env, env.start) && r.nodes <= |ReachSet(env, env.start)|
    ensures r.NotFound? ==> (forall x :: x in parent <==> x in expanded') && parent.Keys == ReachSet(env, env.start)
  {
    var found, frontier', explored', p';
    ghost var rank';
    found, frontier', explored', p', rank', expanded' := Explore(env, frontier, explored, p, rank, expanded);
    StopFacts(env, p', rank', frontier', explored', expanded');
    parent := p';
    if found.Some? {
      ReconstructReaches(env, p', env.start, rank', found.value);
      r := Found(ReconstructPath(p', found.value, env.start).value, |p'|, found.value);
    } else {
      ExhaustedUnreachable(env, p', rank', explored', expanded');
      r := NotFound(|p'|);
    }
  }

  /**
   `depth_first_search`. The node count is `len(parent)` on every return; a
   found path leads from the start to the first goal explored; each state is
   expanded at most once; an exhausted stack means no goal is reachable.
   */
  method Search(env: Env) returns (r: SearchResult, ghost parent: ParentMap, ghost expanded: seq<Pos>)
    ensures IsGoal(env, env.start) ==> r == Found([], 1, env.start)
    ensures r.nodes == |parent| && env.start in parent && forall x :: x in parent ==> Recordable(env, x)
    ensures r.Found? ==> IsGoal(env, r.goal) && Reaches(env, env.start, r.actions, r.goal)
    ensures r.Found? ==> ReconstructPath(parent, r.goal, env.start) == Some(r.actions)
    ensures r.Found? && !IsGoal(env, env.start) ==> |expanded| > 0 && expanded[|expanded| - 1] == r.goal
    ensures r.Found? && !IsGoal(env, env.start) ==> forall i :: 0 <= i < |expanded| - 1 ==> !IsGoal(env, expanded[i])
    ensures r.NotFound? ==> GoalUnreachable(env, env.start)
    ensures forall i, j :: 0 <= i < j < |expanded| ==> expanded[i] != expanded[j]
    ensures forall x :: x in expanded ==> x in parent
    ensures forall x {:trigger parent[x]} | x in parent && x != env.start :: parent[x].Via? && parent[x].prev in expanded
    ensures parent.Keys <= ReachSet(env, env.start) && r.nodes <= |ReachSet(env, env.start)|
    ensures r.NotFound? ==> (forall x :: x in parent <==> x in expanded) && r.nodes == |ReachSet(env, env.start)|
  {
    var start := env.start;
    var p: ParentMap := map[start := Root];
    var frontier := [start];
    var explored: set<Pos> := {};
    ghost var rank: map<Pos, nat> := map[start := 0];
    parent, expanded := p, [];

    if IsGoal(env, start) {
      RecordsWithinReach(env, p, start, rank);
      r := Found([], |p|, start);
    } else {
      r, parent, expanded := Drain(env, frontier, explored, p, rank, expanded);
    }
  }
}

=== FILE: frontier.dfy ===
/**
 The priority frontier of greedy best-first search and A*: a collection of
 `(priority, insertion#, state)` entries from which the lexicographically
 least `(priority, insertion#)` is popped, as `heapq` does. Insertion numbers
 are unique, so the state is never compared and the pop order does not depend
 on how the heap is laid out. Also the potential that bounds how often A* and
 IDA* can improve a recorded cost.
 */
module Frontier {
  import opened Grid

  datatype Entry = Entry(prio: ExtNat, ins: nat, state: Pos)

  /** `a` sorts strictly before `b` by `(priority, insertion#)`. */
  predicate Before(a: Entry, b: Entry) {
    Below(a.prio, b.prio) || (a.prio == b.prio && a.ins < b.ins)
  }

  /** The states that have an entry. */
  function States(pq: seq<Entry>): set<Pos> {
    set e | e in pq :: e.state
  }

  /** Position of an entry no other entry sorts before. */
  function MinIndex(pq: seq<Entry>): (k: nat)
    requires |pq| > 0
    ensures k < |pq|
    ensures forall j :: 0 <= j < |pq| ==> !Before(pq[j], pq[k])
  {
    if |pq| == 1 then 0
    else
      var k := MinIndex(pq[1..]) + 1;
      assert forall j :: 1 <= j < |pq| ==> pq[j] == pq[1..][j - 1];
      if Before(pq[k], pq[0]) then k else 0
  }

  /** With unique insertion numbers the least entry is unique, so any heap pops the same entry. */
  lemma LeastEntryUnique(pq: seq<Entry>, k1: nat, k2: nat)
    requires forall i, j :: 0 <= i < j < |pq| ==> pq[i].ins != pq[j].ins
    requires k1 < |pq| && k2 < |pq|
    requires forall j :: 0 <= j < |pq| ==> !Before(pq[j], pq[k1])
    requires forall j :: 0 <= j < |pq| ==> !Before(pq[j], pq[k2])
    ensures k1 == k2
  {
    assert !Before(pq[k1], pq[k2]) && !Before(pq[k2], pq[k1]);
    assert pq[k1].ins == pq[k2].ins;
  }

  /** `heappop`: the least entry and the remaining ones. */
  function PopMin(pq: seq<Entry>): (r: (Entry, seq<Entry>))
    requires |pq| > 0
    ensures forall j :: 0 <= j < |pq| ==> !Before(pq[j], r.0)
    ensures r.0 in pq && |r.1| == |pq| - 1
    ensures exists k :: 0 <= k < |pq| && r.0 == pq[k] && r.1 == pq[..k] + pq[k + 1..]
    ensures forall e :: e in r.1 ==> e in pq
    ensures forall e :: e in pq && e != r.0 ==> e in r.1
    ensures States(pq) <= States(r.1) + {r.0.state}
    ensures States(r.1) <= States(pq)
  {
    var k := MinIndex(pq);
    var rest := pq[..k] + pq[k + 1..];
    assert forall j :: 0 <= j < |pq| && j != k ==> pq[j] in rest by {
      forall j | 0 <= j < |pq| && j != k ensures pq[j] in rest {
        if j < k { assert rest[j] == pq[j]; } else { assert rest[j - 1] == pq[j]; }
      }
    }
    (pq[k], rest)
  }

  /**
   The potential of a cost map over an enumeration of every state a search may
   record: the recorded cost of each listed state, or `cap` when it has none.
   */
  ghost function Potential(cells: seq<Pos>, g: map<Pos, nat>, cap: nat): nat
    decreases |cells|
  {
    if cells == [] then 0
    else (if cells[0] in g then g[cells[0]] else cap) + Potential(cells[1..], g, cap)
  }

  /** Lowering one recorded cost (or recording one below `cap`) never raises the potential, and lowers it when the state is listed. */
  lemma {:induction false} PotentialDrops(cells: seq<Pos>, g: map<Pos, nat>, cap: nat, x: Pos, v: nat)
    requires x in g ==> v < g[x]
    requires x !in g ==> v < cap
    ensures Potential(cells, g[x := v], cap) <= Potential(cells, g, cap)
    ensures x in cells ==> Potential(cells, g[x := v], cap) < Potential(cells, g, cap)
    decreases |cells|
  {
    if cells != [] {
      PotentialDrops(cells[1..], g, cap, x, v);
      if x in cells && cells[0] != x {
        assert x in cells[1..];
      }
    }
  }

  /** Every finite set of states can be listed. */
  lemma {:induction false} Enumerate(S: set<Pos>) returns (xs: seq<Pos>)
    ensures forall x :: x in xs <==> x in S
    decreases |S|
  {
    if S == {} {
      xs := [];
    } else {
      var y :| y in S;
      var rest := Enumerate(S - {y});
      xs := [y] + rest;
    }
  }
}

=== FILE: gbfs.dfy ===
/**
 `greedy_best_first_search`: a priority queue ordered by the heuristic alone
 (ties broken by insertion number), a set mirroring the states waiting in it,
 and an explored set. A state is pushed only when it is neither explored nor
 waiting, so its parent link is written once and never replaced. A goal is
 recognised when it is popped.
 */
module GreedyBestFirst {
  import opened Grid
  import opened Paths
  import opened Frontier

  /**
   The queue mirrors the waiting set: one entry per waiting state, keyed by
   its heuristic, with distinct insertion numbers no larger than the counter.
   */
  ghost predicate EntriesInv(env: Env, pq: seq<Entry>, waiting: set<Pos>, ins: nat) {
    && (forall i :: 0 <= i < |pq| ==> pq[i].state in waiting && pq[i].prio == Heuristic(env, pq[i].state) && pq[i].ins <= ins)
    && (forall i, j :: 0 <= i < j < |pq| ==> pq[i].state != pq[j].state && pq[i].ins != pq[j].ins)
    && |pq| == |waiting|
  }

  /** The parent-map facts: ranked links, recorded exactly for the explored and the waiting states. */
  ghost predicate LinkInv(env: Env, parent: ParentMap, rank: map<Pos, nat>, pq: seq<Entry>, waiting: set<Pos>,
                          explored: set<Pos>, ins: nat) {
    && Ranked(env, parent, env.start, rank)
    && parent.Keys == explored + waiting
    && explored !! waiting
    && (forall x :: x in parent ==> Recordable(env, x))
    && EntriesInv(env, pq, waiting, ins)
  }

  /** The outer-loop facts: every open neighbour of an explored state is recorded, and no explored state is a goal. */
  ghost predicate GreedyInv(env: Env, parent: ParentMap, rank: map<Pos, nat>, pq: seq<Entry>, waiting: set<Pos>,
                            explored: set<Pos>, ins: nat) {
    && LinkInv(env, parent, rank, pq, waiting, explored, ins)
    && (forall x, a :: x in explored && Open(env, Move(x, a)) ==> Move(x, a) in parent)
    && (forall x :: x in explored ==> !IsGoal(env, x))
  }

  /** Removing the entry at `k` from the queue removes exactly its state from the waiting set. */
  lemma RemoveKeepsEntries(env: Env, pq: seq<Entry>, waiting: set<Pos>, ins: nat, k: nat)
    requires EntriesInv(env, pq, waiting, ins) && k < |pq|
    ensures pq[k].state in waiting
    ensures EntriesInv(env, pq[..k] + pq[k + 1..], waiting - {pq[k].state}, ins)
  {
    var rest := pq[..k] + pq[k + 1..];
    var w := waiting - {pq[k].state};
    assert |w| == |waiting| - 1;
    forall i | 0 <= i < |rest|
      ensures rest[i].state in w && rest[i].prio == Heuristic(env, rest[i].state) && rest[i].ins <= ins
    {
      var j := if i < k then i else i + 1;
      assert rest[i] == pq[j] && j != k;
    }
    forall i, j | 0 <= i < j < |rest|
      ensures rest[i].state != rest[j].state && rest[i].ins != rest[j].ins
    {
      var i' := if i < k then i else i + 1;
      var j' := if j < k then j else j + 1;
      assert rest[i] == pq[i'] && rest[j] == pq[j'] && i' < j';
    }
  }

  /** Popping the least entry removes exactly its state from the waiting set. */
  lemma PopKeepsEntries(env: Env, pq: seq<Entry>, waiting: set<Pos>, ins: nat)
    requires pq != [] && EntriesInv(env, pq, waiting, ins)
    ensures PopMin(pq).0.state in waiting
    ensures EntriesInv(env, PopMin(pq).1, waiting - {PopMin(pq).0.state}, ins)
  {
    var k :| 0 <= k < |pq| && PopMin(pq).0 == pq[k] && PopMin(pq).1 == pq[..k] + pq[k + 1..];
    RemoveKeepsEntries(env, pq, waiting, ins, k);
  }

  /** Pushing a state that is not waiting, under the next insertion number, keeps the queue mirroring the waiting set. */
  lemma PushKeepsEntries(env: Env, pq: seq<Entry>, waiting: set<Pos>, ins: nat, next: Pos)
    requires EntriesInv(env, pq, waiting, ins) && next !in waiting
    ensures EntriesInv(env, pq + [Entry(Heuristic(env, next), ins + 1, next)], waiting + {next}, ins + 1)
  {
    var pq' := pq + [Entry(Heuristic(env, next), ins + 1, next)];
    assert forall i :: 0 <= i < |pq| ==> pq'[i] == pq[i];
  }

  /** Recording an open neighbour of an explored state that is neither explored nor waiting keeps the parent-map facts. */
  lemma PushKeepsLinks(env: Env, parent: ParentMap, rank: map<Pos, nat>, pq: seq<Entry>, waiting: set<Pos>,
                       explored: set<Pos>, ins: nat, current: Pos, action: Action)
    requires LinkInv(env, parent, rank, pq, waiting, explored, ins)
    requires current in explored && Open(env, Move(current, action))
    requires Move(current, action) !in explored && Move(current, action) !in waiting
    ensures var next := Move(current, action);
      LinkInv(env, parent[next := Via(current, action)], rank[next := rank[current] + 1],
              pq + [Entry(Heuristic(env, next), ins + 1, next)], waiting + {next}, explored, ins + 1)
  {
    RelinkRanked(env, parent, env.start, rank, current, action);
    PushKeepsEntries(env, pq, waiting, ins, Move(current, action));
  }

  /**
   The entries pushed for one expansion: each successor that is not
   `blocked` (neither explored nor waiting), keyed by its heuristic and
   numbered on from `ins` in successor order, the counter being bumped
   before each push.
   */
  function GreedyPushes(env: Env, succs: seq<(Pos, Action)>, blocked: set<Pos>, ins: nat): seq<Entry>
    decreases |succs|
  {
    if succs == [] then []
    else
      var before := GreedyPushes(env, succs[..|succs| - 1], blocked, ins);
      var next := succs[|succs| - 1].0;
      before + (if next !in blocked then [Entry(Heuristic(env, next), ins + |before| + 1, next)] else [])
  }

  /** Entries numbered `ins + 1`, `ins + 2`, ... in order, keyed by their heuristic, for states of `targets` not in `blocked`. */
  ghost predicate Numbered(env: Env, es: seq<Entry>, ins: nat, targets: set<Pos>, blocked: set<Pos>) {
    forall j :: 0 <= j < |es| ==>
      && es[j].ins == ins + j + 1 && es[j].prio == Heuristic(env, es[j].state)
      && es[j].state in targets && es[j].state !in blocked
  }

  /**
   The pushed entries carry the insertion numbers `ins + 1`, `ins + 2`, ... in
   push order, so among equal heuristics the earlier push pops first; each is
   keyed by its heuristic and names a listed successor that was not blocked.
   */
  lemma {:induction false} GreedyPushesShape(env: Env, succs: seq<(Pos, Action)>, blocked: set<Pos>, ins: nat)
    ensures Numbered(env, GreedyPushes(env, succs, blocked, ins), ins, Targets(succs), blocked)
    ensures forall x :: x in Targets(succs) && x !in blocked ==> x in States(GreedyPushes(env, succs, blocked, ins))
    decreases |succs|
  {
    if succs != [] {
      var init := succs[..|succs| - 1];
      GreedyPushesShape(env, init, blocked, ins);
      assert succs[..|succs|] == succs;
      TargetsSplit(succs, |succs| - 1);
      var before := GreedyPushes(env, init, blocked, ins);
      var es := GreedyPushes(env, succs, blocked, ins);
      var last := succs[|succs| - 1].0;
      assert es == before + (if last !in blocked then [Entry(Heuristic(env, last), ins + |before| + 1, last)] else []);
      assert Targets(succs) == Targets(init) + {succs[|succs| - 1].0};
      forall j | 0 <= j < |es|
        ensures es[j].ins == ins + j + 1 && es[j].prio == Heuristic(env, es[j].state)
        ensures es[j].state in Targets(succs) && es[j].state !in blocked
      {
        if j < |before| {
          assert es[j] == before[j];
        } else {
          assert es[j] == Entry(Heuristic(env, succs[|succs| - 1].0), ins + |before| + 1, succs[|succs| - 1].0);
        }
      }
      forall x | x in Targets(succs) && x !in blocked ensures x in States(es) {
        if x in Targets(init) {
          var e :| e in before && e.state == x;
          var j :| 0 <= j < |before| && before[j] == e;
          assert es[j] == e;
        } else {
          assert es[|es| - 1].state == x;
        }
      }
    }
  }

  /** The queue and counter after the first `i` successors are handled: their unblocked entries pushed in order. */
  ghost predicate Queued(env: Env, succs: seq<(Pos, Action)>, i: nat, blocked: set<Pos>, pq: seq<Entry>, ins: nat,
                         pq': seq<Entry>, ins': nat)
    requires i <= |succs|
  {
    && pq' == pq + GreedyPushes(env, succs[..i], blocked, ins)
    && ins' == ins + |GreedyPushes(env, succs[..i], blocked, ins)|
  }

  /** Handling successor `i` extends the queue by its entry exactly when it is not blocked. */
  lemma QueuedStep(env: Env, succs: seq<(Pos, Action)>, i: nat, blocked: set<Pos>, pq: seq<Entry>, ins: nat,
                   q: seq<Entry>, n: nat)
    requires i < |succs| && Queued(env, succs, i, blocked, pq, ins, q, n)
    ensures var next := succs[i].0;
      next !in blocked ==> Queued(env, succs, i + 1, blocked, pq, ins, q + [Entry(Heuristic(env, next), n + 1, next)], n + 1)
    ensures succs[i].0 in blocked ==> Queued(env, succs, i + 1, blocked, pq, ins, q, n)
  {
    assert succs[..i + 1][..i] == succs[..i];
  }

  /** The links after the first `i` successors are handled: each is recorded, new ones point to `current`, old ones are kept. */
  ghost predicate LinkedUpTo(current: Pos, succs: seq<(Pos, Action)>, i: nat, parent: ParentMap, parent': ParentMap) {
    && (forall k :: 0 <= k < i && k < |succs| ==> succs[k].0 in parent')
    && (forall x :: x in parent ==> x in parent' && parent'[x] == parent[x])
    && (forall k :: 0 <= k < i && k < |succs| && succs[k].0 !in parent ==> parent'[succs[k].0] == Via(current, succs[k].1))
  }

  /** Linking a new successor `i`, or passing over a recorded one, extends the link facts by one index. */
  lemma LinkedStep(current: Pos, succs: seq<(Pos, Action)>, i: nat, parent: ParentMap, p: ParentMap)
    requires i < |succs| && LinkedUpTo(current, succs, i, parent, p)
    requires forall a, b :: 0 <= a < b < |succs| ==> succs[a].0 != succs[b].0
    ensures succs[i].0 !in p && succs[i].0 !in parent ==>
      LinkedUpTo(current, succs, i + 1, parent, p[succs[i].0 := Via(current, succs[i].1)])
    ensures succs[i].0 in parent ==> LinkedUpTo(current, succs, i + 1, parent, p)
  {
  }

  /**
   The inner loop's progress once the first `i` successors are handled: the
   unblocked ones are pushed in order, made waiting and linked to `current`,
   and every link recorded before the loop is kept.
   */
  ghost predicate GreedyPushed(current: Pos, succs: seq<(Pos, Action)>, i: nat, env: Env, pq: seq<Entry>,
                               waiting: set<Pos>, explored: set<Pos>, parent: ParentMap, ins: nat,
                               pq': seq<Entry>, waiting': set<Pos>, parent': ParentMap, ins': nat)
    requires i <= |succs|
  {
    && Queued(env, succs, i, explored + waiting, pq, ins, pq', ins')
    && waiting' == waiting + (Targets(succs[..i]) - explored)
    && LinkedUpTo(current, succs, i, parent, parent')
  }

  /** The inner loop's invariant: the parent-map facts and the progress against the reference fold. */
  ghost predicate Pushing(current: Pos, succs: seq<(Pos, Action)>, i: nat, env: Env, pq: seq<Entry>,
                          waiting: set<Pos>, explored: set<Pos>, parent: ParentMap, ins: nat,
                          pq': seq<Entry>, waiting': set<Pos>, parent': ParentMap, ins': nat, rank': map<Pos, nat>)
    requires i <= |succs|
  {
    LinkInv(env, parent', rank', pq', waiting', explored, ins')
    && GreedyPushed(current, succs, i, env, pq, waiting, explored, parent, ins, pq', waiting', parent', ins')
  }

  /** Pushing successor `i`, neither explored nor waiting, extends the inner loop's progress by one index. */
  lemma PushTaken(current: Pos, succs: seq<(Pos, Action)>, i: nat, env: Env, pq: seq<Entry>, waiting: set<Pos>,
                  explored: set<Pos>, parent: ParentMap, ins: nat, q: seq<Entry>, w: set<Pos>, p: ParentMap, n: nat)
    requires i < |succs| && parent.Keys == explored + waiting && p.Keys == explored + w
    requires forall a, b :: 0 <= a < b < |succs| ==> succs[a].0 != succs[b].0
    requires GreedyPushed(current, succs, i, env, pq, waiting, explored, parent, ins, q, w, p, n)
    requires succs[i].0 !in explored && succs[i].0 !in w
    ensures var (next, action) := succs[i];
      GreedyPushed(current, succs, i + 1, env, pq, waiting, explored, parent, ins,
                   q + [Entry(Heuristic(env, next), n + 1, next)], w + {next}, p[next := Via(current, action)], n + 1)
  {
    TargetsSplit(succs, i);
    QueuedStep(env, succs, i, explored + waiting, pq, ins, q, n);
    LinkedStep(current, succs, i, parent, p);
  }

  /** Passing over successor `i`, explored or waiting, extends the inner loop's progress by one index. */
  lemma PushSkipped(current: Pos, succs: seq<(Pos, Action)>, i: nat, env: Env, pq: seq<Entry>, waiting: set<Pos>,
                    explored: set<Pos>, parent: ParentMap, ins: nat, q: seq<Entry>, w: set<Pos>, p: ParentMap, n: nat)
    requires i < |succs| && parent.Keys == explored + waiting
    requires forall a, b :: 0 <= a < b < |succs| ==> succs[a].0 != succs[b].0
    requires GreedyPushed(current, succs, i, env, pq, waiting, explored, parent, ins, q, w, p, n)
    requires succs[i].0 in explored || succs[i].0 in w
    ensures GreedyPushed(current, succs, i + 1, env, pq, waiting, explored, parent, ins, q, w, p, n)
  {
    TargetsSplit(succs, i);
    NotEarlier(succs, i);
    QueuedStep(env, succs, i, explored + waiting, pq, ins, q, n);
    LinkedStep(current, succs, i, parent, p);
  }

  /** Before any successor is handled, nothing has changed. */
  lemma PushedNone(current: Pos, succs: seq<(Pos, Action)>, env: Env, pq: seq<Entry>, waiting: set<Pos>,
                   explored: set<Pos>, parent: ParentMap, ins: nat)
    ensures GreedyPushed(current, succs, 0, env, pq, waiting, explored, parent, ins, pq, waiting, parent, ins)
  {
    assert succs[..0] == [] && Targets([]) == {};
  }

  /** Once every successor is handled, the progress facts speak of the whole list. */
  lemma PushedAll(current: Pos, succs: seq<(Pos, Action)>, env: Env, pq: seq<Entry>, waiting: set<Pos>,
                  explored: set<Pos>, parent: ParentMap, ins: nat, q: seq<Entry>, w: set<Pos>, p: ParentMap, n: nat)
    requires GreedyPushed(current, succs, |succs|, env, pq, waiting, explored, parent, ins, q, w, p, n)
    ensures q == pq + GreedyPushes(env, succs, explored + waiting, ins)
    ensures n == ins + |GreedyPushes(env, succs, explored + waiting, ins)|
    ensures w == waiting + (Targets(succs) - explored)
    ensures forall k :: 0 <= k < |succs| ==> succs[k].0 in p
    ensures forall x :: x in parent ==> x in p && p[x] == parent[x]
    ensures forall k :: 0 <= k < |succs| && succs[k].0 !in parent ==> p[succs[k].0] == Via(current, succs[k].1)
  {
    assert succs[..|succs|] == succs;
  }

  /** One iteration of the inner loop: push successor `i` when it is neither explored nor waiting. */
  method PushOne(env: Env, current: Pos, succs: seq<(Pos, Action)>, i: nat, ghost pq: seq<Entry>, ghost waiting: set<Pos>,
                 explored: set<Pos>, ghost parent: ParentMap, ghost ins: nat,
                 q: seq<Entry>, w: set<Pos>, p: ParentMap, n: nat, ghost rank: map<Pos, nat>)
    returns (q': seq<Entry>, w': set<Pos>, p': ParentMap, n': nat, ghost rank': map<Pos, nat>)
    requires i < |succs| && current in explored && SuccessorList(env, current, succs)
    requires parent.Keys == explored + waiting
    requires Pushing(current, succs, i, env, pq, waiting, explored, parent, ins, q, w, p, n, rank)
    ensures Pushing(current, succs, i + 1, env, pq, waiting, explored, parent, ins, q', w', p', n', rank')
  {
    var (next, action) := succs[i];
    q', w', p', n', rank' := q, w, p, n, rank;
    if next !in explored && next !in w {
      PushKeepsLinks(env, p, rank, q, w, explored, n, current, action);
      PushTaken(current, succs, i, env, pq, waiting, explored, parent, ins, q, w, p, n);
      n' := n + 1;
      q' := q + [Entry(Heuristic(env, next), n', next)];
      p' := p[next := Via(current, action)];
      rank' := rank[next := rank[current] + 1];
      w' := w + {next};
    } else {
      PushSkipped(current, succs, i, env, pq, waiting, explored, parent, ins, q, w, p, n);
    }
  }

  /** The inner loop from successor `i` on, one iteration per call. */
  method PushFrom(env: Env, current: Pos, succs: seq<(Pos, Action)>, i: nat, ghost pq: seq<Entry>, ghost waiting: set<Pos>,
                  explored: set<Pos>, ghost parent: ParentMap, ghost ins: nat,
                  q: seq<Entry>, w: set<Pos>, p: ParentMap, n: nat, ghost rank: map<Pos, nat>)
    returns (q': seq<Entry>, w': set<Pos>, p': ParentMap, n': nat, ghost rank': map<Pos, nat>)
    requires i <= |succs| && current in explored && SuccessorList(env, current, succs)
    requires parent.Keys == explored + waiting
    requires Pushing(current, succs, i, env, pq, waiting, explored, parent, ins, q, w, p, n, rank)
    ensures Pushing(current, succs, |succs|, env, pq, waiting, explored, parent, ins, q', w', p', n', rank')
    decreases |succs| - i
  {
    if i == |succs| {
      q', w', p', n', rank' := q, w, p, n, rank;
    } else {
      q', w', p', n', rank' := PushOne(env, current, succs, i, pq, waiting, explored, parent, ins, q, w, p, n, rank);
      q', w', p', n', rank' := PushFrom(env, current, succs, i + 1, pq, waiting, explored, parent, ins, q', w', p', n', rank');
    }
  }

  /**
   The inner loop over `successors`: push each successor that is neither
   explored nor waiting, keyed by its heuristic under the next insertion
   number, and link it to `current`. Links already recorded are left as they
   are.
   */
  method PushSuccessors(env: Env, current: Pos, succs: seq<(Pos, Action)>, pq: seq<Entry>, waiting: set<Pos>,
                        explored: set<Pos>, parent: ParentMap, ins: nat, ghost rank: map<Pos, nat>)
    returns (pq': seq<Entry>, waiting': set<Pos>, parent': ParentMap, ins': nat, ghost rank': map<Pos, nat>)
    requires current in explored
    requires SuccessorList(env, current, succs)
    requires LinkInv(env, parent, rank, pq, waiting, explored, ins)
    ensures LinkInv(env, parent', rank', pq', waiting', explored, ins')
    ensures pq' == pq + GreedyPushes(env, succs, explored + waiting, ins)
    ensures ins' == ins + |GreedyPushes(env, succs, explored + waiting, ins)|
    ensures waiting' == waiting + (Targets(succs) - explored)
    ensures forall k :: 0 <= k < |succs| ==> succs[k].0 in parent'
    ensures forall x :: x in parent ==> x in parent' && parent'[x] == parent[x]
    ensures forall k :: 0 <= k < |succs| && succs[k].0 !in parent ==> parent'[succs[k].0] == Via(current, succs[k].1)
  {
    PushedNone(current, succs, env, pq, waiting, explored, parent, ins);
    assert Pushing(current, succs, 0, env, pq, waiting, explored, parent, ins, pq, waiting, parent, ins, rank);
    pq', waiting', parent', ins', rank' := PushFrom(env, current, succs, 0, pq, waiting, explored, parent, ins,
                                                   pq, waiting, parent, ins, rank);
    PushedAll(current, succs, env, pq, waiting, explored, parent, ins, pq', waiting', parent', ins');
  }

  /** Expanding a popped non-goal state whose successors are all recorded keeps the outer-loop facts. */
  lemma ExpandKeepsInv(env: Env, current: Pos, succs: seq<(Pos, Action)>, parent: ParentMap,
                       explored: set<Pos>, parent': ParentMap, rank': map<Pos, nat>, pq': seq<Entry>,
                       waiting': set<Pos>, ins': nat)
    requires succs == Successors(env, current) && !IsGoal(env, current)
    requires forall x, a :: x in explored && Open(env, Move(x, a)) ==> Move(x, a) in parent
    requires forall x :: x in explored ==> !IsGoal(env, x)
    requires LinkInv(env, parent', rank', pq', waiting', explored + {current}, ins')
    requires forall k :: 0 <= k < |succs| ==> succs[k].0 in parent'
    requires forall x :: x in parent ==> x in parent'
    ensures GreedyInv(env, parent', rank', pq', waiting', explored + {current}, ins')
  {
    SuccessorsComplete(env, current);
    forall x, a | x in explored + {current} && Open(env, Move(x, a)) ensures Move(x, a) in parent' {
      if x == current {
        var k :| 0 <= k < |succs| && succs[k] == (Move(x, a), a);
      }
    }
  }

  /**
   One round of the outer loop: pop the least entry; mark its state explored;
   report it when it is a goal, otherwise push its new successors. The popped
   state's heuristic is the least among the waiting states, and no recorded
   link changes.
   */
  method Step(env: Env, pq: seq<Entry>, waiting: set<Pos>, explored: set<Pos>, parent: ParentMap, ins: nat,
              ghost rank: map<Pos, nat>)
    returns (found: Option<Pos>, current: Pos, pq': seq<Entry>, waiting': set<Pos>, explored': set<Pos>,
             parent': ParentMap, ins': nat, ghost rank': map<Pos, nat>)
    requires pq != []
    requires GreedyInv(env, parent, rank, pq, waiting, explored, ins)
    ensures current == PopMin(pq).0.state && PopMin(pq).0.ins <= ins
    ensures current in waiting && current !in explored && explored' == explored + {current}
    ensures forall e :: e in pq ==> !Below(e.prio, Heuristic(env, current))
    ensures found.Some? <==> IsGoal(env, current)
    ensures found.Some? ==> pq' == PopMin(pq).1 && waiting' == waiting - {current} && ins' == ins
    ensures found.None? ==>
      var pushed := GreedyPushes(env, Successors(env, current), explored + waiting, ins);
      && pq' == PopMin(pq).1 + pushed && ins' == ins + |pushed|
      && waiting' == (waiting - {current}) + (Targets(Successors(env, current)) - explored')
    ensures forall x :: x in parent ==> x in parent' && parent'[x] == parent[x]
    ensures found.None? ==> GreedyInv(env, parent', rank', pq', waiting', explored', ins')
    ensures found.None? ==> Recordable(env, current)
    ensures found.Some? ==>
      && found.value == current && IsGoal(env, current)
      && parent' == parent && rank' == rank && Ranked(env, parent, env.start, rank) && current in parent
  {
    var (entry, rest) := PopMin(pq);
    current := entry.state;
    PopKeepsEntries(env, pq, waiting, ins);
    found, pq', waiting', explored', parent', ins', rank' := None, rest, waiting, explored, parent, ins, rank;
    if current !in waiting {
      // the queue holds exactly the waiting states, so a stale entry never surfaces
      assert false;
    } else {
      waiting' := waiting - {current};
      if current in explored {
        // a waiting state is never explored
        assert false;
      } else {
        explored' := explored + {current};
        if IsGoal(env, current) {
          found := Some(current);
        } else {
          var succs := Successors(env, current);
          SuccessorsListed(env, current);
          assert explored' + waiting' == explored + waiting;
          pq', waiting', parent', ins', rank' := PushSuccessors(env, current, succs, rest, waiting', explored', parent, ins, rank);
          ExpandKeepsInv(env, current, succs, parent, explored, parent', rank', pq', waiting', ins');
        }
      }
    }
  }

  /** An exhausted queue leaves the explored states closed under moves, goal-free and holding the start. */
  lemma ExhaustedUnreachable(env: Env, parent: ParentMap, rank: map<Pos, nat>, waiting: set<Pos>,
                             explored: set<Pos>, ins: nat)
    requires GreedyInv(env, parent, rank, [], waiting, explored, ins)
    ensures GoalUnreachable(env, env.start)
    ensures parent.Keys == ReachSet(env, env.start)
  {
    assert waiting == {};
    ClosedGoalFree(env, explored, env.start);
    RecordsReach(env, parent, env.start, rank, explored);
  }

  /** The outer loop, from any state satisfying its invariant until a goal is popped or the queue runs empty. */
  method Drain(env: Env, pq: seq<Entry>, waiting: set<Pos>, explored: set<Pos>, p: ParentMap, ins: nat,
               ghost rank: map<Pos, nat>)
    returns (r: SearchResult, ghost parent: ParentMap)
    requires GreedyInv(env, p, rank, pq, waiting, explored, ins)
    ensures r.nodes == |parent| && env.start in parent && forall x :: x in parent ==> Recordable(env, x)
    ensures forall x :: x in p ==> x in parent && parent[x] == p[x]
    ensures r.Found? ==> IsGoal(env, r.goal) && Reaches(env, env.start, r.actions, r.goal)
    ensures r.Found? ==> ReconstructPath(parent, r.goal, env.start) == Some(r.actions)
    ensures r.NotFound? ==> GoalUnreachable(env, env.start) && parent.Keys == ReachSet(env, env.start)
    ensures parent.Keys <= ReachSet(env, env.start) && r.nodes <= |ReachSet(env, env.start)|
  {
    var pq, waiting, explored, q, ins, rank := pq, waiting, explored, p, ins, rank;
    UniverseMembers(env);
    while pq != []
      invariant GreedyInv(env, q, rank, pq, waiting, explored, ins)
      invariant forall x :: x in p ==> x in q && q[x] == p[x]
      decreases Universe(env) - explored
    {
      var found, current;
      found, current, pq, waiting, explored, q, ins, rank := Step(env, pq, waiting, explored, q, ins, rank);
      if found.Some? {
        ReconstructReaches(env, q, env.start, rank, current);
        RecordsWithinReach(env, q, env.start, rank);
        var actions := ReconstructPath(q, current, env.start).value;
        r, parent := Found(actions, |q|, current), q;
        return;
      }
    }
    ExhaustedUnreachable(env, q, rank, waiting, explored, ins);
    RecordsWithinReach(env, q, env.start, rank);
    r, parent := NotFound(|q|), q;
  }

  /**
   `greedy_best_first_search`. The node count is `len(parent)` on every
   return; a found path leads from the start to the first goal popped; an
   exhausted queue means no goal is reachable.
   */
  method Search(env: Env) returns (r: SearchResult, ghost parent: ParentMap)
    ensures IsGoal(env, env.start) ==> r == Found([], 1, env.start)
    ensures r.nodes == |parent| && env.start in parent && forall x :: x in parent ==> Recordable(env, x)
    ensures parent[env.start] == Root
    ensures r.Found? ==> IsGoal(env, r.goal) && Reaches(env, env.start, r.actions, r.goal)
    ensures r.Found? ==> ReconstructPath(parent, r.goal, env.start) == Some(r.actions)
    ensures r.NotFound? ==> GoalUnreachable(env, env.start)
    ensures parent.Keys <= ReachSet(env, env.start) && r.nodes <= |ReachSet(env, env.start)|
    ensures r.NotFound? ==> parent.Keys == ReachSet(env, env.start) && r.nodes == |ReachSet(env, env.start)|
  {
    var start := env.start;
    var p: ParentMap := map[start := Root];
    var insertions := 0;
    var pq := [Entry(Heuristic(env, start), insertions, start)];
    var waiting := {start};
    var explored: set<Pos> := {};
    insertions := insertions + 1;
    ghost var rank: map<Pos, nat> := map[start := 0];
    parent := p;
    if IsGoal(env, start) {
      RecordsWithinReach(env, p, start, rank);
      r := Found([], |p|, start);
    } else {
      r, parent := Drain(env, pq, waiting, explored, p, insertions, rank);
    }
  }
}

=== FILE: grid.dfy ===
/**
 The grid-query layer of the robot-navigation search: cells, moves, the
 environment record (rows, cols, start, goal set, wall set) and the pure
 queries the search strategies consume — bounds, walls, goals, successor
 generation in the fixed order UP, LEFT, DOWN, RIGHT, Manhattan distance,
 the min-of-Manhattan heuristic and the expansion of wall rectangles.
 */
module Grid {

  /** A grid cell, written (column, row) as in the map file. */
  datatype Pos = Pos(col: int, row: int)

  /** The label of a unit move. */
  datatype Action = Up | Left | Down | Right

  /** A natural number or +infinity; stands for the source's `float('inf')`. */
  datatype ExtNat = Fin(n: nat) | Inf

  /** Strict order on extended naturals, as Python compares ints with inf. */
  predicate Below(a: ExtNat, b: ExtNat) {
    a.Fin? && (b.Inf? || a.n < b.n)
  }

  /** `g + h` where `h` may be infinite. */
  function Plus(g: nat, h: ExtNat): ExtNat {
    match h
    case Fin(n) => Fin(g + n)
    case Inf => Inf
  }

  /** Python's `min` on two extended naturals. */
  function MinExt(a: ExtNat, b: ExtNat): (m: ExtNat)
    ensures m == a || m == b
    ensures !Below(a, m) && !Below(b, m)
  {
    if Below(b, a) then b else a
  }

  /** A wall line `(x, y, w, h)`: left column, top row, width, height. */
  datatype Rect = Rect(col: int, row: int, width: int, height: int)

  /** The environment record: dimensions, start, goal set and wall set. */
  datatype Env = Env(rows: int, cols: int, start: Pos, goal: set<Pos>, walls: set<Pos>)

  predicate InBounds(env: Env, s: Pos) {
    0 <= s.col < env.cols && 0 <= s.row < env.rows
  }

  predicate IsWall(env: Env, s: Pos) {
    s in env.walls
  }

  predicate IsGoal(env: Env, s: Pos) {
    s in env.goal
  }

  /** A cell a move may enter: inside the grid and not a wall. */
  predicate Open(env: Env, s: Pos) {
    InBounds(env, s) && !IsWall(env, s)
  }

  /** Unit displacement: UP decrements the row, LEFT the column, DOWN and RIGHT increment them. */
  function Move(s: Pos, a: Action): Pos {
    match a
    case Up => Pos(s.col, s.row - 1)
    case Left => Pos(s.col - 1, s.row)
    case Down => Pos(s.col, s.row + 1)
    case Right => Pos(s.col + 1, s.row)
  }

  /** Position of an action in the successor order UP, LEFT, DOWN, RIGHT. */
  function Rank(a: Action): nat {
    match a
    case Up => 0
    case Left => 1
    case Down => 2
    case Right => 3
  }

  /** The move list the successor generator walks through. */
  const MoveOrder: seq<Action> := [Up, Left, Down, Right]

  /** The in-bounds cells of the grid. */
  function Cells(env: Env): set<Pos> {
    set c: int, r: int | 0 <= c < env.cols && 0 <= r < env.rows :: Pos(c, r)
  }

  /** Every state a search can ever record: the grid cells and the start (which may lie outside). */
  function Universe(env: Env): set<Pos> {
    Cells(env) + {env.start}
  }

  /** A state a search may record: a grid cell, or the start. */
  predicate Recordable(env: Env, s: Pos) {
    InBounds(env, s) || s == env.start
  }

  /** A subset has no more elements than its superset. */
  lemma {:induction false} SubsetCard<T>(a: set<T>, b: set<T>)
    requires a <= b
    ensures |a| <= |b|
    decreases a
  {
    if a != {} {
      var x :| x in a;
      SubsetCard(a - {x}, b - {x});
    }
  }

  lemma UniverseMembers(env: Env)
    ensures forall s :: s in Universe(env) <==> Recordable(env, s)
  {
    forall s | Recordable(env, s) ensures s in Universe(env) {
      InBoundsIffCell(env, s);
    }
  }

  lemma InBoundsIffCell(env: Env, s: Pos)
    ensures InBounds(env, s) <==> s in Cells(env)
  {
    if InBounds(env, s) {
      assert s == Pos(s.col, s.row);
    }
  }

  /** Filters `acts` to the moves from `s` that enter an open cell, keeping their order. */
  function KeepOpen(env: Env, s: Pos, acts: seq<Action>): seq<(Pos, Action)> {
    if acts == [] then []
    else
      var rest := KeepOpen(env, s, acts[1..]);
      if Open(env, Move(s, acts[0])) then [(Move(s, acts[0]), acts[0])] + rest else rest
  }

  /** The filter keeps exactly the listed moves into open cells, each paired with the cell it reaches. */
  lemma {:induction false} KeepOpenSpec(env: Env, s: Pos, acts: seq<Action>)
    ensures var r := KeepOpen(env, s, acts);
      && |r| <= |acts|
      && (forall i :: 0 <= i < |r| ==> r[i].1 in acts && r[i].0 == Move(s, r[i].1) && Open(env, r[i].0))
      && (forall a :: a in acts ==> (Open(env, Move(s, a)) <==> (Move(s, a), a) in r))
    decreases |acts|
  {
    if acts != [] {
      KeepOpenSpec(env, s, acts[1..]);
      var rest := KeepOpen(env, s, acts[1..]);
      var r := KeepOpen(env, s, acts);
      forall i | 0 <= i < |r| ensures r[i].1 in acts {
        if r != rest && i > 0 {
          assert r[i] == rest[i - 1];
        } else if r == rest {
          assert r[i].1 in acts[1..];
        }
      }
      forall a | a in acts ensures Open(env, Move(s, a)) <==> (Move(s, a), a) in r {
        if a != acts[0] {
          assert a in acts[1..];
        }
      }
    }
  }

  /** The filter keeps a strictly rank-ordered action list strictly rank-ordered. */
  lemma {:induction false} KeepOpenOrdered(env: Env, s: Pos, acts: seq<Action>)
    requires forall i, j :: 0 <= i < j < |acts| ==> Rank(acts[i]) < Rank(acts[j])
    ensures var r := KeepOpen(env, s, acts);
      forall i, j :: 0 <= i < j < |r| ==> Rank(r[i].1) < Rank(r[j].1)
    decreases |acts|
  {
    if acts != [] {
      var rest := KeepOpen(env, s, acts[1..]);
      KeepOpenOrdered(env, s, acts[1..]);
      KeepOpenSpec(env, s, acts[1..]);
      RankPrecedes(acts, rest);
    }
  }

  /** The head of a strictly rank-ordered action list precedes every action drawn from its tail. */
  lemma RankPrecedes(acts: seq<Action>, rest: seq<(Pos, Action)>)
    requires |acts| > 0
    requires forall i, j :: 0 <= i < j < |acts| ==> Rank(acts[i]) < Rank(acts[j])
    requires forall k :: 0 <= k < |rest| ==> rest[k].1 in acts[1..]
    ensures forall k :: 0 <= k < |rest| ==> Rank(acts[0]) < Rank(rest[k].1)
  {
    forall k | 0 <= k < |rest|
      ensures Rank(acts[0]) < Rank(rest[k].1)
    {
      var m :| 0 <= m < |acts[1..]| && acts[1..][m] == rest[k].1;
      assert acts[m + 1] == rest[k].1;
    }
  }

  lemma MoveOrderComplete()
    ensures forall a: Action :: a in MoveOrder
  {
    forall a: Action ensures a in MoveOrder {
      match a
      case Up => assert MoveOrder[0] == a;
      case Left => assert MoveOrder[1] == a;
      case Down => assert MoveOrder[2] == a;
      case Right => assert MoveOrder[3] == a;
    }
  }

  /**
   The valid successors of a cell with the action reaching each: at most four,
   in UP, LEFT, DOWN, RIGHT order, each one unit move away, in bounds and not
   a wall.
   */
  function Successors(env: Env, s: Pos): (r: seq<(Pos, Action)>)
    ensures |r| <= 4
    ensures forall i :: 0 <= i < |r| ==> r[i].0 == Move(s, r[i].1) && Open(env, r[i].0)
    ensures forall i, j :: 0 <= i < j < |r| ==> Rank(r[i].1) < Rank(r[j].1)
  {
    KeepOpenSpec(env, s, MoveOrder);
    KeepOpenOrdered(env, s, MoveOrder);
    KeepOpen(env, s, MoveOrder)
  }

  /** No open neighbour is dropped: every move into an open cell appears among the successors, and only those. */
  lemma SuccessorsComplete(env: Env, s: Pos)
    ensures forall a: Action :: Open(env, Move(s, a)) <==> (Move(s, a), a) in Successors(env, s)
  {
    MoveOrderComplete();
    KeepOpenSpec(env, s, MoveOrder);
  }

  /** Distinct actions lead to distinct cells. */
  lemma MoveInjective(s: Pos, a: Action, b: Action)
    ensures Move(s, a) == Move(s, b) ==> a == b
  {
  }

  /** Every move leaves the cell it starts from. */
  lemma MoveChanges(s: Pos, a: Action)
    ensures Move(s, a) != s
  {
  }

  /** Successor states are pairwise distinct, since distinct actions move to distinct cells. */
  lemma SuccessorsDistinct(env: Env, s: Pos)
    ensures var r := Successors(env, s);
      forall i, j :: 0 <= i < j < |r| ==> r[i].0 != r[j].0
  {
    var r := Successors(env, s);
    forall i, j | 0 <= i < j < |r|
      ensures r[i].0 != r[j].0
    {
      MoveInjective(s, r[i].1, r[j].1);
    }
  }

  function Abs(x: int): nat {
    if x < 0 then -x else x
  }

  function Manhattan(a: Pos, b: Pos): nat {
    Abs(a.col - b.col) + Abs(a.row - b.row)
  }

  /** Manhattan distance is symmetric, zero exactly on equal cells, and a unit move changes it by exactly one. */
  lemma ManhattanMetric(a: Pos, b: Pos, m: Action)
    ensures Manhattan(a, b) == Manhattan(b, a)
    ensures Manhattan(a, b) == 0 <==> a == b
    ensures Manhattan(Move(a, m), b) == Manhattan(a, b) + 1 || Manhattan(Move(a, m), b) + 1 == Manhattan(a, b)
  {
  }

  /** The distances from `s` to each goal. */
  function Distances(s: Pos, goals: set<Pos>): set<nat> {
    set g | g in goals :: Manhattan(s, g)
  }

  predicate IsLeast(m: nat, xs: set<nat>) {
    m in xs && forall x | x in xs :: m <= x
  }

  lemma {:induction false} MinExists(xs: set<nat>)
    requires xs != {}
    ensures exists m :: IsLeast(m, xs)
    decreases |xs|
  {
    var y :| y in xs;
    var rest := xs - {y};
    if rest == {} {
      forall x | x in xs ensures y <= x {
        assert x !in rest;
      }
      assert IsLeast(y, xs);
    } else {
      MinExists(rest);
      var m :| IsLeast(m, rest);
      var least := if y < m then y else m;
      forall x | x in xs ensures least <= x {
        if x != y { assert x in rest; }
      }
      assert IsLeast(least, xs);
    }
  }

  lemma DistancesNonEmpty(s: Pos, goals: set<Pos>)
    requires goals != {}
    ensures Distances(s, goals) != {}
  {
    var g :| g in goals;
    assert Manhattan(s, g) in Distances(s, goals);
  }

  /** The least element of a non-empty finite set of naturals. */
  function MinOf(xs: set<nat>): nat
    requires xs != {}
  {
    MinExists(xs);
    var m :| IsLeast(m, xs);
    m
  }

  /** The least distance from `s` to a goal (the loop in the heuristic keeps a running minimum). */
  function MinDistance(s: Pos, goals: set<Pos>): nat
    requires goals != {}
  {
    DistancesNonEmpty(s, goals);
    MinOf(Distances(s, goals))
  }

  /** The heuristic: minimum Manhattan distance to any goal, or infinity with no goals. */
  function Heuristic(env: Env, s: Pos): ExtNat {
    if env.goal == {} then Inf else Fin(MinDistance(s, env.goal))
  }

  /** The heuristic is infinite exactly without goals, and otherwise a distance to some goal that no goal undercuts. */
  lemma HeuristicIsMinimum(env: Env, s: Pos)
    ensures Heuristic(env, s).Inf? <==> env.goal == {}
    ensures Heuristic(env, s).Fin? ==>
      (exists g :: g in env.goal && Manhattan(s, g) == Heuristic(env, s).n) &&
      (forall g | g in env.goal :: Heuristic(env, s).n <= Manhattan(s, g))
  {
    if env.goal != {} {
      var m := Heuristic(env, s).n;
      assert m in Distances(s, env.goal);
      forall g | g in env.goal ensures m <= Manhattan(s, g) {
        assert Manhattan(s, g) in Distances(s, env.goal);
      }
    }
  }

  /** The heuristic is zero exactly on goal cells. */
  lemma HeuristicZeroIffGoal(env: Env, s: Pos)
    ensures Heuristic(env, s) == Fin(0) <==> IsGoal(env, s)
  {
    HeuristicIsMinimum(env, s);
    if IsGoal(env, s) {
      assert Manhattan(s, s) == 0;
    }
    if Heuristic(env, s) == Fin(0) {
      var g :| g in env.goal && Manhattan(s, g) == 0;
      ManhattanMetric(s, g, Up);
    }
  }

  /** Consistency: the heuristic changes by at most one along any unit move. */
  lemma HeuristicConsistent(env: Env, s: Pos, a: Action)
    ensures Heuristic(env, s).Inf? <==> Heuristic(env, Move(s, a)).Inf?
    ensures Heuristic(env, s).Fin? ==>
      Heuristic(env, Move(s, a)).n <= Heuristic(env, s).n + 1 &&
      Heuristic(env, s).n <= Heuristic(env, Move(s, a)).n + 1
  {
    var t := Move(s, a);
    HeuristicIsMinimum(env, s);
    HeuristicIsMinimum(env, t);
    if env.goal != {} {
      var gs :| gs in env.goal && Manhattan(s, gs) == Heuristic(env, s).n;
      var gt :| gt in env.goal && Manhattan(t, gt) == Heuristic(env, t).n;
      ManhattanMetric(s, gs, a);
      ManhattanMetric(s, gt, a);
    }
  }

  /**
   Goal membership and the heuristic read only the current goal set: replacing
   it retargets both, and leaves the grid (bounds, walls, successors) alone.
   */
  lemma RetargetGoals(env: Env, goals: set<Pos>, s: Pos)
    ensures IsGoal(env.(goal := goals), s) <==> s in goals
    ensures Heuristic(env.(goal := goals), s).Inf? <==> goals == {}
    ensures Heuristic(env.(goal := goals), s) == Fin(0) <==> s in goals
    ensures Open(env.(goal := goals), s) <==> Open(env, s)
  {
    HeuristicIsMinimum(env.(goal := goals), s);
    HeuristicZeroIffGoal(env.(goal := goals), s);
  }

  /** The cells a wall rectangle covers. */
  function RectCells(r: Rect): set<Pos> {
    set c: int, w: int | r.col <= c < r.col + r.width && r.row <= w < r.row + r.height :: Pos(c, w)
  }

  lemma RectMembers(r: Rect)
    ensures forall p: Pos :: p in RectCells(r) <==> r.col <= p.col < r.col + r.width && r.row <= p.row < r.row + r.height
  {
    forall p: Pos | r.col <= p.col < r.col + r.width && r.row <= p.row < r.row + r.height
      ensures p in RectCells(r)
    {
      assert p == Pos(p.col, p.row);
    }
  }

  /** The inner loop over column offsets: one row of a wall rectangle. */
  method AddWallRow(walls: set<Pos>, col: int, row: int, width: int) returns (result: set<Pos>)
    ensures forall p :: p in result <==> p in walls || (p.row == row && col <= p.col < col + width)
  {
    result := walls;
    var dc := 0;
    while dc < width
      invariant 0 <= dc && (dc <= width || dc == 0)
      invariant forall p :: p in result <==> p in walls || (p.row == row && col <= p.col < col + dc)
    {
      result := result + {Pos(col + dc, row)};
      dc := dc + 1;
    }
  }

  /** One wall line: the nested loops over row and column offsets add exactly the rectangle's cells. */
  method AddWallRect(walls: set<Pos>, rect: Rect) returns (result: set<Pos>)
    ensures result == walls + RectCells(rect)
    ensures forall p :: p in result <==> p in walls || (rect.col <= p.col < rect.col + rect.width && rect.row <= p.row < rect.row + rect.height)
  {
    result := walls;
    var dr := 0;
    while dr < rect.height
      invariant 0 <= dr && (dr <= rect.height || dr == 0)
      invariant forall p :: p in result <==> p in walls || (rect.col <= p.col < rect.col + rect.width && rect.row <= p.row < rect.row + dr)
    {
      result := AddWallRow(result, rect.col, rect.row + dr, rect.width);
      dr := dr + 1;
    }
    RectMembers(rect);
  }

  /** The wall lines of a map file: the wall set starts empty and only grows, ending as the union of the rectangles. */
  method BuildWalls(rects: seq<Rect>) returns (walls: set<Pos>)
    ensures forall p :: p in walls <==> exists i :: 0 <= i < |rects| && p in RectCells(rects[i])
  {
    walls := {};
    var i := 0;
    while i < |rects|
      invariant 0 <= i <= |rects|
      invariant forall p :: p in walls <==> exists k :: 0 <= k < i && p in RectCells(rects[k])
    {
      var next := AddWallRect(walls, rects[i]);
      assert walls <= next;
      walls := next;
      i := i + 1;
    }
  }
}

=== FILE: idastar.dfy ===
/**
 `ida_star_search`: rounds of depth-first search bounded by an f-cost
 threshold, starting from the start's heuristic. A round keeps a stack of
 `(state, cost)` pairs, a cost map and a parent map, and no explored set: a
 popped state is reported when it is a goal; otherwise each successor, in
 reverse UP, LEFT, DOWN, RIGHT order, is pruned when `cost + 1 + h` exceeds
 the threshold (lowering the next threshold to it), and pushed and relinked
 when it is unrecorded or the new cost undercuts its recorded one. A round
 that prunes nothing ends the search; otherwise the next round uses the
 smallest pruned f-cost. A found goal reports the node count of its own
 round; a failure reports the sum over all rounds.
 */
module IdaStar {
  import opened Grid
  import opened Paths
  import opened Frontier
  import AStar

  /**
   A bound above every f-cost a round can prune: a popped cost stays below
   the number of recordable states and the heuristic grows by at most one
   per move.
   */
  ghost function Ceiling(env: Env): nat {
    if env.goal == {} then 0 else 2 * |Universe(env)| + Heuristic(env, env.start).n + 2
  }

  /**
   A stack entry: its state is recorded at no higher cost, its cost is below
   the number of recorded states, and (with goals) its heuristic exceeds the
   start's by at most its cost.
   */
  ghost predicate EntryOk(env: Env, g: map<Pos, nat>, e: Item) {
    && e.0 in g && g[e.0] <= e.1 && e.1 < |g.Keys|
    && (env.goal != {} ==> Heuristic(env, e.0).n <= Heuristic(env, env.start).n + e.1)
  }

  ghost predicate Entries(env: Env, g: map<Pos, nat>, frontier: seq<Item>) {
    forall i :: 0 <= i < |frontier| ==> EntryOk(env, g, frontier[i])
  }

  /** Every recorded cost is below the number of recorded states. */
  ghost predicate CostsBelow(g: map<Pos, nat>) {
    forall x :: x in g ==> g[x] < |g.Keys|
  }

  /** The smallest pruned f-cost so far: none, or one above the threshold and below the ceiling. */
  ghost predicate Cap(env: Env, threshold: ExtNat, m: ExtNat) {
    m.Inf? || (Below(threshold, m) && m.n < Ceiling(env))
  }

  /** Every recorded state was expanded or is on the stack. */
  ghost predicate Covered(g: map<Pos, nat>, expanded: set<Pos>, frontier: seq<Item>) {
    forall x :: x in g ==> x in expanded || x in Tops(frontier)
  }

  /** While nothing was pruned, every open neighbour of an expanded state is recorded. */
  ghost predicate ClosedUnlessPruned(env: Env, g: map<Pos, nat>, expanded: set<Pos>, m: ExtNat) {
    m.Inf? ==> forall x, a :: x in expanded && Open(env, Move(x, a)) ==> Move(x, a) in g
  }

  /** `g'` keeps every state recorded in `g`, at no higher cost. */
  ghost predicate Lowered(g: map<Pos, nat>, g': map<Pos, nat>) {
    forall x :: x in g ==> x in g' && g'[x] <= g[x]
  }

  /**
   The facts one round keeps: the cost facts shared with A*, the stack
   entries, the cost bound, the pruning cap, every recorded state expanded
   or stacked, closure while nothing was pruned, and no expanded goal.
   */
  ghost predicate RoundInv(env: Env, threshold: ExtNat, parent: ParentMap, g: map<Pos, nat>, nodes: nat,
                           frontier: seq<Item>, minNext: ExtNat, expanded: set<Pos>) {
    && AStar.CostInv(env, parent, g, nodes)
    && Entries(env, g, frontier) && CostsBelow(g) && Cap(env, threshold, minNext)
    && Covered(g, expanded, frontier) && expanded <= g.Keys
    && ClosedUnlessPruned(env, g, expanded, minNext)
    && (forall x :: x in expanded ==> !IsGoal(env, x))
  }

  /** A pruned f-cost lies below the ceiling. */
  lemma PruneBound(env: Env, g: map<Pos, nat>, current: Pos, gx: nat, action: Action, f: ExtNat)
    requires env.goal != {} && EntryOk(env, g, (current, gx))
    requires forall x :: x in g ==> Recordable(env, x)
    requires f == Plus(gx + 1, Heuristic(env, Move(current, action)))
    ensures f.Fin? && f.n < Ceiling(env)
  {
    HeuristicConsistent(env, current, action);
    UniverseMembers(env);
    SubsetCard(g.Keys, Universe(env));
  }

  /** Recording a cost adds the state to the recorded ones, and counts one more exactly when it was unrecorded. */
  lemma RecordKeys(g: map<Pos, nat>, x: Pos, v: nat)
    ensures g[x := v].Keys == g.Keys + {x}
    ensures |g[x := v].Keys| == if x in g then |g.Keys| else |g.Keys| + 1
  {
    if x in g {
      assert g.Keys + {x} == g.Keys;
    }
  }

  /** Lowering costs without dropping states keeps every stack entry valid. */
  lemma LowerKeepsEntries(env: Env, g: map<Pos, nat>, g': map<Pos, nat>, frontier: seq<Item>)
    requires Entries(env, g, frontier) && Lowered(g, g') && |g.Keys| <= |g'.Keys|
    ensures Entries(env, g', frontier)
  {
  }

  /**
   Recording `next` at cost `gx + 1`, one move from a popped entry, when it
   was unrecorded or dearer: the costs only drop, stay below the number of
   recorded states, and the entry pushed for `next` is valid.
   */
  lemma PushKeeps(env: Env, g: map<Pos, nat>, current: Pos, gx: nat, action: Action, next: Pos, temp: nat)
    requires EntryOk(env, g, (current, gx)) && CostsBelow(g)
    requires next == Move(current, action) && temp == gx + 1 && (next in g ==> temp < g[next])
    ensures Lowered(g, g[next := temp]) && |g.Keys| <= |g[next := temp].Keys|
    ensures CostsBelow(g[next := temp])
    ensures EntryOk(env, g[next := temp], (next, temp))
  {
    RecordKeys(g, next, temp);
    HeuristicConsistent(env, current, action);
  }

  /** Pushing a valid entry for the one newly recorded state keeps every stack entry valid and every recorded state covered. */
  lemma PushKeepsStack(env: Env, g: map<Pos, nat>, g': map<Pos, nat>, expanded: set<Pos>, frontier: seq<Item>, e: Item)
    requires Entries(env, g', frontier) && EntryOk(env, g', e)
    requires Covered(g, expanded, frontier) && g'.Keys == g.Keys + {e.0}
    ensures Entries(env, g', frontier + [e]) && Covered(g', expanded, frontier + [e])
  {
    TopsPush(frontier, e);
    var f := frontier + [e];
    assert forall i :: 0 <= i < |frontier| ==> f[i] == frontier[i];
  }

  /**
   The facts the successor loop keeps about the current maps and stack: the
   cost facts, every stack entry and the popped one valid, the cost bound,
   and every recorded state expanded or stacked.
   */
  ghost predicate Shape(env: Env, current: Pos, gx: nat, expanded: set<Pos>, parent: ParentMap, g: map<Pos, nat>,
                        nodes: nat, frontier: seq<Item>) {
    && AStar.CostInv(env, parent, g, nodes)
    && Entries(env, g, frontier) && EntryOk(env, g, (current, gx)) && CostsBelow(g)
    && Covered(g, expanded, frontier)
  }

  /**
   The successor loop's progress since it began with `g0`, `frontier0` and
   `minNext0`: costs only lowered, a pruned cost never forgotten, a push only
   with a better cost map, and each of `succs[i..]` pruned or recorded.
   */
  ghost predicate Progress(cells: seq<Pos>, succs: seq<(Pos, Action)>, i: nat, g0: map<Pos, nat>, frontier0: seq<Item>,
                           minNext0: ExtNat, g: map<Pos, nat>, frontier: seq<Item>, minNext: ExtNat) {
    && i <= |succs|
    && Lowered(g0, g) && |g0.Keys| <= |g.Keys|
    && (minNext.Inf? ==> minNext0.Inf?)
    && (g == g0 ==> frontier == frontier0)
    && (g == g0 || AStar.Better(cells, g0, g))
    && (forall k :: i <= k < |succs| ==> minNext.Fin? || succs[k].0 in g)
  }

  /** The facts the successor loop of one expansion keeps after handling `succs[i..]`. */
  ghost predicate RelaxInv(env: Env, threshold: ExtNat, cells: seq<Pos>, current: Pos, gx: nat,
                           succs: seq<(Pos, Action)>, i: nat, g0: map<Pos, nat>, frontier0: seq<Item>,
                           minNext0: ExtNat, expanded: set<Pos>, parent: ParentMap, g: map<Pos, nat>, nodes: nat,
                           frontier: seq<Item>, minNext: ExtNat) {
    && Shape(env, current, gx, expanded, parent, g, nodes, frontier)
    && Cap(env, threshold, minNext)
    && Progress(cells, succs, i, g0, frontier0, minNext0, g, frontier, minNext)
  }

  /** Pruning `succs[i - 1]` at f-cost `f` keeps the successor-loop facts, with `f` folded into the next threshold. */
  lemma PruneRound(env: Env, threshold: ExtNat, cells: seq<Pos>, current: Pos, gx: nat, succs: seq<(Pos, Action)>,
                   i: nat, g0: map<Pos, nat>, frontier0: seq<Item>, minNext0: ExtNat, expanded: set<Pos>,
                   parent: ParentMap, g: map<Pos, nat>, nodes: nat, frontier: seq<Item>, minNext: ExtNat,
                   action: Action, f: ExtNat)
    requires threshold.Inf? <==> env.goal == {}
    requires 0 < i && RelaxInv(env, threshold, cells, current, gx, succs, i, g0, frontier0, minNext0, expanded,
                               parent, g, nodes, frontier, minNext)
    requires f == Plus(gx + 1, Heuristic(env, Move(current, action))) && Below(threshold, f)
    ensures RelaxInv(env, threshold, cells, current, gx, succs, i - 1, g0, frontier0, minNext0, expanded,
                     parent, g, nodes, frontier, MinExt(minNext, f))
  {
    PruneBound(env, g, current, gx, action, f);
  }

  /** Skipping a recorded `succs[i - 1]` keeps the successor-loop facts. */
  lemma SkipRound(env: Env, threshold: ExtNat, cells: seq<Pos>, current: Pos, gx: nat, succs: seq<(Pos, Action)>,
                  i: nat, g0: map<Pos, nat>, frontier0: seq<Item>, minNext0: ExtNat, expanded: set<Pos>,
                  parent: ParentMap, g: map<Pos, nat>, nodes: nat, frontier: seq<Item>, minNext: ExtNat)
    requires 0 < i && RelaxInv(env, threshold, cells, current, gx, succs, i, g0, frontier0, minNext0, expanded,
                               parent, g, nodes, frontier, minNext)
    requires succs[i - 1].0 in g
    ensures RelaxInv(env, threshold, cells, current, gx, succs, i - 1, g0, frontier0, minNext0, expanded,
                     parent, g, nodes, frontier, minNext)
  {
  }

  /** Recording, relinking and pushing `next` at cost `temp`, one move from the popped entry, keeps the shape facts. */
  lemma PushShape(env: Env, current: Pos, gx: nat, expanded: set<Pos>, parent: ParentMap, g: map<Pos, nat>, nodes: nat,
                  frontier: seq<Item>, next: Pos, action: Action, temp: nat)
    requires Shape(env, current, gx, expanded, parent, g, nodes, frontier)
    requires next == Move(current, action) && Open(env, next)
    requires temp == gx + 1 && (next in g ==> temp < g[next])
    ensures Shape(env, current, gx, expanded, parent[next := Via(current, action)], g[next := temp],
                  if next !in g then nodes + 1 else nodes, frontier + [(next, temp)])
  {
    AStar.RelaxKeepsCosts(env, parent, g, nodes, current, action, next, temp);
    PushKeeps(env, g, current, gx, action, next, temp);
    LowerKeepsEntries(env, g, g[next := temp], frontier);
    PushKeepsStack(env, g, g[next := temp], expanded, frontier, (next, temp));
  }

  /** Recording `next = succs[i - 1]` at a lower cost handles it and makes progress. */
  lemma PushProgress(env: Env, cells: seq<Pos>, succs: seq<(Pos, Action)>, i: nat, g0: map<Pos, nat>,
                     frontier0: seq<Item>, minNext0: ExtNat, g: map<Pos, nat>, frontier: seq<Item>, minNext: ExtNat,
                     next: Pos, temp: nat)
    requires AStar.Lists(env, cells) && Recordable(env, next)
    requires Progress(cells, succs, i, g0, frontier0, minNext0, g, frontier, minNext)
    requires 0 < i && succs[i - 1].0 == next && (next in g ==> temp < g[next])
    ensures Progress(cells, succs, i - 1, g0, frontier0, minNext0, g[next := temp], frontier + [(next, temp)], minNext)
  {
    RecordKeys(g, next, temp);
    AStar.BetterStep(env, cells, g0, g, next, temp);
  }

  /** The sum of a list of node counts. */
  function Total(counts: seq<nat>): nat {
    if counts == [] then 0 else Total(counts[..|counts| - 1]) + counts[|counts| - 1]
  }

  /** The f-cost of a successor one move beyond a popped entry of cost `gx`. */
  function StepCost(env: Env, gx: nat, next: Pos): ExtNat {
    Plus(gx + 1, Heuristic(env, next))
  }

  /**
   The f-costs above the threshold among `succs`, one move beyond cost `gx`,
   in the order the successor loop meets them (last successor first).
   */
  function PrunedCosts(env: Env, threshold: ExtNat, gx: nat, succs: seq<(Pos, Action)>): seq<ExtNat> {
    if succs == [] then []
    else
      PrunedCosts(env, threshold, gx, succs[1..])
      + (if Below(threshold, StepCost(env, gx, succs[0].0)) then [StepCost(env, gx, succs[0].0)] else [])
  }

  /**
   The entries one expansion pushes against the cost map `g` it starts
   from, in push order (last successor first): each successor within the
   threshold that is unrecorded or whose cost `gx + 1` undercuts its
   recorded one.
   */
  function RelaxPushes(env: Env, threshold: ExtNat, gx: nat, succs: seq<(Pos, Action)>, g: map<Pos, nat>): seq<Item> {
    if succs == [] then []
    else
      var next := succs[0].0;
      RelaxPushes(env, threshold, gx, succs[1..], g) + (if Admits(env, threshold, gx, next, g) then [(next, gx + 1)] else [])
  }

  /** A successor one move beyond cost `gx` is within the threshold and unrecorded in `g` or dearer there. */
  predicate Admits(env: Env, threshold: ExtNat, gx: nat, next: Pos, g: map<Pos, nat>) {
    !Below(threshold, StepCost(env, gx, next)) && (next !in g || gx + 1 < g[next])
  }

  /** The cost map after one expansion from `g`: every admitted successor recorded at `gx + 1`. */
  function RelaxCosts(env: Env, threshold: ExtNat, gx: nat, succs: seq<(Pos, Action)>, g: map<Pos, nat>): map<Pos, nat> {
    if succs == [] then g
    else
      var m := RelaxCosts(env, threshold, gx, succs[1..], g);
      if Admits(env, threshold, gx, succs[0].0, g) then m[succs[0].0 := gx + 1] else m
  }

  /** The parent map after one expansion of `current`: every admitted successor linked to `current` by its action. */
  function RelaxLinks(env: Env, threshold: ExtNat, gx: nat, current: Pos, succs: seq<(Pos, Action)>, parent: ParentMap,
                      g: map<Pos, nat>): ParentMap {
    if succs == [] then parent
    else
      var m := RelaxLinks(env, threshold, gx, current, succs[1..], parent, g);
      if Admits(env, threshold, gx, succs[0].0, g) then m[succs[0].0 := Via(current, succs[0].1)] else m
  }

  /**
   The reference maps state by state: an admitted successor costs `gx + 1`
   and is linked to `current` by its action; every other state keeps its
   cost and link.
   */
  lemma {:induction false} RelaxMaps(env: Env, threshold: ExtNat, gx: nat, current: Pos, succs: seq<(Pos, Action)>,
                                     parent: ParentMap, g: map<Pos, nat>)
    requires forall a, b :: 0 <= a < b < |succs| ==> succs[a].0 != succs[b].0
    ensures var (g', parent') := (RelaxCosts(env, threshold, gx, succs, g), RelaxLinks(env, threshold, gx, current, succs, parent, g));
      && (forall k :: 0 <= k < |succs| && Admits(env, threshold, gx, succs[k].0, g) ==>
            && succs[k].0 in g' && g'[succs[k].0] == gx + 1
            && succs[k].0 in parent' && parent'[succs[k].0] == Via(current, succs[k].1))
      && (forall x :: x !in Targets(succs) || !Admits(env, threshold, gx, x, g) ==>
            && (x in g' <==> x in g) && (x in g ==> g'[x] == g[x])
            && (x in parent' <==> x in parent) && (x in parent ==> parent'[x] == parent[x]))
    decreases |succs|
  {
    if succs != [] {
      var tail := succs[1..];
      RelaxMaps(env, threshold, gx, current, tail, parent, g);
      TargetsSplit(succs, 0);
      forall k | 0 < k < |succs| ensures succs[k] == tail[k - 1] && succs[k].0 != succs[0].0 {
      }
    }
  }

  /** Python's `min` over a list of extended naturals, `Inf` for an empty one. */
  function Least(fs: seq<ExtNat>): ExtNat {
    if fs == [] then Inf else MinExt(Least(fs[..|fs| - 1]), fs[|fs| - 1])
  }

  /** The least element is one of the elements, and no element lies below it. */
  lemma {:induction false} LeastIsMin(fs: seq<ExtNat>)
    ensures fs != [] ==> Least(fs) in fs
    ensures forall k :: 0 <= k < |fs| ==> !Below(fs[k], Least(fs))
  {
    if fs != [] {
      var init := fs[..|fs| - 1];
      LeastIsMin(init);
      assert forall k :: 0 <= k < |init| ==> fs[k] == init[k];
      if init == [] {
        assert Least(init) == Inf;
      }
    }
  }

  /** Folding a list into a running minimum: the minimum over `a + b` is the minimum of `a`'s minimum and `b`. */
  lemma {:induction false} LeastConcat(a: seq<ExtNat>, b: seq<ExtNat>)
    requires a != []
    ensures Least(a + b) == Least([Least(a)] + b)
  {
    if b == [] {
      assert a + b == a;
      assert [Least(a)][..0] == [];
    } else {
      var b' := b[..|b| - 1];
      LeastConcat(a, b');
      assert (a + b)[..|a + b| - 1] == a + b';
      assert ([Least(a)] + b)[..|b|] == [Least(a)] + b';
    }
  }

  /**
   The exact effect of handling one successor `(next, action)` of the
   popped entry `(current, gx)`: a successor whose f-cost exceeds the
   threshold only lowers the pending minimum to that f-cost; one that is
   unrecorded or strictly cheaper than recorded is relinked to `current`,
   recorded at `gx + 1`, counted when new and pushed; any other changes
   nothing.
   */
  ghost predicate HandledOne(env: Env, threshold: ExtNat, current: Pos, gx: nat, next: Pos, action: Action,
                             parent: ParentMap, g: map<Pos, nat>, nodes: nat, frontier: seq<Item>, minNext: ExtNat,
                             parent': ParentMap, g': map<Pos, nat>, nodes': nat, frontier': seq<Item>, minNext': ExtNat) {
    if Below(threshold, StepCost(env, gx, next)) then
      && minNext' == MinExt(minNext, StepCost(env, gx, next))
      && parent' == parent && g' == g && nodes' == nodes && frontier' == frontier
    else if next !in g || gx + 1 < g[next] then
      && parent' == parent[next := Via(current, action)] && g' == g[next := gx + 1]
      && nodes' == (if next !in g then nodes + 1 else nodes)
      && frontier' == frontier + [(next, gx + 1)] && minNext' == minNext
    else
      parent' == parent && g' == g && nodes' == nodes && frontier' == frontier && minNext' == minNext
  }

  /**
   After handling `succs[i..]` from `g0`, `frontier0` and `minNext0`: the
   states of `succs[..i]` keep their costs in `g0`, the stack grew by the
   reference pushes, and the pending minimum is the least of `minNext0` and
   the pruned f-costs.
   */
  ghost predicate Folded(env: Env, threshold: ExtNat, gx: nat, succs: seq<(Pos, Action)>, i: nat, g0: map<Pos, nat>,
                         frontier0: seq<Item>, minNext0: ExtNat, g: map<Pos, nat>, frontier: seq<Item>, minNext: ExtNat)
    requires i <= |succs|
  {
    && (forall k :: 0 <= k < i ==> (succs[k].0 in g <==> succs[k].0 in g0))
    && (forall k :: 0 <= k < i && succs[k].0 in g0 ==> g[succs[k].0] == g0[succs[k].0])
    && frontier == frontier0 + RelaxPushes(env, threshold, gx, succs[i..], g0)
    && minNext == Least([minNext0] + PrunedCosts(env, threshold, gx, succs[i..]))
  }

  /** After handling `succs[i..]` from `parent0` and `g0`, the maps are the reference maps of those successors. */
  ghost predicate Remapped(env: Env, threshold: ExtNat, current: Pos, gx: nat, succs: seq<(Pos, Action)>, i: nat,
                           parent0: ParentMap, g0: map<Pos, nat>, parent: ParentMap, g: map<Pos, nat>)
    requires i <= |succs|
  {
    && g == RelaxCosts(env, threshold, gx, succs[i..], g0)
    && parent == RelaxLinks(env, threshold, gx, current, succs[i..], parent0, g0)
  }

  /** Recording and relinking `succs[i - 1]` exactly when it is admitted extends the reference maps by one successor. */
  lemma RemapStep(env: Env, threshold: ExtNat, current: Pos, gx: nat, succs: seq<(Pos, Action)>, i: nat,
                  parent0: ParentMap, g0: map<Pos, nat>, frontier0: seq<Item>, minNext0: ExtNat,
                  parent: ParentMap, g: map<Pos, nat>, nodes: nat, frontier: seq<Item>, minNext: ExtNat,
                  parent': ParentMap, g': map<Pos, nat>, nodes': nat, frontier': seq<Item>, minNext': ExtNat)
    requires 0 < i <= |succs|
    requires Folded(env, threshold, gx, succs, i, g0, frontier0, minNext0, g, frontier, minNext)
    requires Remapped(env, threshold, current, gx, succs, i, parent0, g0, parent, g)
    requires HandledOne(env, threshold, current, gx, succs[i - 1].0, succs[i - 1].1, parent, g, nodes, frontier, minNext,
                        parent', g', nodes', frontier', minNext')
    ensures Remapped(env, threshold, current, gx, succs, i - 1, parent0, g0, parent', g')
  {
    assert succs[i - 1..][1..] == succs[i..];
    assert Admits(env, threshold, gx, succs[i - 1].0, g) == Admits(env, threshold, gx, succs[i - 1].0, g0);
  }

  /** Handling `succs[i - 1]` as `HandledOne` says extends the fold by one successor. */
  lemma FoldStep(env: Env, threshold: ExtNat, current: Pos, gx: nat, succs: seq<(Pos, Action)>, i: nat,
                 g0: map<Pos, nat>, frontier0: seq<Item>, minNext0: ExtNat,
                 parent: ParentMap, g: map<Pos, nat>, nodes: nat, frontier: seq<Item>, minNext: ExtNat,
                 parent': ParentMap, g': map<Pos, nat>, nodes': nat, frontier': seq<Item>, minNext': ExtNat)
    requires SuccessorList(env, current, succs) && 0 < i <= |succs|
    requires Folded(env, threshold, gx, succs, i, g0, frontier0, minNext0, g, frontier, minNext)
    requires HandledOne(env, threshold, current, gx, succs[i - 1].0, succs[i - 1].1, parent, g, nodes, frontier, minNext,
                        parent', g', nodes', frontier', minNext')
    ensures Folded(env, threshold, gx, succs, i - 1, g0, frontier0, minNext0, g', frontier', minNext')
  {
    var next := succs[i - 1].0;
    assert succs[i - 1..][1..] == succs[i..];
    var pre := [minNext0] + PrunedCosts(env, threshold, gx, succs[i..]);
    var f := StepCost(env, gx, next);
    if Below(threshold, f) {
      assert [minNext0] + PrunedCosts(env, threshold, gx, succs[i - 1..]) == pre + [f];
      assert (pre + [f])[..|pre|] == pre;
    } else {
      assert [minNext0] + PrunedCosts(env, threshold, gx, succs[i - 1..]) == pre;
    }
    assert forall k :: 0 <= k < i - 1 ==> succs[k].0 != next;
  }

  /**
   One iteration of the successor loop: prune `succs[i - 1]` when its
   f-cost exceeds the threshold, else push and relink it when it is
   unrecorded or its new cost is lower, counting it when it is new.
   */
  method RelaxOne(env: Env, threshold: ExtNat, ghost cells: seq<Pos>, current: Pos, gx: nat, succs: seq<(Pos, Action)>,
                  i: nat, ghost g0: map<Pos, nat>, ghost frontier0: seq<Item>, ghost minNext0: ExtNat,
                  ghost expanded: set<Pos>, parent: ParentMap, g: map<Pos, nat>, nodes: nat, frontier: seq<Item>,
                  minNext: ExtNat)
    returns (parent': ParentMap, g': map<Pos, nat>, nodes': nat, frontier': seq<Item>, minNext': ExtNat)
    requires threshold.Inf? <==> env.goal == {}
    requires AStar.Lists(env, cells)
    requires SuccessorList(env, current, succs) && 0 < i
    requires RelaxInv(env, threshold, cells, current, gx, succs, i, g0, frontier0, minNext0, expanded,
                      parent, g, nodes, frontier, minNext)
    ensures RelaxInv(env, threshold, cells, current, gx, succs, i - 1, g0, frontier0, minNext0, expanded,
                     parent', g', nodes', frontier', minNext')
    ensures HandledOne(env, threshold, current, gx, succs[i - 1].0, succs[i - 1].1, parent, g, nodes, frontier, minNext,
                       parent', g', nodes', frontier', minNext')
  {
    var (next, action) := succs[i - 1];
    var temp := gx + 1;
    var fcost := Plus(temp, Heuristic(env, next));
    if Below(threshold, fcost) {
      PruneRound(env, threshold, cells, current, gx, succs, i, g0, frontier0, minNext0, expanded,
                 parent, g, nodes, frontier, minNext, action, fcost);
      parent', g', nodes', frontier', minNext' := parent, g, nodes, frontier, MinExt(minNext, fcost);
    } else if next !in g || temp < g[next] {
      PushShape(env, current, gx, expanded, parent, g, nodes, frontier, next, action, temp);
      PushProgress(env, cells, succs, i, g0, frontier0, minNext0, g, frontier, minNext, next, temp);
      parent', g' := parent[next := Via(current, action)], g[next := temp];
      nodes' := if next !in g then nodes + 1 else nodes;
      frontier', minNext' := frontier + [(next, temp)], minNext;
    } else {
      SkipRound(env, threshold, cells, current, gx, succs, i, g0, frontier0, minNext0, expanded,
                parent, g, nodes, frontier, minNext);
      parent', g', nodes', frontier', minNext' := parent, g, nodes, frontier, minNext;
    }
  }

  /**
   The loop over `reversed(successors)` of one expansion: the round facts
   are kept, the stack grows by exactly the reference pushes in reverse
   successor order, the costs and links become the reference maps, and the
   pending minimum becomes the least of itself and every pruned f-cost.
   */
  method Relax(env: Env, threshold: ExtNat, ghost cells: seq<Pos>, current: Pos, gx: nat, succs: seq<(Pos, Action)>,
               ghost expanded: set<Pos>, parent: ParentMap, g: map<Pos, nat>, nodes: nat, frontier: seq<Item>,
               minNext: ExtNat)
    returns (parent': ParentMap, g': map<Pos, nat>, nodes': nat, frontier': seq<Item>, minNext': ExtNat)
    requires threshold.Inf? <==> env.goal == {}
    requires AStar.Lists(env, cells)
    requires SuccessorList(env, current, succs)
    requires RelaxInv(env, threshold, cells, current, gx, succs, |succs|, g, frontier, minNext, expanded,
                      parent, g, nodes, frontier, minNext)
    ensures RelaxInv(env, threshold, cells, current, gx, succs, 0, g, frontier, minNext, expanded,
                     parent', g', nodes', frontier', minNext')
    ensures frontier' == frontier + RelaxPushes(env, threshold, gx, succs, g)
    ensures minNext' == Least([minNext] + PrunedCosts(env, threshold, gx, succs))
    ensures g' == RelaxCosts(env, threshold, gx, succs, g) && parent' == RelaxLinks(env, threshold, gx, current, succs, parent, g)
    ensures nodes' == |g'.Keys|
  {
    parent', g', nodes', frontier', minNext' := parent, g, nodes, frontier, minNext;
    var i := |succs|;
    assert succs[i..] == [];
    assert [minNext][..0] == [];
    while i > 0
      invariant 0 <= i <= |succs|
      invariant RelaxInv(env, threshold, cells, current, gx, succs, i, g, frontier, minNext, expanded,
                         parent', g', nodes', frontier', minNext')
      invariant Folded(env, threshold, gx, succs, i, g, frontier, minNext, g', frontier', minNext')
      invariant Remapped(env, threshold, current, gx, succs, i, parent, g, parent', g')
    {
      ghost var p0, g0, n0, f0, m0 := parent', g', nodes', frontier', minNext';
      parent', g', nodes', frontier', minNext' := RelaxOne(env, threshold, cells, current, gx, succs, i, g, frontier,
                                                           minNext, expanded, parent', g', nodes', frontier', minNext');
      FoldStep(env, threshold, current, gx, succs, i, g, frontier, minNext, p0, g0, n0, f0, m0,
               parent', g', nodes', frontier', minNext');
      RemapStep(env, threshold, current, gx, succs, i, parent, g, frontier, minNext, p0, g0, n0, f0, m0,
                parent', g', nodes', frontier', minNext');
      i := i - 1;
    }
    assert succs[0..] == succs;
  }

  /** The successor loop's result, with the popped state expanded, satisfies the round facts again. */
  lemma ExpandKeepsInv(env: Env, threshold: ExtNat, cells: seq<Pos>, current: Pos, gx: nat, succs: seq<(Pos, Action)>,
                       parent: ParentMap, g: map<Pos, nat>, nodes: nat, rest: seq<Item>, minNext: ExtNat,
                       expanded: set<Pos>, parent': ParentMap, g': map<Pos, nat>, nodes': nat, frontier': seq<Item>,
                       minNext': ExtNat)
    requires RoundInv(env, threshold, parent, g, nodes, rest + [(current, gx)], minNext, expanded)
    requires !IsGoal(env, current)
    requires forall a: Action :: Open(env, Move(current, a)) <==> (Move(current, a), a) in succs
    requires RelaxInv(env, threshold, cells, current, gx, succs, 0, g, rest, minNext, expanded + {current},
                      parent', g', nodes', frontier', minNext')
    ensures RoundInv(env, threshold, parent', g', nodes', frontier', minNext', expanded + {current})
  {
    assert current in g by {
      assert EntryOk(env, g, (rest + [(current, gx)])[|rest|]);
    }
    forall a | minNext'.Inf? && Open(env, Move(current, a)) ensures Move(current, a) in g' {
      var k :| 0 <= k < |succs| && succs[k] == (Move(current, a), a);
    }
  }

  /**
   One round of the inner loop: pop the top entry; report it when it is a
   goal; otherwise expand it. The measure of unrecorded states, summed
   costs and stack height drops.
   */
  method Step(env: Env, threshold: ExtNat, ghost cells: seq<Pos>, parent: ParentMap, g: map<Pos, nat>, nodes: nat,
              frontier: seq<Item>, minNext: ExtNat, ghost expanded: set<Pos>)
    returns (found: Option<Pos>, parent': ParentMap, g': map<Pos, nat>, nodes': nat, frontier': seq<Item>,
             minNext': ExtNat, ghost expanded': set<Pos>)
    requires threshold.Inf? <==> env.goal == {}
    requires AStar.Lists(env, cells)
    requires frontier != []
    requires RoundInv(env, threshold, parent, g, nodes, frontier, minNext, expanded)
    ensures IsGoal(env, frontier[|frontier| - 1].0) <==> found.Some?
    ensures found.Some? ==> found.value == frontier[|frontier| - 1].0 && found.value in g
    ensures found.Some? ==> parent' == parent && g' == g && nodes' == nodes && minNext' == minNext
    ensures found.None? ==> RoundInv(env, threshold, parent', g', nodes', frontier', minNext', expanded')
    ensures found.None? ==> (g' == g && |frontier'| < |frontier|) || AStar.Better(cells, g, g')
    ensures found.None? ==> Lowered(g, g')
    ensures found.None? ==>
      var (current, gx) := frontier[|frontier| - 1];
      && frontier' == frontier[..|frontier| - 1] + RelaxPushes(env, threshold, gx, Successors(env, current), g)
      && minNext' == Least([minNext] + PrunedCosts(env, threshold, gx, Successors(env, current)))
      && g' == RelaxCosts(env, threshold, gx, Successors(env, current), g)
      && parent' == RelaxLinks(env, threshold, gx, current, Successors(env, current), parent, g)
      && nodes' == |g'.Keys|
  {
    var n := |frontier| - 1;
    var (current, gx) := frontier[n];
    var rest := frontier[..n];
    assert frontier == rest + [(current, gx)];
    TopsPop(frontier);
    assert EntryOk(env, g, frontier[n]);
    found, parent', g', nodes', frontier', minNext', expanded' := None, parent, g, nodes, rest, minNext, expanded;
    if IsGoal(env, current) {
      found := Some(current);
    } else {
      expanded' := expanded + {current};
      var succs := Successors(env, current);
      SuccessorsListed(env, current);
      SuccessorsComplete(env, current);
      parent', g', nodes', frontier', minNext' := Relax(env, threshold, cells, current, gx, succs, expanded', parent, g,
                                                        nodes, rest, minNext);
      ExpandKeepsInv(env, threshold, cells, current, gx, succs, parent, g, nodes, rest, minNext, expanded,
                     parent', g', nodes', frontier', minNext');
    }
  }

  /** A round that empties its stack without pruning has recorded a closed, goal-free set holding the start. */
  lemma ExhaustedUnreachable(env: Env, threshold: ExtNat, parent: ParentMap, g: map<Pos, nat>, nodes: nat,
                             minNext: ExtNat, expanded: set<Pos>)
    requires RoundInv(env, threshold, parent, g, nodes, [], minNext, expanded) && minNext.Inf?
    ensures GoalUnreachable(env, env.start)
    ensures parent.Keys == ReachSet(env, env.start) && nodes == |ReachSet(env, env.start)|
  {
    assert g.Keys <= expanded;
    ClosedGoalFree(env, g.Keys, env.start);
    RecordsReach(env, parent, env.start, g, g.Keys);
  }

  /** The f-costs a round prunes while expanding the entries `popped`, in expansion order. */
  function RoundPruned(env: Env, threshold: ExtNat, popped: seq<Item>): seq<ExtNat> {
    if popped == [] then []
    else
      var (current, gx) := popped[|popped| - 1];
      RoundPruned(env, threshold, popped[..|popped| - 1]) + PrunedCosts(env, threshold, gx, Successors(env, current))
  }

  /** Expanding one more entry folds its pruned f-costs into the round's least pruned f-cost. */
  lemma RoundPrunedStep(env: Env, threshold: ExtNat, popped: seq<Item>, e: Item, minNext: ExtNat)
    requires minNext == Least([Inf] + RoundPruned(env, threshold, popped))
    ensures Least([minNext] + PrunedCosts(env, threshold, e.1, Successors(env, e.0)))
            == Least([Inf] + RoundPruned(env, threshold, popped + [e]))
  {
    var more := PrunedCosts(env, threshold, e.1, Successors(env, e.0));
    assert (popped + [e])[..|popped|] == popped;
    LeastConcat([Inf] + RoundPruned(env, threshold, popped), more);
    assert [Inf] + RoundPruned(env, threshold, popped) + more == [Inf] + RoundPruned(env, threshold, popped + [e]);
  }

  /** Every expanded entry is a recorded non-goal state, recorded at no more than the entry's cost. */
  ghost predicate Expansions(env: Env, g: map<Pos, nat>, popped: seq<Item>) {
    forall k :: 0 <= k < |popped| ==> popped[k].0 in g && g[popped[k].0] <= popped[k].1 && !IsGoal(env, popped[k].0)
  }

  /**
   The round's expansions `popped` are recorded non-goal entries, and the
   pending minimum is the least f-cost pruned while expanding them.
   */
  ghost predicate Pruning(env: Env, threshold: ExtNat, g: map<Pos, nat>, popped: seq<Item>, minNext: ExtNat) {
    Expansions(env, g, popped) && minNext == Least([Inf] + RoundPruned(env, threshold, popped))
  }

  /** Lowering costs keeps the expansion facts, and an expanded valid entry extends them. */
  lemma ExpansionsGrow(env: Env, g: map<Pos, nat>, g': map<Pos, nat>, popped: seq<Item>, e: Item)
    requires Expansions(env, g, popped) && Lowered(g, g')
    requires e.0 in g && g[e.0] <= e.1 && !IsGoal(env, e.0)
    ensures Expansions(env, g', popped + [e])
  {
    assert forall k :: 0 <= k < |popped| ==> (popped + [e])[k] == popped[k];
  }

  /**
   One round of `ida_star_search` under `threshold`: the stack starts as the
   start at cost 0 and the node count at 1. A reported goal is recorded in
   the parent map, which is ranked by the cost map; a round that prunes
   nothing and reports nothing proves no goal reachable and has recorded
   every reachable state; the next threshold is the least f-cost pruned
   while expanding the popped non-goal entries `popped`, each above the
   threshold. The node count is the number of recorded states.
   */
  method Round(env: Env, threshold: ExtNat, ghost cells: seq<Pos>)
    returns (found: Option<Pos>, nodes: nat, minNext: ExtNat, parent: ParentMap, g: map<Pos, nat>,
             ghost popped: seq<Item>)
    requires threshold.Inf? <==> env.goal == {}
    requires AStar.Lists(env, cells)
    ensures AStar.CostInv(env, parent, g, nodes) && Cap(env, threshold, minNext)
    ensures nodes == |parent| && parent.Keys <= ReachSet(env, env.start) && 1 <= nodes <= |ReachSet(env, env.start)|
    ensures found.Some? ==> IsGoal(env, found.value) && found.value in parent
    ensures IsGoal(env, env.start) ==> found == Some(env.start) && nodes == 1
    ensures found.None? && minNext.Inf? ==> GoalUnreachable(env, env.start)
    ensures found.None? && minNext.Inf? ==> parent.Keys == ReachSet(env, env.start) && nodes == |ReachSet(env, env.start)|
    ensures Pruning(env, threshold, g, popped, minNext)
  {
    var start := env.start;
    parent := map[start := Root];
    g := map[start := 0];
    var frontier: seq<Item> := [(start, 0)];
    minNext := Inf;
    nodes := 1;
    found := None;
    popped := [];
    ghost var expanded: set<Pos> := {};
    assert Tops(frontier) == [start];
    assert [Inf][..0] == [];
    UniverseMembers(env);
    while frontier != []
      invariant RoundInv(env, threshold, parent, g, nodes, frontier, minNext, expanded)
      invariant IsGoal(env, start) ==> frontier == [(start, 0)] && nodes == 1
      invariant found.None?
      invariant Pruning(env, threshold, g, popped, minNext)
      decreases Universe(env) - g.Keys, Potential(cells, g, 0), |frontier|
    {
      ghost var g0, frontier0, minNext0 := g, frontier, minNext;
      ghost var top := frontier[|frontier| - 1];
      found, parent, g, nodes, frontier, minNext, expanded := Step(env, threshold, cells, parent, g, nodes, frontier,
                                                                   minNext, expanded);
      if found.Some? {
        break;
      }
      AStar.MeasureDrops(env, cells, g0, g, |frontier0|, |frontier|);
      RoundPrunedStep(env, threshold, popped, top, minNext0);
      ExpansionsGrow(env, g0, g, popped, top);
      popped := popped + [top];
    }
    RecordsWithinReach(env, parent, env.start, g);
    if found.None? && minNext.Inf? {
      ExhaustedUnreachable(env, threshold, parent, g, nodes, minNext, expanded);
    }
  }

  /**
   One round as the outer loop uses it: a reported goal is recorded in a
   parent map ranked by the costs; the node count is the map's size, between
   one and the number of reachable states; a round that prunes nothing and
   reports nothing proves no goal reachable and counts every reachable
   state; otherwise the next threshold lies above the current one and below
   the ceiling.
   */
  method Attempt(env: Env, threshold: ExtNat, ghost cells: seq<Pos>)
    returns (found: Option<Pos>, nodes: nat, minNext: ExtNat, parent: ParentMap, ghost g: map<Pos, nat>)
    requires threshold.Inf? <==> env.goal == {}
    requires AStar.Lists(env, cells)
    ensures Ranked(env, parent, env.start, g)
    ensures nodes == |parent| && parent.Keys <= ReachSet(env, env.start) && 1 <= nodes <= |ReachSet(env, env.start)|
    ensures found.Some? ==> IsGoal(env, found.value) && found.value in parent
    ensures IsGoal(env, env.start) ==> found == Some(env.start) && nodes == 1
    ensures found.None? && minNext.Inf? ==> GoalUnreachable(env, env.start) && nodes == |ReachSet(env, env.start)|
    ensures minNext.Fin? ==> Below(threshold, minNext) && minNext.n < Ceiling(env)
  {
    ghost var popped;
    found, nodes, minNext, parent, g, popped := Round(env, threshold, cells);
  }

  /**
   The rounds so far: their thresholds rise strictly from the start's
   heuristic, and each recorded between one and all reachable states.
   */
  ghost predicate Schedule(env: Env, thresholds: seq<ExtNat>, counts: seq<nat>) {
    && |thresholds| == |counts|
    && (thresholds != [] ==> thresholds[0] == Heuristic(env, env.start))
    && (forall k :: 0 < k < |thresholds| ==> Below(thresholds[k - 1], thresholds[k]))
    && (forall k :: 0 <= k < |counts| ==> 1 <= counts[k] <= |ReachSet(env, env.start)|)
  }

  /** One more round, under a threshold above the last, extends the schedule and adds its count to the total. */
  lemma ScheduleGrow(env: Env, thresholds: seq<ExtNat>, counts: seq<nat>, threshold: ExtNat, nodes: nat)
    requires Schedule(env, thresholds, counts)
    requires thresholds == [] ==> threshold == Heuristic(env, env.start)
    requires thresholds != [] ==> Below(thresholds[|thresholds| - 1], threshold)
    requires 1 <= nodes <= |ReachSet(env, env.start)|
    ensures Schedule(env, thresholds + [threshold], counts + [nodes])
    ensures Total(counts + [nodes]) == Total(counts) + nodes
  {
    assert (counts + [nodes])[..|counts|] == counts;
  }

  /**
   The outer loop of `ida_star_search`, from a round under `threshold`
   after the rounds `thresholds` that recorded `counts` states: rounds run
   under rising thresholds until one reports a goal or prunes nothing. Each
   new threshold is a pruned f-cost, strictly above the last and below
   `Ceiling(env)`, so the unbounded `while True` always ends. `total` sums
   all rounds' counts and `nodes` is the last round's.
   */
  method Deepen(env: Env, threshold: ExtNat, ghost cells: seq<Pos>, ghost thresholds: seq<ExtNat>, ghost counts: seq<nat>,
                total0: nat)
    returns (found: Option<Pos>, nodes: nat, total: nat, parent: ParentMap, ghost g: map<Pos, nat>,
             ghost thresholds': seq<ExtNat>, ghost counts': seq<nat>)
    requires threshold.Inf? <==> env.goal == {}
    requires threshold.Fin? ==> threshold.n < Ceiling(env)
    requires AStar.Lists(env, cells)
    requires Schedule(env, thresholds, counts) && total0 == Total(counts)
    requires thresholds == [] ==> threshold == Heuristic(env, env.start)
    requires thresholds != [] ==> Below(thresholds[|thresholds| - 1], threshold) && !IsGoal(env, env.start)
    ensures Schedule(env, thresholds', counts') && counts' != []
    ensures thresholds != [] ==> thresholds'[0] == thresholds[0]
    ensures thresholds == [] ==> thresholds'[0] == threshold
    ensures total == Total(counts') && nodes == counts'[|counts'| - 1]
    ensures Ranked(env, parent, env.start, g) && nodes == |parent| && parent.Keys <= ReachSet(env, env.start)
    ensures found.Some? ==> IsGoal(env, found.value) && found.value in parent
    ensures IsGoal(env, env.start) ==> found == Some(env.start) && nodes == 1
    ensures found.None? ==> GoalUnreachable(env, env.start) && nodes == |ReachSet(env, env.start)|
    decreases if threshold.Inf? then 0 else Ceiling(env) - threshold.n
  {
    var minNext;
    found, nodes, minNext, parent, g := Attempt(env, threshold, cells);
    ScheduleGrow(env, thresholds, counts, threshold, nodes);
    ghost var ts, cs := thresholds + [threshold], counts + [nodes];
    if found.Some? || minNext.Inf? {
      total, thresholds', counts' := total0 + nodes, ts, cs;
    } else {
      found, nodes, total, parent, g, thresholds', counts' := Deepen(env, minNext, cells, ts, cs, total0 + nodes);
    }
  }

  /**
   `ida_star_search`. A found goal is reached by the reconstructed path and
   reports its own round's count, the size of its parent map; failure
   happens exactly when no goal is reachable, and reports the sum of all
   rounds' counts, the last round having recorded every reachable state.
   The rounds run under thresholds `thresholds`, rising strictly from the
   start's heuristic, and record `counts` states.
   */
  method Search(env: Env) returns (r: SearchResult, ghost parent: ParentMap, ghost thresholds: seq<ExtNat>,
                                   ghost counts: seq<nat>)
    ensures IsGoal(env, env.start) ==> r == Found([], 1, env.start)
    ensures r.Found? ==> IsGoal(env, r.goal) && Reaches(env, env.start, r.actions, r.goal)
    ensures r.Found? ==> ReconstructPath(parent, r.goal, env.start) == Some(r.actions)
    ensures r.NotFound? <==> GoalUnreachable(env, env.start)
    ensures r.Found? ==> r.nodes == |parent| && parent.Keys <= ReachSet(env, env.start)
    ensures |thresholds| == |counts| >= 1 && thresholds[0] == Heuristic(env, env.start)
    ensures forall k :: 0 < k < |thresholds| ==> Below(thresholds[k - 1], thresholds[k])
    ensures forall k :: 0 <= k < |counts| ==> 1 <= counts[k] <= |ReachSet(env, env.start)|
    ensures r.Found? ==> r.nodes == counts[|counts| - 1]
    ensures r.NotFound? ==> r.nodes == Total(counts) && counts[|counts| - 1] == |ReachSet(env, env.start)|
  {
    var found, nodes, total, p;
    ghost var g;
    ghost var cells := Enumerate(Universe(env));
    found, nodes, total, p, g, thresholds, counts := Deepen(env, Heuristic(env, env.start), cells, [], [], 0);
    parent := p;
    if found.Some? {
      ReconstructReaches(env, p, env.start, g, found.value);
      r := Found(ReconstructPath(p, found.value, env.start).value, nodes, found.value);
    } else {
      r := NotFound(total);
    }
  }
}

=== FILE: ids.dfy ===
/**
 `iterative_deepening_search` and its inner `depth_limited_search`. The
 inner search is a stack of `(state, depth)` pairs with an explored set: a
 popped state already explored is skipped; otherwise it is explored, checked
 for being a goal, and expanded only when its depth is below the limit,
 pushing its unexplored successors in reverse UP, LEFT, DOWN, RIGHT order.
 A parent link is written when a state is first discovered and never
 replaced. The node count is the number of explored states. The outer search
 retries with limits 0, 1, 2, ... and returns the first success.
 */
module IterativeDeepening {
  import opened Grid
  import opened Paths

  /** Every stack entry is reached from the start by its ghost route, whose length is the entry's depth. */
  ghost predicate Routed(env: Env, frontier: seq<Item>, routes: seq<seq<Action>>) {
    && |routes| == |frontier|
    && forall i :: 0 <= i < |frontier| ==> |routes[i]| == frontier[i].1 && Reaches(env, env.start, routes[i], frontier[i].0)
  }

  /** No entry is deeper than the limit, nor deeper than the number of explored states. */
  ghost predicate Bounded(frontier: seq<Item>, explored: set<Pos>, depth: nat) {
    forall i :: 0 <= i < |frontier| ==> frontier[i].1 <= |explored| && frontier[i].1 <= depth
  }

  /** The parent-map and stack facts. */
  ghost predicate StackInv(env: Env, parent: ParentMap, rank: map<Pos, nat>, frontier: seq<Item>, explored: set<Pos>) {
    && Ranked(env, parent, env.start, rank)
    && (forall x :: x in parent ==> Recordable(env, x))
    && (forall i :: 0 <= i < |frontier| ==> frontier[i].0 in parent)
    && explored <= parent.Keys
  }

  /** Every link of `parent` is kept in `parent'`. */
  ghost predicate LinksKept(parent: ParentMap, parent': ParentMap) {
    forall x :: x in parent ==> x in parent' && parent'[x] == parent[x]
  }

  /**
   The stack is ordered by depth from bottom to top, no entry's state has a
   rank above the entry's depth, and every recorded state is explored or
   still on the stack. So a link is only ever written from a state whose
   chain back to the start is no longer than its depth.
   */
  ghost predicate Shallow(parent: ParentMap, rank: map<Pos, nat>, frontier: seq<Item>, explored: set<Pos>) {
    && (forall i, j :: 0 <= i < j < |frontier| ==> frontier[i].1 <= frontier[j].1)
    && (forall i :: 0 <= i < |frontier| ==> frontier[i].0 in rank && rank[frontier[i].0] <= frontier[i].1)
    && (forall x :: x in parent ==> x in explored || x in Tops(frontier))
  }

  /** No entry is deeper than `n`. */
  ghost predicate AtMost(frontier: seq<Item>, n: nat) {
    forall i :: 0 <= i < |frontier| ==> frontier[i].1 <= n
  }

  /** The entries pushed for one expansion: `reversed(successors)` filtered to the unexplored ones, each at depth `d`. */
  function Pushed(succs: seq<(Pos, Action)>, explored: set<Pos>, d: nat): seq<Item> {
    if succs == [] then []
    else Pushed(succs[1..], explored, d) + (if succs[0].0 !in explored then [(succs[0].0, d)] else [])
  }

  /**
   Pushing an unexplored state one level below the popped one keeps the
   stack ordered and shallow, whether the state is newly linked from
   `current` or was already recorded (and so is waiting on the stack).
   */
  lemma ShallowPush(parent: ParentMap, rank: map<Pos, nat>, frontier: seq<Item>, explored: set<Pos>, current: Pos,
                    d: nat, next: Pos, parent': ParentMap, rank': map<Pos, nat>)
    requires Shallow(parent, rank, frontier, explored) && AtMost(frontier, d + 1)
    requires forall i :: 0 <= i < |frontier| ==> frontier[i].0 in parent
    requires current in rank && rank[current] <= d && next !in explored
    requires parent'.Keys == parent.Keys + {next}
    requires next in parent ==> rank' == rank
    requires next !in parent ==> rank' == rank[next := rank[current] + 1]
    ensures Shallow(parent', rank', frontier + [(next, d + 1)], explored) && AtMost(frontier + [(next, d + 1)], d + 1)
  {
    var f := frontier + [(next, d + 1)];
    TopsPush(frontier, (next, d + 1));
    assert forall k :: 0 <= k < |frontier| ==> f[k] == frontier[k];
    if next in parent {
      var j :| 0 <= j < |frontier| && Tops(frontier)[j] == next;
      assert frontier[j].0 == next;
    } else {
      assert forall k :: 0 <= k < |frontier| ==> frontier[k].0 != next;
    }
  }

  /** Popping the top entry leaves the rest ordered and shallow, none deeper than the popped one, once its state is explored. */
  lemma ShallowPop(parent: ParentMap, rank: map<Pos, nat>, frontier: seq<Item>, explored: set<Pos>)
    requires frontier != [] && Shallow(parent, rank, frontier, explored)
    ensures var n := |frontier| - 1;
      && frontier[n].0 in rank && rank[frontier[n].0] <= frontier[n].1
      && Shallow(parent, rank, frontier[..n], explored + {frontier[n].0})
      && AtMost(frontier[..n], frontier[n].1)
  {
    var n := |frontier| - 1;
    TopsPop(frontier);
    assert forall k :: 0 <= k < n ==> frontier[..n][k] == frontier[k];
  }

  /** A route to `current` followed by one move into an open cell is a route to the new cell. */
  lemma RouteExtend(env: Env, route: seq<Action>, current: Pos, action: Action)
    requires Reaches(env, env.start, route, current) && Open(env, Move(current, action))
    ensures Reaches(env, env.start, route + [action], Move(current, action))
  {
    var next := Move(current, action);
    assert Reaches(env, current, [action], next) by {
      assert Replay(current, [action]) == [current, next];
    }
    ReachesConcat(env, env.start, route, current, [action], next);
  }

  /** Pushing an entry together with a route to it of its depth keeps every entry routed. */
  lemma RoutedPush(env: Env, frontier: seq<Item>, routes: seq<seq<Action>>, e: Item, route: seq<Action>)
    requires Routed(env, frontier, routes) && |route| == e.1 && Reaches(env, env.start, route, e.0)
    ensures Routed(env, frontier + [e], routes + [route])
  {
    var routes' := routes + [route];
    forall j | 0 <= j < |routes| ensures routes'[j] == routes[j] { }
  }

  /**
   One iteration of the loop over `reversed(successors)`: push `next`, one
   level deeper than `current`, and link it to `current` only if it has no
   link yet.
   */
  method PushOne(env: Env, depth: nat, current: Pos, d: nat, ghost route: seq<Action>, next: Pos, action: Action,
                 explored: set<Pos>, frontier: seq<Item>, ghost routes: seq<seq<Action>>, parent: ParentMap,
                 ghost rank: map<Pos, nat>)
    returns (frontier': seq<Item>, ghost routes': seq<seq<Action>>, parent': ParentMap, ghost rank': map<Pos, nat>)
    requires current in explored && d < depth && d + 1 <= |explored|
    requires |route| == d && Reaches(env, env.start, route, current)
    requires next == Move(current, action) && next !in explored && Open(env, next)
    requires StackInv(env, parent, rank, frontier, explored) && Routed(env, frontier, routes)
    requires Bounded(frontier, explored, depth)
    requires Shallow(parent, rank, frontier, explored) && AtMost(frontier, d + 1) && current in rank && rank[current] <= d
    ensures StackInv(env, parent', rank', frontier', explored) && Routed(env, frontier', routes')
    ensures Bounded(frontier', explored, depth)
    ensures Shallow(parent', rank', frontier', explored) && AtMost(frontier', d + 1)
    ensures current in rank' && rank'[current] == rank[current]
    ensures frontier' == frontier + [(next, d + 1)] && Tops(frontier') == Tops(frontier) + [next]
    ensures LinksKept(parent, parent') && next in parent'
    ensures parent' == if next in parent then parent else parent[next := Via(current, action)]
  {
    frontier' := frontier + [(next, d + 1)];
    TopsPush(frontier, (next, d + 1));
    RouteExtend(env, route, current, action);
    routes' := routes + [route + [action]];
    RoutedPush(env, frontier, routes, (next, d + 1), route + [action]);
    assert Bounded(frontier', explored, depth) by {
      assert forall j :: 0 <= j < |frontier| ==> frontier'[j] == frontier[j];
    }
    if next in parent {
      parent', rank' := parent, rank;
    } else {
      RelinkRanked(env, parent, env.start, rank, current, action);
      parent', rank' := parent[next := Via(current, action)], rank[next := rank[current] + 1];
    }
    ShallowPush(parent, rank, frontier, explored, current, d, next, parent', rank');
  }

  /** The facts the push loop keeps about the successors it has handled: each explored or on the stack. */
  ghost predicate Handled(succs: seq<(Pos, Action)>, i: nat, explored: set<Pos>, frontier: seq<Item>) {
    forall k :: i <= k < |succs| ==> succs[k].0 in explored || succs[k].0 in Tops(frontier)
  }

  /** Pushing keeps every earlier stack state and handled successor, and handles the pushed one. */
  lemma HandledPush(succs: seq<(Pos, Action)>, i: nat, explored: set<Pos>, frontier: seq<Item>, frontier0: seq<Item>,
                    frontier': seq<Item>, next: Pos)
    requires 0 < i <= |succs| && succs[i - 1].0 == next
    requires Handled(succs, i, explored, frontier) && forall y :: y in Tops(frontier0) ==> y in Tops(frontier)
    requires Tops(frontier') == Tops(frontier) + [next]
    ensures Handled(succs, i - 1, explored, frontier') && forall y :: y in Tops(frontier0) ==> y in Tops(frontier')
  {
  }

  /** Link preservation is transitive. */
  lemma LinksKeptTrans(parent: ParentMap, links: ParentMap, parent': ParentMap)
    requires LinksKept(parent, links) && LinksKept(links, parent')
    ensures LinksKept(parent, parent')
  {
  }

  /**
   The facts the push loop keeps after handling `succs[i..]`: the stack
   facts, routes and bounds; every earlier stack state still on the stack;
   every handled successor explored or on the stack; every earlier link
   unchanged.
   */
  ghost predicate PushInv(env: Env, depth: nat, current: Pos, d: nat, succs: seq<(Pos, Action)>, i: nat,
                          explored: set<Pos>, frontier: seq<Item>, parent: ParentMap,
                          frontier': seq<Item>, routes': seq<seq<Action>>, parent': ParentMap, rank': map<Pos, nat>) {
    && i <= |succs|
    && StackInv(env, parent', rank', frontier', explored) && Routed(env, frontier', routes')
    && Bounded(frontier', explored, depth)
    && Shallow(parent', rank', frontier', explored) && AtMost(frontier', d + 1)
    && current in rank' && rank'[current] <= d
    && frontier' == frontier + Pushed(succs[i..], explored, d + 1)
    && (forall y :: y in Tops(frontier) ==> y in Tops(frontier'))
    && Handled(succs, i, explored, frontier') && LinksKept(parent, parent')
  }

  /**
   The links after `succs[i..]` are handled: exactly the unexplored ones
   among them are recorded, and each that had no link before is linked to
   `current` by its own action.
   */
  ghost predicate NewLinks(parent: ParentMap, parent': ParentMap, current: Pos, succs: seq<(Pos, Action)>, i: nat,
                           explored: set<Pos>)
    requires i <= |succs|
  {
    && parent'.Keys == parent.Keys + (Targets(succs[i..]) - explored)
    && forall k :: i <= k < |succs| && succs[k].0 !in parent ==>
      succs[k].0 in parent' && parent'[succs[k].0] == Via(current, succs[k].1)
  }

  /** Handling `succs[i - 1]` as the loop does extends the link facts by one index. */
  lemma NewLinksStep(parent: ParentMap, p: ParentMap, current: Pos, succs: seq<(Pos, Action)>, i: nat, explored: set<Pos>)
    requires 0 < i <= |succs| && explored <= parent.Keys
    requires forall a, b :: 0 <= a < b < |succs| ==> succs[a].0 != succs[b].0
    requires NewLinks(parent, p, current, succs, i, explored)
    ensures var (next, action) := succs[i - 1];
      NewLinks(parent, if next in explored || next in p then p else p[next := Via(current, action)], current, succs, i - 1, explored)
  {
    TargetsSplit(succs, i - 1);
    NotEarlier(succs, i - 1);
  }

  /**
   The links one expansion writes: exactly the unexplored successors are
   recorded, and each that had no link before is linked to `current` by its
   own action; every older link is kept as well (`LinksKept`).
   */
  ghost predicate Discovered(parent: ParentMap, parent': ParentMap, current: Pos, succs: seq<(Pos, Action)>,
                             explored: set<Pos>) {
    && parent'.Keys == parent.Keys + (Targets(succs) - explored)
    && forall k :: 0 <= k < |succs| && succs[k].0 !in parent ==>
      succs[k].0 in parent' && parent'[succs[k].0] == Via(current, succs[k].1)
  }

  /** Before any successor is handled no link is new, and once all are handled the link facts speak of the whole list. */
  lemma NewLinksEnds(parent: ParentMap, p: ParentMap, current: Pos, succs: seq<(Pos, Action)>, explored: set<Pos>)
    requires explored <= parent.Keys
    ensures NewLinks(parent, parent, current, succs, |succs|, explored)
    ensures NewLinks(parent, p, current, succs, 0, explored) ==> Discovered(parent, p, current, succs, explored)
  {
    assert succs[|succs|..] == [] && succs[0..] == succs;
  }

  /** One iteration of the loop over `reversed(successors)`: push `succs[i - 1]` unless it is explored. */
  method HandleOne(env: Env, depth: nat, current: Pos, d: nat, ghost route: seq<Action>, succs: seq<(Pos, Action)>,
                   i: nat, explored: set<Pos>, ghost frontier: seq<Item>, ghost parent: ParentMap,
                   frontier': seq<Item>, ghost routes': seq<seq<Action>>, parent': ParentMap, ghost rank': map<Pos, nat>)
    returns (frontier'': seq<Item>, ghost routes'': seq<seq<Action>>, parent'': ParentMap, ghost rank'': map<Pos, nat>)
    requires SuccessorList(env, current, succs) && 0 < i
    requires current in explored && d < depth && d + 1 <= |explored|
    requires |route| == d && Reaches(env, env.start, route, current)
    requires PushInv(env, depth, current, d, succs, i, explored, frontier, parent, frontier', routes', parent', rank')
    ensures PushInv(env, depth, current, d, succs, i - 1, explored, frontier, parent, frontier'', routes'', parent'', rank'')
    ensures var (next, action) := succs[i - 1];
      parent'' == if next in explored || next in parent' then parent' else parent'[next := Via(current, action)]
  {
    var (next, action) := succs[i - 1];
    assert succs[i - 1..][1..] == succs[i..];
    if next !in explored {
      frontier'', routes'', parent'', rank'' := PushOne(env, depth, current, d, route, next, action, explored,
                                                        frontier', routes', parent', rank');
      HandledPush(succs, i, explored, frontier', frontier, frontier'', next);
      LinksKeptTrans(parent, parent', parent'');
    } else {
      frontier'', routes'', parent'', rank'' := frontier', routes', parent', rank';
    }
  }

  /** One iteration of the loop, keeping both its invariant and the facts about the links it writes. */
  method HandleNext(env: Env, depth: nat, current: Pos, d: nat, ghost route: seq<Action>, succs: seq<(Pos, Action)>,
                    i: nat, explored: set<Pos>, ghost frontier: seq<Item>, ghost parent: ParentMap,
                    frontier': seq<Item>, ghost routes': seq<seq<Action>>, parent': ParentMap, ghost rank': map<Pos, nat>)
    returns (frontier'': seq<Item>, ghost routes'': seq<seq<Action>>, parent'': ParentMap, ghost rank'': map<Pos, nat>)
    requires SuccessorList(env, current, succs) && 0 < i && explored <= parent.Keys
    requires current in explored && d < depth && d + 1 <= |explored|
    requires |route| == d && Reaches(env, env.start, route, current)
    requires PushInv(env, depth, current, d, succs, i, explored, frontier, parent, frontier', routes', parent', rank')
    requires NewLinks(parent, parent', current, succs, i, explored)
    ensures PushInv(env, depth, current, d, succs, i - 1, explored, frontier, parent, frontier'', routes'', parent'', rank'')
    ensures NewLinks(parent, parent'', current, succs, i - 1, explored)
  {
    frontier'', routes'', parent'', rank'' := HandleOne(env, depth, current, d, route, succs, i, explored, frontier, parent,
                                                        frontier', routes', parent', rank');
    NewLinksStep(parent, parent', current, succs, i, explored);
  }

  /**
   The loop over `reversed(successors)` of one expansion: each unexplored
   successor is pushed one level deeper, and linked to `current` only if it
   has no link yet.
   */
  method PushSuccessors(env: Env, depth: nat, current: Pos, d: nat, ghost route: seq<Action>, succs: seq<(Pos, Action)>,
                        explored: set<Pos>, frontier: seq<Item>, ghost routes: seq<seq<Action>>, parent: ParentMap,
                        ghost rank: map<Pos, nat>)
    returns (frontier': seq<Item>, ghost routes': seq<seq<Action>>, parent': ParentMap, ghost rank': map<Pos, nat>)
    requires SuccessorList(env, current, succs)
    requires current in explored && d < depth && d + 1 <= |explored|
    requires |route| == d && Reaches(env, env.start, route, current)
    requires StackInv(env, parent, rank, frontier, explored) && Routed(env, frontier, routes)
    requires Bounded(frontier, explored, depth)
    requires Shallow(parent, rank, frontier, explored) && AtMost(frontier, d + 1) && current in rank && rank[current] <= d
    ensures PushInv(env, depth, current, d, succs, 0, explored, frontier, parent, frontier', routes', parent', rank')
    ensures frontier' == frontier + Pushed(succs, explored, d + 1)
    ensures forall y :: y in Tops(frontier) ==> y in Tops(frontier')
    ensures forall k :: 0 <= k < |succs| ==> succs[k].0 in explored || succs[k].0 in Tops(frontier')
    ensures LinksKept(parent, parent')
    ensures Discovered(parent, parent', current, succs, explored)
  {
    frontier', routes', parent', rank' := frontier, routes, parent, rank;
    var i := |succs|;
    NewLinksEnds(parent, parent, current, succs, explored);
    while i > 0
      invariant 0 <= i
      invariant PushInv(env, depth, current, d, succs, i, explored, frontier, parent, frontier', routes', parent', rank')
      invariant NewLinks(parent, parent', current, succs, i, explored)
    {
      frontier', routes', parent', rank' := HandleNext(env, depth, current, d, route, succs, i, explored, frontier, parent,
                                                       frontier', routes', parent', rank');
      i := i - 1;
    }
    NewLinksEnds(parent, parent', current, succs, explored);
    assert succs[0..] == succs;
  }

  /**
   The outer-loop facts of one depth-limited search: the stack facts, routes
   and bounds; the start explored or alone on the stack; every open
   neighbour of an expanded state explored or on the stack; with a limit of
   at least the number of recordable states every explored state was
   expanded; no explored state is a goal; the stack is ordered by depth and
   no state's chain is longer than its entry's depth.
   */
  ghost predicate SearchInv(env: Env, depth: nat, parent: ParentMap, rank: map<Pos, nat>, frontier: seq<Item>,
                            routes: seq<seq<Action>>, explored: set<Pos>, expanded: set<Pos>) {
    && StackInv(env, parent, rank, frontier, explored)
    && Routed(env, frontier, routes)
    && Bounded(frontier, explored, depth)
    && Shallow(parent, rank, frontier, explored)
    && (env.start in explored || frontier == [(env.start, 0)])
    && expanded <= explored
    && (forall x, a :: x in expanded && Open(env, Move(x, a)) ==> Move(x, a) in explored || Move(x, a) in Tops(frontier))
    && (|Universe(env)| <= depth ==> explored <= expanded)
    && (forall x :: x in explored ==> !IsGoal(env, x))
  }

  /** A recordable state outside a set of recordable states leaves room: the set is smaller than the universe. */
  lemma RoomLeft(env: Env, explored: set<Pos>, current: Pos)
    requires forall x :: x in explored ==> Recordable(env, x)
    requires Recordable(env, current) && current !in explored
    ensures |explored| < |Universe(env)|
  {
    UniverseMembers(env);
    SubsetCard(explored + {current}, Universe(env));
  }

  /** Popping the top entry: it is linked and routed, and its depth is within the bounds. */
  lemma PopFacts(env: Env, depth: nat, parent: ParentMap, rank: map<Pos, nat>, before: seq<Item>, routes: seq<seq<Action>>,
                 explored: set<Pos>)
    requires before != [] && StackInv(env, parent, rank, before, explored)
    requires Routed(env, before, routes) && Bounded(before, explored, depth)
    ensures var (current, d) := before[|before| - 1];
      && current in parent && Recordable(env, current)
      && |routes[|before| - 1]| == d && Reaches(env, env.start, routes[|before| - 1], current)
      && d <= |explored| && d <= depth
      && forall x :: x in explored ==> Recordable(env, x)
  {
  }

  /** Dropping the top entry keeps the stack facts, routes and bounds for the rest. */
  lemma PopKeepsStack(env: Env, depth: nat, parent: ParentMap, rank: map<Pos, nat>, before: seq<Item>,
                      routes: seq<seq<Action>>, explored: set<Pos>, explored': set<Pos>)
    requires before != [] && explored <= explored'
    requires StackInv(env, parent, rank, before, explored) && Routed(env, before, routes) && Bounded(before, explored, depth)
    requires explored' <= parent.Keys
    ensures var n := |before| - 1;
      StackInv(env, parent, rank, before[..n], explored') && Routed(env, before[..n], routes[..n])
      && Bounded(before[..n], explored', depth)
  {
    SubsetCard(explored, explored');
  }

  /** Exploring a popped state whose open neighbours are all explored or on the stack keeps the coverage fact. */
  lemma ExpandKeepsCovered(env: Env, explored: set<Pos>, expanded: set<Pos>, before: seq<Item>, current: Pos,
                           rest: seq<Item>, after: seq<Item>)
    requires Tops(before) == Tops(rest) + [current]
    requires forall x, a :: x in expanded && Open(env, Move(x, a)) ==> Move(x, a) in explored || Move(x, a) in Tops(before)
    requires forall y :: y in Tops(rest) ==> y in Tops(after)
    requires forall a :: Open(env, Move(current, a)) ==> Move(current, a) in explored + {current} || Move(current, a) in Tops(after)
    ensures forall x, a :: x in expanded + {current} && Open(env, Move(x, a)) ==>
      Move(x, a) in explored + {current} || Move(x, a) in Tops(after)
  {
  }

  /**
   What a round that reports nothing leaves: the top entry is popped; an
   explored state is skipped; otherwise it is explored, and when its depth is
   below the limit its unexplored successors are pushed in reverse order one
   level deeper.
   */
  ghost predicate Popped(env: Env, depth: nat, frontier: seq<Item>, explored: set<Pos>, frontier': seq<Item>,
                         explored': set<Pos>)
    requires frontier != []
  {
    var n := |frontier| - 1;
    var (top, d) := frontier[n];
    if top in explored then frontier' == frontier[..n] && explored' == explored
    else
      && explored' == explored + {top}
      && frontier' == frontier[..n] + (if d < depth then Pushed(Successors(env, top), explored', d + 1) else [])
  }

  /**
   One round of the outer loop of a depth-limited search: pop the top entry;
   skip it when explored; otherwise explore it, and report it when it is a
   goal or expand it when it lies below the limit. A link once written never
   changes.
   */
  method Step(env: Env, depth: nat, frontier: seq<Item>, ghost routes: seq<seq<Action>>, explored: set<Pos>,
              parent: ParentMap, ghost rank: map<Pos, nat>, ghost expanded: set<Pos>)
    returns (found: Option<Pos>, ghost route: seq<Action>, frontier': seq<Item>, ghost routes': seq<seq<Action>>,
             explored': set<Pos>, parent': ParentMap, ghost rank': map<Pos, nat>, ghost expanded': set<Pos>)
    requires frontier != []
    requires SearchInv(env, depth, parent, rank, frontier, routes, explored, expanded)
    ensures LinksKept(parent, parent')
    ensures explored <= explored' && forall x :: x in explored' ==> Recordable(env, x)
    ensures found.None? ==> SearchInv(env, depth, parent', rank', frontier', routes', explored', expanded')
    ensures found.None? ==> Popped(env, depth, frontier, explored, frontier', explored')
    ensures found.None? ==> var (top, d) := frontier[|frontier| - 1];
      if top !in explored && d < depth then Discovered(parent, parent', top, Successors(env, top), explored')
      else parent' == parent
    ensures found.None? ==>
      (explored' == explored && |frontier'| < |frontier|) || Universe(env) - explored' < Universe(env) - explored
    ensures found.Some? ==>
      && found.value == frontier[|frontier| - 1].0 && frontier[|frontier| - 1].0 !in explored
      && found.value in rank && rank[found.value] <= depth
    ensures found.Some? ==>
      && parent' == parent && rank' == rank && Ranked(env, parent, env.start, rank) && found.value in parent
      && IsGoal(env, found.value) && explored' == explored + {found.value}
      && |route| <= depth && Reaches(env, env.start, route, found.value)
  {
    var n := |frontier| - 1;
    var (current, d) := frontier[n];
    route := routes[n];
    frontier', routes' := frontier[..n], routes[..n];
    PopFacts(env, depth, parent, rank, frontier, routes, explored);
    ShallowPop(parent, rank, frontier, explored);
    TopsPop(frontier);
    found, explored', parent', rank', expanded' := None, explored, parent, rank, expanded;
    if current in explored {
      PopKeepsStack(env, depth, parent, rank, frontier, routes, explored, explored);
    } else {
      explored' := explored + {current};
      RoomLeft(env, explored, current);
      UniverseMembers(env);
      assert current in Universe(env) - explored;
      PopKeepsStack(env, depth, parent, rank, frontier, routes, explored, explored');
      if IsGoal(env, current) {
        found := Some(current);
      } else if d < depth {
        frontier', routes', parent', rank' := Expand(env, depth, frontier, routes, explored, parent, rank, expanded);
        expanded' := expanded + {current};
      }
    }
  }

  /**
   Expanding the popped top entry, an unexplored non-goal below the limit:
   its unexplored successors are pushed in reverse order one level deeper,
   and the outer-loop facts hold again with it explored and expanded.
   */
  method Expand(env: Env, depth: nat, frontier: seq<Item>, ghost routes: seq<seq<Action>>, explored: set<Pos>,
                parent: ParentMap, ghost rank: map<Pos, nat>, ghost expanded: set<Pos>)
    returns (frontier': seq<Item>, ghost routes': seq<seq<Action>>, parent': ParentMap, ghost rank': map<Pos, nat>)
    requires frontier != []
    requires SearchInv(env, depth, parent, rank, frontier, routes, explored, expanded)
    requires var (current, d) := frontier[|frontier| - 1];
      current !in explored && !IsGoal(env, current) && d < depth
    ensures var (current, d) := frontier[|frontier| - 1];
      && SearchInv(env, depth, parent', rank', frontier', routes', explored + {current}, expanded + {current})
      && frontier' == frontier[..|frontier| - 1] + Pushed(Successors(env, current), explored + {current}, d + 1)
    ensures LinksKept(parent, parent')
    ensures var current := frontier[|frontier| - 1].0;
      Discovered(parent, parent', current, Successors(env, current), explored + {current})
  {
    var n := |frontier| - 1;
    var (current, d) := frontier[n];
    var explored' := explored + {current};
    PopFacts(env, depth, parent, rank, frontier, routes, explored);
    ShallowPop(parent, rank, frontier, explored);
    TopsPop(frontier);
    PopKeepsStack(env, depth, parent, rank, frontier, routes, explored, explored');
    var succs := Successors(env, current);
    SuccessorsListed(env, current);
    var rest := frontier[..n];
    frontier', routes', parent', rank' := PushSuccessors(env, depth, current, d, routes[n], succs, explored', rest,
                                                         routes[..n], parent, rank);
    SuccessorsComplete(env, current);
    forall a | Open(env, Move(current, a))
      ensures Move(current, a) in explored' || Move(current, a) in Tops(frontier')
    {
      var k :| 0 <= k < |succs| && succs[k] == (Move(current, a), a);
    }
    ExpandKeepsCovered(env, explored, expanded, frontier, current, rest, frontier');
  }

  /** An exhausted stack, with a limit of at least the number of recordable states, means no goal is reachable. */
  lemma ExhaustedUnreachable(env: Env, depth: nat, parent: ParentMap, rank: map<Pos, nat>, explored: set<Pos>,
                             expanded: set<Pos>)
    requires SearchInv(env, depth, parent, rank, [], [], explored, expanded)
    requires |Universe(env)| <= depth
    ensures GoalUnreachable(env, env.start)
    ensures explored == parent.Keys == ReachSet(env, env.start)
  {
    ClosedGoalFree(env, explored, env.start);
    RecordsReach(env, parent, env.start, rank, explored);
  }

  /**
   The outer loop of a depth-limited search, until a goal is explored or the
   stack runs empty: the links and explored states only grow, and a found
   goal is the last explored state, recorded no deeper than the limit.
   */
  method Explore(env: Env, depth: nat, frontier: seq<Item>, ghost routes: seq<seq<Action>>, explored: set<Pos>,
                 p: ParentMap, ghost rank: map<Pos, nat>, ghost expanded: set<Pos>)
    returns (found: Option<Pos>, ghost route: seq<Action>, explored': set<Pos>, q: ParentMap, ghost rank': map<Pos, nat>,
             ghost expanded': set<Pos>)
    requires SearchInv(env, depth, p, rank, frontier, routes, explored, expanded)
    ensures LinksKept(p, q) && explored <= explored' && env.start in q
    ensures StackInv(env, q, rank', [], explored')
    ensures found.Some? ==>
      && IsGoal(env, found.value) && found.value in explored' && found.value in rank' && rank'[found.value] <= depth
      && |route| <= depth && Reaches(env, env.start, route, found.value)
    ensures found.None? ==> SearchInv(env, depth, q, rank', [], [], explored', expanded')
  {
    var frontier, routes := frontier, routes;
    explored', q, rank', expanded' := explored, p, rank, expanded;
    found, route := None, [];
    UniverseMembers(env);
    while frontier != []
      invariant SearchInv(env, depth, q, rank', frontier, routes, explored', expanded')
      invariant LinksKept(p, q) && explored <= explored' && found.None?
      decreases Universe(env) - explored', |frontier|
    {
      found, route, frontier, routes, explored', q, rank', expanded' := Step(env, depth, frontier, routes, explored', q,
                                                                          rank', expanded');
      if found.Some? {
        return;
      }
    }
  }

  /**
   A depth-limited search from a stack and explored set: a found goal is
   reached by the reconstructed path, within `depth` moves; the node count is
   the number of explored states `explored'`, all recorded and none beyond the
   states reachable from the start; with a limit of at least the number of
   recordable states, failure means no goal is reachable and every reachable
   state was explored.
   */
  method Drain(env: Env, depth: nat, frontier: seq<Item>, ghost routes: seq<seq<Action>>, explored: set<Pos>,
               p: ParentMap, ghost rank: map<Pos, nat>, ghost expanded: set<Pos>)
    returns (r: SearchResult, ghost parent: ParentMap, ghost route: seq<Action>, explored': set<Pos>)
    requires SearchInv(env, depth, p, rank, frontier, routes, explored, expanded)
    ensures env.start in parent && LinksKept(p, parent)
    ensures r.Found? ==> IsGoal(env, r.goal) && Reaches(env, env.start, r.actions, r.goal)
    ensures r.Found? ==> ReconstructPath(parent, r.goal, env.start) == Some(r.actions)
    ensures r.Found? ==> |route| <= depth && Reaches(env, env.start, route, r.goal)
    ensures r.Found? ==> |r.actions| <= depth
    ensures r.NotFound? && |Universe(env)| <= depth ==> GoalUnreachable(env, env.start)
    ensures parent.Keys <= ReachSet(env, env.start) && |explored| <= r.nodes <= |ReachSet(env, env.start)|
    ensures r.NotFound? && |Universe(env)| <= depth ==> r.nodes == |ReachSet(env, env.start)|
    ensures explored <= explored' <= parent.Keys && r.nodes == |explored'|
    ensures r.Found? ==> r.goal in explored'
    ensures r.NotFound? && |Universe(env)| <= depth ==> explored' == ReachSet(env, env.start)
  {
    var found, q;
    ghost var rank', expanded';
    found, route, explored', q, rank', expanded' := Explore(env, depth, frontier, routes, explored, p, rank, expanded);
    SubsetCard(explored, explored');
    RecordsWithinReach(env, q, env.start, rank');
    SubsetCard(explored', q.Keys);
    parent := q;
    if found.Some? {
      ReconstructReaches(env, q, env.start, rank', found.value);
      var actions := ReconstructPath(q, found.value, env.start).value;
      r := Found(actions, |explored'|, found.value);
    } else {
      if |Universe(env)| <= depth {
        ExhaustedUnreachable(env, depth, q, rank', explored', expanded');
      }
      r := NotFound(|explored'|);
    }
  }

  /**
   `depth_limited_search` from the environment's start with limit `depth`.
   The node count is the number of explored states `explored` (none when the
   start is a goal); a found goal is reached by the reconstructed path and lies within
   `depth` moves; with a limit of at least the number of recordable states,
   failure means no goal is reachable.
   */
  method DepthLimited(env: Env, depth: nat)
    returns (r: SearchResult, ghost parent: ParentMap, ghost route: seq<Action>, ghost explored: set<Pos>)
    ensures IsGoal(env, env.start) ==> r == Found([], 0, env.start) && explored == {}
    ensures explored <= parent.Keys && r.nodes == |explored|
    ensures r.Found? && !IsGoal(env, env.start) ==> r.goal in explored
    ensures r.NotFound? && |Universe(env)| <= depth ==> explored == ReachSet(env, env.start)
    ensures env.start in parent && parent[env.start] == Root
    ensures r.Found? ==> IsGoal(env, r.goal) && Reaches(env, env.start, r.actions, r.goal)
    ensures r.Found? ==> ReconstructPath(parent, r.goal, env.start) == Some(r.actions)
    ensures r.Found? ==> |route| <= depth && Reaches(env, env.start, route, r.goal)
    ensures r.Found? ==> |r.actions| <= depth
    ensures r.NotFound? && |Universe(env)| <= depth ==> GoalUnreachable(env, env.start)
    ensures parent.Keys <= ReachSet(env, env.start) && r.nodes <= |ReachSet(env, env.start)|
    ensures r.NotFound? && |Universe(env)| <= depth ==> r.nodes == |ReachSet(env, env.start)|
  {
    var start := env.start;
    var p: ParentMap := map[start := Root];
    var frontier: seq<Item> := [(start, 0)];
    var none: set<Pos> := {};
    ghost var rank: map<Pos, nat> := map[start := 0];
    ghost var routes: seq<seq<Action>> := [[]];
    parent, route, explored := p, [], none;
    if IsGoal(env, start) {
      r := Found([], |none|, start);
      RecordsWithinReach(env, p, start, rank);
    } else {
      assert Replay(start, []) == [start];
      assert Tops(frontier) == [start];
      var done;
      r, parent, route, done := Drain(env, depth, frontier, routes, none, p, rank, {});
      explored := done;
    }
  }

  /**
   `iterative_deepening_search`, with the unbounded `while True` cut at
   limit `maxDepth`: the first depth-limited search that finds a goal gives
   the result, `limit` being the limit it ran with (`maxDepth + 1` once
   every limit up to `maxDepth` failed, which `None` reports). From limit
   `|Universe(env)|` on, a depth-limited search fails only when no goal is
   reachable, so the source loops forever exactly when no goal is reachable.
   */
  method Search(env: Env, maxDepth: nat) returns (r: Option<SearchResult>, ghost parent: ParentMap, ghost limit: nat)
    ensures r.Some? ==> r.value.Found?
    ensures IsGoal(env, env.start) ==> r == Some(Found([], 0, env.start)) && limit == 0
    ensures r.Some? ==> IsGoal(env, r.value.goal) && Reaches(env, env.start, r.value.actions, r.value.goal)
    ensures r.Some? ==> ReconstructPath(parent, r.value.goal, env.start) == Some(r.value.actions)
    ensures r.Some? ==> limit <= maxDepth && |r.value.actions| <= limit
    ensures r.Some? ==> parent.Keys <= ReachSet(env, env.start) && r.value.nodes <= |ReachSet(env, env.start)|
    ensures r.None? ==> limit == maxDepth + 1
    ensures GoalUnreachable(env, env.start) ==> r.None?
    ensures maxDepth >= |Universe(env)| ==> (r.None? <==> GoalUnreachable(env, env.start))
  {
    var depth := 0;
    r, parent := None, map[];
    while depth <= maxDepth
      invariant depth <= maxDepth + 1
      invariant r.None?
      invariant depth > 0 ==> !IsGoal(env, env.start)
      invariant depth > |Universe(env)| ==> GoalUnreachable(env, env.start)
    {
      var res;
      ghost var p, route, seen;
      res, p, route, seen := DepthLimited(env, depth);
      if res.Found? {
        r, parent, limit := Some(res), p, depth;
        return;
      }
      depth := depth + 1;
    }
    limit := depth;
  }

  /** A one-cell grid whose only goal lies just outside it. */
  const Sealed := Env(1, 1, Pos(0, 0), {Pos(1, 0)}, {})

  /**
   No goal is reachable in `Sealed`, so by `Search`'s contract the source's
   unbounded loop, cut at any limit, has still not returned: it never does.
   */
  lemma SealedNeverAnswers()
    ensures GoalUnreachable(Sealed, Sealed.start)
    ensures !IsGoal(Sealed, Sealed.start)
  {
  }

  /**
   The search as its documentation describes it: limits 0, 1, 2, ... up to
   the number of recordable states, after which a failed depth-limited
   search is reported as failure with that search's node count, which is
   then every reachable state. `limit` is the limit of the last search run. A
   failure happens exactly when no goal is reachable.
   */
  method SearchComplete(env: Env) returns (r: SearchResult, ghost parent: ParentMap, ghost limit: nat)
    ensures IsGoal(env, env.start) ==> r == Found([], 0, env.start) && limit == 0
    ensures r.Found? ==> IsGoal(env, r.goal) && Reaches(env, env.start, r.actions, r.goal)
    ensures r.Found? ==> ReconstructPath(parent, r.goal, env.start) == Some(r.actions)
    ensures r.NotFound? <==> GoalUnreachable(env, env.start)
    ensures limit <= |Universe(env)| && (r.Found? ==> |r.actions| <= limit)
    ensures r.NotFound? ==> limit == |Universe(env)|
    ensures parent.Keys <= ReachSet(env, env.start) && r.nodes <= |ReachSet(env, env.start)|
    ensures r.NotFound? ==> r.nodes == |ReachSet(env, env.start)|
  {
    var depth := 0;
    var cap := |Universe(env)|;
    ghost var route, seen;
    r, parent, route, seen := DepthLimited(env, depth);
    while r.NotFound? && depth < cap
      invariant depth <= cap
      invariant r.Found? ==> IsGoal(env, r.goal) && Reaches(env, env.start, r.actions, r.goal)
      invariant r.Found? ==> ReconstructPath(parent, r.goal, env.start) == Some(r.actions)
      invariant r.Found? ==> |r.actions| <= depth
      invariant IsGoal(env, env.start) ==> r == Found([], 0, env.start) && depth == 0
      invariant r.NotFound? && depth >= cap ==> GoalUnreachable(env, env.start) && r.nodes == |ReachSet(env, env.start)|
      invariant parent.Keys <= ReachSet(env, env.start) && r.nodes <= |ReachSet(env, env.start)|
      decreases cap - depth
    {
      depth := depth + 1;
      r, parent, route, seen := DepthLimited(env, depth);
    }
    limit := depth;
    if r.Found? {
      assert Reaches(env, env.start, r.actions, r.goal);
      assert !GoalUnreachable(env, env.start);
    }
  }
}

=== FILE: multigoal.dfy ===
/**
 `multigoal_a_star`: visit every goal by chaining A* searches. Each leg
 searches from the last goal reached towards the goals not yet visited,
 appends the leg's actions to the tour, adds the leg's node count, and
 removes the goal it reached. The environment's start and goals are
 changed for each leg and restored afterwards; here the environment is a
 value, so each leg runs on an updated copy and the restore is implicit.
 */
module MultiGoal {
  import opened Grid
  import opened Paths
  import AStar

  /**
   What `multigoal_a_star` returns: the tour's actions, the node count and
   the last goal visited (`None` when there are no goals), or a failure with
   the node count.
   */
  datatype TourResult = Toured(actions: seq<Action>, nodes: nat, last: Option<Pos>) | Stuck(nodes: nat)

  /** The actions of the found legs, in order. */
  function Joined(legs: seq<SearchResult>): seq<Action> {
    if legs == [] then []
    else Joined(legs[..|legs| - 1]) + (if legs[|legs| - 1].Found? then legs[|legs| - 1].actions else [])
  }

  /** The node counts of the legs, summed. */
  function Summed(legs: seq<SearchResult>): nat {
    if legs == [] then 0 else Summed(legs[..|legs| - 1]) + legs[|legs| - 1].nodes
  }

  /** Appending a leg appends its actions and adds its node count. */
  lemma AppendLeg(legs: seq<SearchResult>, leg: SearchResult)
    ensures Joined(legs + [leg]) == Joined(legs) + (if leg.Found? then leg.actions else [])
    ensures Summed(legs + [leg]) == Summed(legs) + leg.nodes
  {
    assert (legs + [leg])[..|legs|] == legs;
  }

  /** Where leg `i` starts: the start for the first leg, else the goal the leg before reached. */
  function Stop(env: Env, legs: seq<SearchResult>, i: nat): Pos
    requires i <= |legs| && (i > 0 ==> legs[i - 1].Found?)
  {
    if i == 0 then env.start else legs[i - 1].goal
  }

  /**
   A successful A* leg from `from`: it ends on a goal other than the start,
   its actions lead there, and it counts at least one and at most as many
   nodes as there are states reachable from `from`.
   */
  ghost predicate LegOk(env: Env, from: Pos, leg: SearchResult) {
    && leg.Found? && leg.goal in env.goal && leg.goal != env.start
    && Reaches(env, from, leg.actions, leg.goal)
    && 1 <= leg.nodes <= |ReachSet(env, from)|
  }

  /**
   The legs so far form a chain of successful A* runs: the first from the
   start, each later one from the goal the previous one reached, each ending
   on a goal not reached before.
   */
  ghost predicate Chain(env: Env, legs: seq<SearchResult>) {
    && (forall i :: 0 <= i < |legs| ==> legs[i].Found?)
    && (forall i :: 0 <= i < |legs| ==> LegOk(env, Stop(env, legs, i), legs[i]))
    && (forall i, j :: 0 <= j < i < |legs| ==> legs[j].goal != legs[i].goal)
  }

  /** Appending a found leg from the last stop to a goal not reached before keeps the chain. */
  lemma ChainPush(env: Env, legs: seq<SearchResult>, leg: SearchResult)
    requires Chain(env, legs) && LegOk(env, Stop(env, legs, |legs|), leg) && leg.goal !in LegGoals(legs)
    ensures Chain(env, legs + [leg])
  {
    var l := legs + [leg];
    forall k | 0 <= k < |l| ensures l[k].Found? {
      if k < |legs| { assert l[k] == legs[k]; }
    }
    forall i | 0 <= i < |l| ensures LegOk(env, Stop(env, l, i), l[i]) {
      if i < |legs| {
        assert l[i] == legs[i] && Stop(env, l, i) == Stop(env, legs, i);
      } else {
        assert Stop(env, l, i) == Stop(env, legs, |legs|);
      }
    }
    forall i, j | 0 <= j < i < |l| ensures l[j].goal != l[i].goal {
      if i == |legs| { assert l[j] == legs[j]; assert legs[j].goal in LegGoals(legs); }
    }
  }

  /** The goals the legs reached. */
  ghost function LegGoals(legs: seq<SearchResult>): set<Pos> {
    set i | 0 <= i < |legs| && legs[i].Found? :: legs[i].goal
  }

  /** A found leg adds the goal it reached. */
  lemma AppendLegGoal(legs: seq<SearchResult>, leg: SearchResult)
    requires leg.Found?
    ensures LegGoals(legs + [leg]) == LegGoals(legs) + {leg.goal}
  {
    var l := legs + [leg];
    assert l[|legs|].goal == leg.goal;
    forall x | x in LegGoals(legs) ensures x in LegGoals(l) {
      var i :| 0 <= i < |legs| && legs[i].Found? && legs[i].goal == x;
      assert l[i] == legs[i];
    }
  }

  /** A path in an environment with another start and other goals is a path in the original: only walls and bounds matter. */
  lemma RetargetReaches(env: Env, start: Pos, goals: set<Pos>, s: Pos, acts: seq<Action>, t: Pos)
    requires Reaches(env.(start := start, goal := goals), s, acts, t)
    ensures Reaches(env, s, acts, t)
  {
    forall i | 1 <= i <= |acts| ensures Open(env, Replay(s, acts)[i]) {
      RetargetGoals(env.(start := start), goals, Replay(s, acts)[i]);
    }
  }

  /**
   The facts the tour loop keeps: the unvisited goals are goals, the tour so
   far leads from the start to `current`, every visited goal lies on it, and
   `current` is not among the unvisited goals.
   */
  ghost predicate TourInv(env: Env, current: Pos, unvisited: set<Pos>, actions: seq<Action>) {
    && unvisited <= env.goal
    && Reaches(env, env.start, actions, current)
    && (forall x :: x in env.goal && x !in unvisited ==> x in Replay(env.start, actions))
    && current !in unvisited
  }

  /** Appending a leg that reaches a goal keeps the tour facts, with that goal visited. */
  lemma LegKeepsTour(env: Env, current: Pos, unvisited: set<Pos>, actions: seq<Action>, leg: seq<Action>, goal: Pos)
    requires TourInv(env, current, unvisited, actions)
    requires goal in unvisited && Reaches(env, current, leg, goal)
    ensures TourInv(env, goal, unvisited - {goal}, actions + leg)
  {
    ReachesConcat(env, env.start, actions, current, leg, goal);
    var st := Replay(env.start, actions + leg);
    assert goal == st[|actions + leg|];
  }

  /**
   Everything the tour loop keeps, over the original environment: the tour
   facts, the last goal visited being the current point, the legs forming a
   chain whose actions and node counts make up the tour so far, and the
   unvisited goals being exactly those neither the start nor reached by a leg.
   */
  ghost predicate Touring(env: Env, current: Pos, unvisited: set<Pos>, actions: seq<Action>, total: nat,
                          lastVisited: Option<Pos>, legs: seq<SearchResult>)
  {
    && TourInv(env, current, unvisited, actions)
    && (lastVisited.Some? ==> lastVisited.value == current && current in env.goal)
    && (unvisited != env.goal ==> lastVisited.Some?)
    && Chain(env, legs) && actions == Joined(legs) && total == Summed(legs)
    && current == (if legs == [] then env.start else legs[|legs| - 1].goal)
    && unvisited == env.goal - {env.start} - LegGoals(legs)
  }

  /** A found leg from `current` to an unvisited goal keeps the loop facts, with that goal visited. */
  lemma FoundLeg(env: Env, current: Pos, unvisited: set<Pos>, actions: seq<Action>, total: nat,
                 lastVisited: Option<Pos>, legs: seq<SearchResult>, leg: SearchResult)
    requires Touring(env, current, unvisited, actions, total, lastVisited, legs)
    requires leg.Found? && leg.goal in unvisited && Reaches(env, current, leg.actions, leg.goal)
    requires 1 <= leg.nodes <= |ReachSet(env, current)|
    ensures Touring(env, leg.goal, unvisited - {leg.goal}, actions + leg.actions, total + leg.nodes,
                    Some(leg.goal), legs + [leg])
  {
    LegKeepsTour(env, current, unvisited, actions, leg.actions, leg.goal);
    AppendLeg(legs, leg);
    AppendLegGoal(legs, leg);
    ChainPush(env, legs, leg);
  }

  /**
   One leg of the tour: an A* search from `current` towards the unvisited
   goals. On success the leg's goal is visited and the loop facts hold again
   with one goal fewer; on failure nothing but the legs and the node count
   changes, and no unvisited goal is reachable from `current`.
   */
  method NextLeg(env: Env, current: Pos, unvisited: set<Pos>, actions: seq<Action>, total: nat,
                 lastVisited: Option<Pos>, ghost legs: seq<SearchResult>)
    returns (found: bool, current': Pos, unvisited': set<Pos>, actions': seq<Action>, total': nat,
             lastVisited': Option<Pos>, ghost legs': seq<SearchResult>)
    requires Touring(env, current, unvisited, actions, total, lastVisited, legs) && unvisited != {}
    ensures found ==> Touring(env, current', unvisited', actions', total', lastVisited', legs')
    ensures found ==> |unvisited'| < |unvisited|
    ensures !found ==>
      && current' == current && unvisited' == unvisited && actions' == actions && lastVisited' == lastVisited
      && |legs'| == |legs| + 1 && legs'[..|legs|] == legs && legs'[|legs|].NotFound?
      && total' == Summed(legs')
      && GoalUnreachable(env.(start := current, goal := unvisited), current)
      && legs'[|legs|].nodes == |ReachSet(env, current)|
  {
    var leg;
    ghost var parent;
    leg, parent := AStar.Search(env.(start := current, goal := unvisited), None);
    ReachSetIgnoresTargets(env, current, unvisited, current);
    total' := total + leg.nodes;
    legs' := legs + [leg];
    if leg.NotFound? {
      AppendLeg(legs, leg);
      found, current', unvisited', actions', lastVisited' := false, current, unvisited, actions, lastVisited;
      return;
    }
    RetargetReaches(env, current, unvisited, current, leg.actions, leg.goal);
    if leg.goal !in unvisited {
      // A* only reports a goal of the environment it searched.
      assert false;
    }
    FoundLeg(env, current, unvisited, actions, total, lastVisited, legs, leg);
    found := true;
    actions' := actions + leg.actions;
    lastVisited' := Some(leg.goal);
    unvisited' := unvisited - {leg.goal};
    current' := leg.goal;
  }

  /** A completed tour with at least one leg: the legs' chain, joined, visits every goal. */
  ghost predicate Completed(env: Env, r: TourResult, legs: seq<SearchResult>) {
    && r.Toured? && r.last.Some? && r.last.value in env.goal
    && Reaches(env, env.start, r.actions, r.last.value)
    && (forall x :: x in env.goal ==> x in Replay(env.start, r.actions))
    && legs != [] && Chain(env, legs) && r.actions == Joined(legs) && r.nodes == Summed(legs)
    && env.goal == LegGoals(legs) + (env.goal * {env.start})
  }

  /** A failed tour: the legs before the failing one, joined, lead to `at`, from which no `remaining` goal is reachable. */
  ghost predicate StuckAt(env: Env, r: TourResult, at: Pos, route: seq<Action>, remaining: set<Pos>, legs: seq<SearchResult>) {
    && r.Stuck? && remaining != {} && remaining <= env.goal
    && Reaches(env, env.start, route, at)
    && (forall x :: x in env.goal && x !in remaining ==> x in Replay(env.start, route))
    && GoalUnreachable(env.(start := at, goal := remaining), at)
    && legs != [] && legs[|legs| - 1].NotFound? && Chain(env, legs[..|legs| - 1])
    && legs[|legs| - 1].nodes == |ReachSet(env, at)|
    && r.nodes == Summed(legs) && route == Joined(legs[..|legs| - 1])
  }

  /** With no goal left unvisited and at least one leg run, the tour is complete. */
  lemma FinishTour(env: Env, current: Pos, actions: seq<Action>, total: nat, lastVisited: Option<Pos>,
                   legs: seq<SearchResult>, some: set<Pos>)
    requires Touring(env, current, {}, actions, total, lastVisited, legs)
    requires some <= LegGoals(legs) && some != {}
    ensures Completed(env, Toured(actions, total, lastVisited), legs)
  {
    assert env.goal == LegGoals(legs) + (env.goal * {env.start});
  }

  /** A leg that finds nothing ends the tour as a failure at the current point. */
  lemma StuckTour(env: Env, current: Pos, unvisited: set<Pos>, actions: seq<Action>, total: nat,
                  lastVisited: Option<Pos>, legs: seq<SearchResult>, total': nat, legs': seq<SearchResult>)
    requires Touring(env, current, unvisited, actions, total, lastVisited, legs) && unvisited != {}
    requires |legs'| == |legs| + 1 && legs'[..|legs|] == legs && legs'[|legs|].NotFound?
    requires total' == Summed(legs')
    requires GoalUnreachable(env.(start := current, goal := unvisited), current)
    requires legs'[|legs|].nodes == |ReachSet(env, current)|
    ensures StuckAt(env, Stuck(total'), current, actions, unvisited, legs')
  {
  }

  /** The tour loop: legs until every goal is visited or a leg finds nothing. */
  method Visit(env: Env, current: Pos, unvisited: set<Pos>, actions: seq<Action>, total: nat,
               lastVisited: Option<Pos>, ghost legs: seq<SearchResult>)
    returns (r: TourResult, ghost at: Pos, ghost route: seq<Action>, ghost remaining: set<Pos>,
             ghost legs': seq<SearchResult>)
    requires Touring(env, current, unvisited, actions, total, lastVisited, legs) && unvisited != {}
    ensures Completed(env, r, legs') || StuckAt(env, r, at, route, remaining, legs')
    ensures r.Toured? ==> r.last.Some? && r.last.value in env.goal && Reaches(env, env.start, r.actions, r.last.value)
    ensures r.Toured? ==> forall x :: x in env.goal ==> x in Replay(env.start, r.actions)
  {
    var current, unvisited, actions, total, lastVisited := current, unvisited, actions, total, lastVisited;
    legs' := legs;
    at, route, remaining := current, actions, unvisited;
    ghost var some := unvisited;
    while unvisited != {}
      invariant Touring(env, current, unvisited, actions, total, lastVisited, legs')
      invariant some <= LegGoals(legs') + unvisited && some != {}
      decreases |unvisited|
    {
      var found, current', unvisited', actions', total', lastVisited';
      ghost var legs'';
      found, current', unvisited', actions', total', lastVisited', legs'' :=
        NextLeg(env, current, unvisited, actions, total, lastVisited, legs');
      if !found {
        StuckTour(env, current, unvisited, actions, total, lastVisited, legs', total', legs'');
        r, at, route, remaining, legs' := Stuck(total'), current, actions, unvisited, legs'';
        return;
      }
      current, unvisited, actions, total, lastVisited, legs' := current', unvisited', actions', total', lastVisited', legs'';
    }
    FinishTour(env, current, actions, total, lastVisited, legs', some);
    r := Toured(actions, total, lastVisited);
  }

  /**
   `multigoal_a_star`. Without goals the result is an empty tour of one node
   and no last goal; when the start is the only goal, an empty tour ending
   there. A completed tour is a path from the start through every goal,
   ending at the last goal visited. A failure names a point the tour reached
   (`at`, by `route`) from which none of the `remaining` goals, all goals not
   yet on the route, is reachable.

   `legs` are the A* results in order. A completed tour with goals is the
   chain of found legs, its actions theirs joined, its node count their sum
   (one node when no leg was needed), and each goal is the start or reached
   by exactly one leg. A failure's last leg is the one that found nothing, the
   legs before it form a chain, and the node count includes all of them.
   */
  method Tour(env: Env) returns (r: TourResult, ghost at: Pos, ghost route: seq<Action>, ghost remaining: set<Pos>,
                                 ghost legs: seq<SearchResult>)
    ensures env.goal == {} ==> r == Toured([], 1, None)
    ensures env.goal == {env.start} ==> r == Toured([], 1, Some(env.start))
    ensures r.Toured? && env.goal != {} ==>
      r.last.Some? && r.last.value in env.goal && Reaches(env, env.start, r.actions, r.last.value)
    ensures r.Toured? ==> forall x :: x in env.goal ==> x in Replay(env.start, r.actions)
    ensures r.Stuck? ==>
      && remaining != {} && remaining <= env.goal
      && Reaches(env, env.start, route, at)
      && (forall x :: x in env.goal && x !in remaining ==> x in Replay(env.start, route))
      && GoalUnreachable(env.(start := at, goal := remaining), at)
    ensures r.Toured? && env.goal != {} ==>
      && Chain(env, legs) && r.actions == Joined(legs)
      && r.nodes == (if legs == [] then 1 else Summed(legs))
      && env.goal == LegGoals(legs) + (env.goal * {env.start})
    ensures r.Stuck? ==>
      && legs != [] && legs[|legs| - 1].NotFound? && Chain(env, legs[..|legs| - 1])
      && legs[|legs| - 1].nodes == |ReachSet(env, at)|
      && r.nodes == Summed(legs) && route == Joined(legs[..|legs| - 1])
  {
    var originalStart, originalGoals := env.start, env.goal;
    at, route, remaining, legs := originalStart, [], originalGoals, [];
    if originalGoals == {} {
      r := Toured([], 1, None);
    } else {
      var current := originalStart;
      var unvisited := originalGoals;
      var actions: seq<Action> := [];
      var total: nat := 0;
      var lastVisited: Option<Pos> := None;
      assert Replay(originalStart, []) == [originalStart];
      if current in unvisited {
        lastVisited := Some(current);
        unvisited := unvisited - {current};
      }
      if unvisited == {} {
        assert originalGoals == {current};
        r := Toured([], 1, Some(current));
      } else {
        r, at, route, remaining, legs := Visit(env, current, unvisited, actions, total, lastVisited, legs);
      }
    }
  }
}

=== FILE: paths.dfy ===
/**
 Paths on the grid: action sequences and the states they visit (the replay
 done by `print_path`), parent-link maps and the reconstruction of an
 action sequence from them (`_reconstruct_path`), and the reachability
 notions the search strategies' contracts are stated in.
 */
module Paths {
  import opened Grid

  datatype Option<T> = None | Some(value: T)

  /** A parent-map entry: `(None, None)` for the start, otherwise the predecessor and the action taken from it. */
  datatype Link = Root | Via(prev: Pos, action: Action)

  type ParentMap = map<Pos, Link>

  /** What a single-goal strategy returns: `(actions, nodes, goal)` or `(None, nodes, None)`. */
  datatype SearchResult = Found(actions: seq<Action>, nodes: nat, goal: Pos) | NotFound(nodes: nat)

  /** The states visited when `acts` is replayed from `s`, the start included. */
  function Replay(s: Pos, acts: seq<Action>): (states: seq<Pos>)
    ensures |states| == |acts| + 1 && states[0] == s
    ensures forall i :: 0 <= i < |acts| ==> states[i + 1] == Move(states[i], acts[i])
    decreases |acts|
  {
    if acts == [] then [s]
    else
      var prev := Replay(s, acts[..|acts| - 1]);
      prev + [Move(prev[|prev| - 1], acts[|acts| - 1])]
  }

  /** The state reached by replaying `acts` from `s`. */
  function End(s: Pos, acts: seq<Action>): Pos {
    Replay(s, acts)[|acts|]
  }

  /** Every move of `acts` from `s` enters an open cell. */
  ghost predicate IsPath(env: Env, s: Pos, acts: seq<Action>) {
    forall i :: 1 <= i <= |acts| ==> Open(env, Replay(s, acts)[i])
  }

  ghost predicate Reaches(env: Env, s: Pos, acts: seq<Action>, t: Pos) {
    IsPath(env, s, acts) && End(s, acts) == t
  }

  /** A sequence that starts at `s` and follows `acts` one unit move at a time is the replay of `acts`. */
  lemma ReplayCharacterized(s: Pos, acts: seq<Action>, st: seq<Pos>)
    requires |st| == |acts| + 1 && st[0] == s
    requires forall i :: 0 <= i < |acts| ==> st[i + 1] == Move(st[i], acts[i])
    ensures st == Replay(s, acts)
  {
    var r := Replay(s, acts);
    var k := 0;
    while k < |st|
      invariant 0 <= k <= |st|
      invariant forall j :: 0 <= j < k ==> st[j] == r[j]
    {
      if k > 0 {
        assert st[k] == Move(st[k - 1], acts[k - 1]);
      }
      k := k + 1;
    }
  }

  /** Replaying a concatenation replays the first part, then the second from where the first ended. */
  lemma ReplayConcat(s: Pos, a: seq<Action>, b: seq<Action>)
    ensures Replay(s, a + b) == Replay(s, a) + Replay(End(s, a), b)[1..]
  {
    var ra := Replay(s, a);
    var rb := Replay(End(s, a), b);
    var st := ra + rb[1..];
    forall i | 0 <= i < |a + b|
      ensures st[i + 1] == Move(st[i], (a + b)[i])
    {
      if i >= |a| {
        assert st[i] == rb[i - |a|];
        assert st[i + 1] == rb[i - |a| + 1];
      }
    }
    ReplayCharacterized(s, a + b, st);
  }

  /** Paths compose: a path from `s` to `t` followed by one from `t` to `u` is a path from `s` to `u` through every state of both. */
  lemma ReachesConcat(env: Env, s: Pos, a: seq<Action>, t: Pos, b: seq<Action>, u: Pos)
    requires Reaches(env, s, a, t) && Reaches(env, t, b, u)
    ensures Reaches(env, s, a + b, u)
    ensures forall x :: x in Replay(s, a) ==> x in Replay(s, a + b)
    ensures forall x :: x in Replay(t, b) ==> x in Replay(s, a + b)
  {
    ReplayConcat(s, a, b);
    var st := Replay(s, a + b);
    var ra := Replay(s, a);
    var rb := Replay(t, b);
    forall i | 1 <= i <= |a + b| ensures Open(env, st[i]) {
      if i <= |a| {
        assert st[i] == ra[i];
      } else {
        assert st[i] == rb[i - |a|];
      }
    }
    forall x | x in rb ensures x in st {
      var j :| 0 <= j < |rb| && rb[j] == x;
      assert st[|a| + j] == x;
    }
  }

  /**
   The replay done by `print_path`: no actions or no start gives no states;
   otherwise the start followed by the cell after each move.
   */
  method PrintPath(actions: Option<seq<Action>>, start: Option<Pos>) returns (states: seq<Pos>)
    ensures actions.None? || start.None? ==> states == []
    ensures actions.Some? && start.Some? ==> |states| == |actions.value| + 1
    ensures actions.Some? && start.Some? ==> states == Replay(start.value, actions.value)
  {
    if actions.None? {
      return [];
    }
    if actions.value == [] && start.Some? {
      return [start.value];
    }
    if start.None? {
      return [];
    }
    var s := start.value;
    var acts := actions.value;
    states := [s];
    var current := s;
    var i := 0;
    while i < |acts|
      invariant 0 <= i <= |acts|
      invariant states == Replay(s, acts[..i])
      invariant current == states[i]
    {
      assert acts[..i + 1][..i] == acts[..i];
      current := Move(current, acts[i]);
      states := states + [current];
      i := i + 1;
    }
    assert acts[..i] == acts;
  }

  /**
   The parent-chain walk of `_reconstruct_path`, collecting actions start-to-goal.
   `seen` holds the states already walked through: the source loops forever on a
   cycle, the model answers None there.
   */
  function Walk(parent: ParentMap, current: Pos, start: Pos, seen: set<Pos>): Option<seq<Action>>
    decreases parent.Keys - seen
  {
    if current == start then Some([])
    else if current !in parent || current in seen then None
    else
      match parent[current]
      case Root => None
      case Via(p, a) =>
        match Walk(parent, p, start, seen + {current})
        case None => None
        case Some(acts) => Some(acts + [a])
  }

  /** `_reconstruct_path(parent, goal, start)`. */
  function ReconstructPath(parent: ParentMap, goal: Pos, start: Pos): Option<seq<Action>> {
    if goal == start then Some([])
    else if goal !in parent then None
    else Walk(parent, goal, start, {})
  }

  /** `st` is a chain of parent links from `start` whose i-th link is labelled `acts[i]`. */
  ghost predicate LinkedChain(parent: ParentMap, start: Pos, acts: seq<Action>, st: seq<Pos>) {
    && |st| == |acts| + 1
    && st[0] == start
    && forall i :: 0 <= i < |acts| ==> LinkAt(parent, acts, st, i)
  }

  /** The parent entry of `st[i + 1]` is the link from `st[i]` by `acts[i]`. */
  ghost predicate LinkAt(parent: ParentMap, acts: seq<Action>, st: seq<Pos>, i: nat)
    requires i < |acts| && |st| == |acts| + 1
  {
    st[i + 1] in parent && parent[st[i + 1]] == Via(st[i], acts[i])
  }

  lemma {:induction false} WalkFollowsLinks(parent: ParentMap, x: Pos, start: Pos, seen: set<Pos>)
    requires Walk(parent, x, start, seen).Some?
    ensures var acts := Walk(parent, x, start, seen).value;
      exists st :: LinkedChain(parent, start, acts, st) && st[|acts|] == x
    decreases parent.Keys - seen
  {
    var acts := Walk(parent, x, start, seen).value;
    if x == start {
      assert LinkedChain(parent, start, acts, [start]);
    } else {
      var p, a := parent[x].prev, parent[x].action;
      WalkFollowsLinks(parent, p, start, seen + {x});
      var prior := Walk(parent, p, start, seen + {x}).value;
      var st' :| LinkedChain(parent, start, prior, st') && st'[|prior|] == p;
      var st := st' + [x];
      assert acts == prior + [a];
      forall i | 0 <= i < |acts| ensures LinkAt(parent, acts, st, i) {
        if i < |prior| {
          assert LinkAt(parent, prior, st', i);
        }
      }
      assert LinkedChain(parent, start, acts, st);
    }
  }

  /**
   `_reconstruct_path` returns [] when goal == start, None when the goal is
   another state without a parent entry, and otherwise the actions labelling a
   chain of parent links from the start to the goal, in start-to-goal order.
   */
  lemma ReconstructPathSpec(parent: ParentMap, goal: Pos, start: Pos)
    ensures goal == start ==> ReconstructPath(parent, goal, start) == Some([])
    ensures goal != start && goal !in parent ==> ReconstructPath(parent, goal, start) == None
    ensures var r := ReconstructPath(parent, goal, start);
      r.Some? ==> exists st :: LinkedChain(parent, start, r.value, st) && st[|r.value|] == goal
  {
    var r := ReconstructPath(parent, goal, start);
    if goal == start {
      assert LinkedChain(parent, start, [], [start]);
    } else if r.Some? {
      WalkFollowsLinks(parent, goal, start, {});
    }
  }

  /**
   The invariant every strategy keeps on its parent map: the start has an
   entry, and every other entry is a unit move into an open cell from a
   recorded predecessor of strictly smaller rank (so chains end at the start).
   */
  ghost predicate Ranked(env: Env, parent: ParentMap, start: Pos, rank: map<Pos, nat>) {
    && start in parent
    && parent.Keys <= rank.Keys
    && forall x {:trigger parent[x]} | x in parent && x != start ::
         && parent[x].Via?
         && parent[x].prev in parent
         && rank[parent[x].prev] < rank[x]
         && Move(parent[x].prev, parent[x].action) == x
         && Open(env, x)
  }

  lemma {:induction false} WalkReaches(env: Env, parent: ParentMap, start: Pos, rank: map<Pos, nat>, x: Pos, seen: set<Pos>)
    requires Ranked(env, parent, start, rank)
    requires x in parent
    requires forall y | y in seen :: y in rank && rank[y] > rank[x]
    ensures Walk(parent, x, start, seen).Some?
    ensures Reaches(env, start, Walk(parent, x, start, seen).value, x)
    ensures |Walk(parent, x, start, seen).value| <= rank[x]
    decreases parent.Keys - seen
  {
    if x != start {
      var p, a := parent[x].prev, parent[x].action;
      WalkReaches(env, parent, start, rank, p, seen + {x});
      var prior := Walk(parent, p, start, seen + {x}).value;
      var acts := prior + [a];
      assert Walk(parent, x, start, seen) == Some(acts);
      assert acts[..|acts| - 1] == prior;
      var st := Replay(start, acts);
      assert st == Replay(start, prior) + [x];
      forall i | 1 <= i <= |acts| ensures Open(env, st[i]) {
        if i < |acts| {
          assert st[i] == Replay(start, prior)[i];
        }
      }
    }
  }

  /**
   On a ranked parent map, reconstructing the path to any recorded state
   succeeds, the path reaches that state, and it has no more moves than the
   state's rank.
   */
  lemma ReconstructReaches(env: Env, parent: ParentMap, start: Pos, rank: map<Pos, nat>, goal: Pos)
    requires Ranked(env, parent, start, rank)
    requires goal in parent
    ensures ReconstructPath(parent, goal, start).Some?
    ensures Reaches(env, start, ReconstructPath(parent, goal, start).value, goal)
    ensures |ReconstructPath(parent, goal, start).value| <= rank[goal]
  {
    if goal != start {
      WalkReaches(env, parent, start, rank, goal, {});
    }
  }

  /**
   Round trip: on a ranked parent map, reconstructing the path to any recorded
   state succeeds, and replaying the actions from the start visits
   `|actions| + 1` states, each a valid successor of the one before, ending at
   that state.
   */
  lemma ReconstructRoundTrip(env: Env, parent: ParentMap, start: Pos, rank: map<Pos, nat>, goal: Pos)
    requires Ranked(env, parent, start, rank)
    requires goal in parent
    ensures ReconstructPath(parent, goal, start).Some?
    ensures var acts := ReconstructPath(parent, goal, start).value;
      && Reaches(env, start, acts, goal)
      && |Replay(start, acts)| == |acts| + 1
      && forall i :: 0 <= i < |acts| ==>
           (Replay(start, acts)[i + 1], acts[i]) in Successors(env, Replay(start, acts)[i])
  {
    ReconstructReaches(env, parent, start, rank, goal);
    var acts := ReconstructPath(parent, goal, start).value;
    var st := Replay(start, acts);
    forall i | 0 <= i < |acts| ensures (st[i + 1], acts[i]) in Successors(env, st[i]) {
      assert Open(env, st[i + 1]);
      SuccessorsComplete(env, st[i]);
    }
  }

  /**
   Linking `Move(current, action)` to `current` keeps a parent map ranked, as
   long as no recorded link passes through that state.
   */
  lemma RelinkRanked(env: Env, parent: ParentMap, start: Pos, rank: map<Pos, nat>, current: Pos, action: Action)
    requires Ranked(env, parent, start, rank)
    requires current in parent && Open(env, Move(current, action))
    requires forall y | y in parent && y != start :: parent[y].Via? && parent[y].prev != Move(current, action)
    ensures var next := Move(current, action);
      Ranked(env, parent[next := Via(current, action)], start, rank[next := rank[current] + 1])
  {
    var next := Move(current, action);
    var parent', rank' := parent[next := Via(current, action)], rank[next := rank[current] + 1];
    forall x | x in parent' && x != start
      ensures parent'[x].Via? && parent'[x].prev in parent' && rank'[parent'[x].prev] < rank'[x]
      ensures Move(parent'[x].prev, parent'[x].action) == x && Open(env, x)
    {
      if x != next {
        assert parent'[x] == parent[x];
      }
    }
  }

  /** Relinking the start itself keeps a parent map ranked: the start's own entry is never followed. */
  lemma RelinkStartRanked(env: Env, parent: ParentMap, start: Pos, rank: map<Pos, nat>, current: Pos, action: Action)
    requires Ranked(env, parent, start, rank)
    requires Move(current, action) == start
    ensures Ranked(env, parent[start := Via(current, action)], start, rank)
  {
    var parent' := parent[start := Via(current, action)];
    forall x | x in parent' && x != start
      ensures parent'[x] == parent[x]
    {
    }
  }

  /** Successor lists as `get_valid_successors` returns them: unit moves from `s` into open cells, no state twice. */
  ghost predicate SuccessorList(env: Env, s: Pos, succs: seq<(Pos, Action)>) {
    && (forall k :: 0 <= k < |succs| ==> succs[k].0 == Move(s, succs[k].1) && Open(env, succs[k].0))
    && (forall a, b :: 0 <= a < b < |succs| ==> succs[a].0 != succs[b].0)
  }

  /** The states listed in a successor list. */
  function Targets(succs: seq<(Pos, Action)>): set<Pos> {
    set e | e in succs :: e.0
  }

  /** Splitting a successor list at `i` splits its states. */
  lemma TargetsSplit(succs: seq<(Pos, Action)>, i: nat)
    requires i < |succs|
    ensures Targets(succs[..i + 1]) == Targets(succs[..i]) + {succs[i].0}
    ensures Targets(succs[i..]) == {succs[i].0} + Targets(succs[i + 1..])
    ensures succs[i..][1..] == succs[i + 1..] && succs[..i + 1][..i] == succs[..i]
  {
    assert succs[..i + 1] == succs[..i] + [succs[i]];
    assert succs[i..] == [succs[i]] + succs[i + 1..];
  }

  /** In a list without repeated states, a successor is not among the earlier ones, nor among the later ones. */
  lemma NotEarlier(succs: seq<(Pos, Action)>, i: nat)
    requires i < |succs|
    requires forall a, b :: 0 <= a < b < |succs| ==> succs[a].0 != succs[b].0
    ensures succs[i].0 !in Targets(succs[..i])
    ensures succs[i].0 !in Targets(succs[i + 1..])
  {
    forall e | e in succs[..i] ensures e.0 != succs[i].0 {
      var k :| 0 <= k < i && succs[k] == e;
    }
    forall e | e in succs[i + 1..] ensures e.0 != succs[i].0 {
      var k :| 0 <= k < |succs| - i - 1 && succs[i + 1..][k] == e;
      assert succs[i + 1 + k] == e;
    }
  }

  /** Every listed successor from index `i` on that was not explored is linked back to `current`. */
  ghost predicate LinkedFrom(parent: ParentMap, current: Pos, succs: seq<(Pos, Action)>, explored: set<Pos>, i: nat) {
    forall k :: i <= k < |succs| && succs[k].0 !in explored ==>
      succs[k].0 in parent && parent[succs[k].0] == Via(current, succs[k].1)
  }

  /** `Successors` is such a list. */
  lemma SuccessorsListed(env: Env, s: Pos)
    ensures SuccessorList(env, s, Successors(env, s))
  {
    SuccessorsDistinct(env, s);
  }

  /** A stack entry of the depth-first strategies: a state and the number of moves (or the path cost) that reached it. */
  type Item = (Pos, nat)

  /** The states on the stack, bottom first. */
  function Tops(frontier: seq<Item>): seq<Pos>
  {
    seq(|frontier|, i requires 0 <= i < |frontier| => frontier[i].0)
  }

  /** The states on the stack after a push are the earlier ones and the pushed one. */
  lemma TopsPush(frontier: seq<Item>, e: Item)
    ensures Tops(frontier + [e]) == Tops(frontier) + [e.0]
  {
    var f := frontier + [e];
    assert forall i :: 0 <= i < |frontier| ==> Tops(f)[i] == (Tops(frontier) + [e.0])[i];
  }

  /** The stack states before a pop are those after it and the popped one. */
  lemma TopsPop(before: seq<Item>)
    requires before != []
    ensures Tops(before) == Tops(before[..|before| - 1]) + [before[|before| - 1].0]
  {
    assert before == before[..|before| - 1] + [before[|before| - 1]];
    TopsPush(before[..|before| - 1], before[|before| - 1]);
  }

  /** A set no move leaves: every open neighbour of a member is a member. */
  ghost predicate Closed(env: Env, S: set<Pos>) {
    forall x, a :: x in S && Open(env, Move(x, a)) ==> Move(x, a) in S
  }

  /** No path from `s` ends on a goal. */
  ghost predicate GoalUnreachable(env: Env, s: Pos) {
    forall acts :: IsPath(env, s, acts) ==> !IsGoal(env, End(s, acts))
  }

  lemma {:induction false} ClosedTrapsPaths(env: Env, S: set<Pos>, s: Pos, acts: seq<Action>)
    requires Closed(env, S) && s in S && IsPath(env, s, acts)
    ensures End(s, acts) in S
    decreases |acts|
  {
    if acts != [] {
      var init := acts[..|acts| - 1];
      assert Replay(s, acts) == Replay(s, init) + [End(s, acts)];
      assert IsPath(env, s, init) by {
        forall i | 1 <= i <= |init| ensures Open(env, Replay(s, init)[i]) {
          assert Replay(s, init)[i] == Replay(s, acts)[i];
        }
      }
      ClosedTrapsPaths(env, S, s, init);
      assert End(s, acts) == Move(End(s, init), acts[|acts| - 1]);
      assert Open(env, Replay(s, acts)[|acts|]);
    }
  }

  /** A closed set holding the start and no goal shows that no goal is reachable. */
  lemma ClosedGoalFree(env: Env, S: set<Pos>, s: Pos)
    requires Closed(env, S) && s in S
    requires forall x | x in S :: !IsGoal(env, x)
    ensures GoalUnreachable(env, s)
  {
    forall acts | IsPath(env, s, acts) ensures !IsGoal(env, End(s, acts)) {
      ClosedTrapsPaths(env, S, s, acts);
    }
  }

  /** Some path from `s` ends at `t`. */
  ghost predicate Reachable(env: Env, s: Pos, t: Pos) {
    exists acts :: Reaches(env, s, acts, t)
  }

  /** The states reachable from `s`: `s` itself and every open cell a path from `s` ends on. */
  ghost function ReachSet(env: Env, s: Pos): set<Pos> {
    set t | t in Cells(env) + {s} && Reachable(env, s, t)
  }

  /** A state is in `ReachSet` exactly when it is reachable. */
  lemma ReachSetMembers(env: Env, s: Pos)
    ensures forall t :: t in ReachSet(env, s) <==> Reachable(env, s, t)
  {
    assert Reaches(env, s, [], s);
    forall t | Reachable(env, s, t) ensures t in Cells(env) + {s} {
      var acts :| Reaches(env, s, acts, t);
      if acts != [] {
        assert Open(env, Replay(s, acts)[|acts|]);
        InBoundsIffCell(env, t);
      }
    }
  }

  /** Every state recorded in a ranked parent map is reachable from the start, so there are at most `|ReachSet|` of them. */
  lemma RecordsWithinReach(env: Env, parent: ParentMap, start: Pos, rank: map<Pos, nat>)
    requires Ranked(env, parent, start, rank)
    ensures parent.Keys <= ReachSet(env, start)
    ensures |parent| <= |ReachSet(env, start)|
  {
    ReachSetMembers(env, start);
    forall x | x in parent ensures Reachable(env, start, x) {
      ReconstructReaches(env, parent, start, rank, x);
    }
    SubsetCard(parent.Keys, ReachSet(env, start));
  }

  /** A closed set holding `s` holds every state reachable from `s`. */
  lemma ClosedHoldsReach(env: Env, S: set<Pos>, s: Pos)
    requires Closed(env, S) && s in S
    ensures ReachSet(env, s) <= S
  {
    ReachSetMembers(env, s);
    forall t | Reachable(env, s, t) ensures t in S {
      var acts :| Reaches(env, s, acts, t);
      ClosedTrapsPaths(env, S, s, acts);
    }
  }

  /**
   A ranked parent map recording a closed set that holds the start records
   exactly the reachable states, and so has `|ReachSet|` entries.
   */
  lemma RecordsReach(env: Env, parent: ParentMap, start: Pos, rank: map<Pos, nat>, S: set<Pos>)
    requires Ranked(env, parent, start, rank)
    requires Closed(env, S) && start in S && S <= parent.Keys
    ensures parent.Keys == ReachSet(env, start)
    ensures |parent| == |ReachSet(env, start)|
  {
    RecordsWithinReach(env, parent, start, rank);
    ClosedHoldsReach(env, S, start);
  }

  /** Reachability reads only the grid: another start or other goals leave the reachable states unchanged. */
  lemma ReachSetIgnoresTargets(env: Env, start: Pos, goals: set<Pos>, s: Pos)
    ensures ReachSet(env.(start := start, goal := goals), s) == ReachSet(env, s)
  {
    var env' := env.(start := start, goal := goals);
    ReachSetMembers(env, s);
    ReachSetMembers(env', s);
    assert forall y :: Open(env', y) <==> Open(env, y);
    forall t | Reachable(env', s, t) ensures Reachable(env, s, t) {
      var acts :| Reaches(env', s, acts, t);
      assert Reaches(env, s, acts, t);
    }
    forall t | Reachable(env, s, t) ensures Reachable(env', s, t) {
      var acts :| Reaches(env, s, acts, t);
      assert Reaches(env', s, acts, t);
    }
  }
}
